=== FILE: README.md ===
# Lelekart storefront client, modelled in Dafny

This project models the client-side logic of the Lelekart storefront. That logic
decides which products the home page shows, and the model proves what those
choices guarantee. It covers:

- **Home page strips.** Price tiers (under ₹199 / ₹399 / ₹599). Discount tiers
  (20 / 40 / 50 % off, by the rounded discount). The featured products. The
  per-category lists and blocks. The "Recently Viewed" section.
- **Home page boxes.** The three curated four-product boxes: "Best Seller",
  "Trending Products" and "Featured Deal". This also covers the two
  `pickTrendingFashionProducts` helpers.
- **Cart page.** The unit price, subtotal, delivery and total. The quantity
  buttons. The key each line's buttons send to the cart store. Checkout routing.
  Image fallbacks.
- **Product cards.** The main product card: discount badge, struck-through list
  price, price line, add-to-cart guard and the recently-viewed list it writes.
  The fashion product card: image choice, list price and add-to-cart guard.
- **Hero section.** Slide navigation and autoplay. The deal-of-the-day
  countdown. Fallback pictures. Click targets. The deal's add-to-cart guard.
- **Category mega menu.** The split into dropdowns and plain links, the lists
  each dropdown shows, and the expansion toggle.
- **The two headers.** The cart count and badge, the dashboard links, the
  role-dependent entries, and the mobile-menu state.

Every operation is a pure function over immutable data. The only exception is
the cart totals, which are a loop method checked against a recursive reference
sum.

Network answers, `localStorage` contents and the signed-in user are parameters:

- a fetch is a function from id to outcome;
- the stored recently-viewed value is a datatype of its parse outcomes;
- the user is `Option<User>`.

Modules:

| file | module | models |
|---|---|---|
| `options.dfy` | `Options` | optional values |
| `text.dfy` | `Text` | ASCII lower-casing, `includes`, decimal rendering |
| `seqs.dfy` | `Seqs` | `filter`, `slice(0, k)`, subsequences, distinct keys |
| `sorting.dfy` | `Sorting` | `Array.prototype.sort` as a stable sort |
| `catalog.dfy` | `Catalog` | products, the rounded discount, the stored id list |
| `users.dfy` | `Users` | the signed-in user |
| `picking.dfy` | `Picking` | "one pick per rule, then backfill" |
| `curation.dfy` | `Curation` | the home page's strips and the recently-viewed section |
| `trending.dfy` | `Trending` | Trending box and trending helpers |
| `bestseller.dfy` | `BestSeller` | Best Seller box |
| `featured.dfy` | `FeaturedDeal` | Featured Deal box |
| `cart.dfy` | `Cart` | cart page |
| `productcard.dfy` | `ProductCard` | product card |
| `fashioncard.dfy` | `FashionCard` | fashion product card |
| `hero.dfy` | `Hero` | hero slider and deal of the day |
| `megamenu.dfy` | `MegaMenu` | category mega menu |
| `header.dfy` | `Header` | main header |
| `simpleheader.dfy` | `SimpleHeader` | simplified header |

### Behaviour worth knowing

- **Best Seller.** The leader loop takes the first two candidates in discount
  order, and those are always 50 % products when two exist. Each other group
  then gets one top-up. So the box renders exactly when at least two loaded
  products are in the 50 % tier and at least one is in each of the 40 % and 20 %
  tiers (`BestSeller.BestSellerShownIff`). It never shows a product twice as
  long as the loaded ids are distinct (`BestSeller.BestSellerDistinct`).
- **Mega-menu chevron.** Hovering a subcategory row already expands it, and the
  pointer is over the row when its chevron is clicked. So the click collapses
  the list the hover opened (`MegaMenu.HoverThenChevron`).
- **Featured Deal.** The sort by list price is descending but allows ties, so
  the box's list prices are non-increasing, not strictly decreasing.
- **"Become a Seller".** The link is written `!user || (…)`. For a guest the
  expression is `true`, which React renders as nothing. Guests therefore never
  see the link (`Header.BecomeSellerShown`).

## Model

Paths are relative to the repository root.

| member | source | states |
|---|---|---|
| Catalog.RoundsToNearest | client/src/pages/home-page.tsx:431 | `RoundedDiscount`, the model of `Math.round(((mrp - price) / mrp) * 100)`, is the integer r with mrp·(2r−1) ≤ 200·(mrp−price) < mrp·(2r+1), i.e. the exact percentage rounded half up |
| Catalog.DiscountRange | client/src/pages/home-page.tsx:431 | with 0 ≤ price ≤ mrp the rounded discount lies in [0, 100] and is positive exactly when the saving is at least half a percent |
| Sorting.SortBy | client/src/pages/home-page.tsx:648 | the sort returns a permutation of its input ordered by the key |
| Sorting.SortStable | client/src/pages/home-page.tsx:648 | the sort is stable: elements with equal keys keep their input order |
| Sorting.FilterSorted | client/src/pages/home-page.tsx:659 | searching a sorted list in order finds the smallest-keyed match first: filtering keeps the order |
| Curation.FirstMatching | client/src/pages/home-page.tsx:428 | `filter(p).slice(0, k)` is exactly the first min(k, number of matches) matches: the m-th match of the list, for each m < k, sits at position m |
| Seqs.FirstMatchesUnique | client/src/pages/home-page.tsx:428 | two lists that are both the first k matches of the same list are equal, so the first-k statements pin each strip completely |
| Curation.TierOfPrice | client/src/pages/home-page.tsx:428-430 | a price has a tier exactly when it is at most 599, and that tier's bounds contain it |
| Curation.PriceTiersPartition | client/src/pages/home-page.tsx:428-430 | the three price tiers do not overlap: a price is in a tier exactly when that tier is its tier |
| Curation.PriceTierProducts | client/src/pages/home-page.tsx:428-430 | a price strip is exactly the first four products in the tier, in list order |
| Curation.PriceSection | client/src/pages/home-page.tsx:574-588 | a price section renders exactly when some product is in the tier, with one to four tier products |
| Curation.DiscountTierOf | client/src/pages/home-page.tsx:431-433 | a product's discount tier, if any, satisfies that tier's filter, and a product with none satisfies no tier filter |
| Curation.DiscountTiersDisjoint | client/src/pages/home-page.tsx:431-433 | a product passes one discount-tier filter exactly when that tier is its tier, so the tiers are disjoint |
| Curation.DiscountTierIsRealDiscount | client/src/pages/home-page.tsx:431-433 | every product in a discount tier has list price above price and saves at least 19.5 % |
| Curation.DiscountTierProducts | client/src/pages/home-page.tsx:431-433 | a tier list is exactly the first five products in the tier, in list order |
| Curation.DiscountSection | client/src/pages/home-page.tsx:707-722 | a discount section renders exactly when some product is in the tier, and shows the first four of the tier list, which are the first four tier products of the list |
| Curation.FeaturedProducts | client/src/pages/home-page.tsx:350-353 | the preloaded products are exactly the first five real deals, in list order |
| Curation.ProductsByCategory | client/src/pages/home-page.tsx:406-415 | a category list is exactly the first six products of the category (case-insensitive), in list order; empty exactly when the category has no product |
| Curation.CategoryMatchIgnoresCase | client/src/pages/home-page.tsx:409-412 | the category match ignores the letter case of the requested name |
| Curation.GroupFor | client/src/pages/home-page.tsx:417-423 | a name yields a group titled "Top <name>" holding that category's list exactly when the list is non-empty, else nothing |
| Curation.Categorized | client/src/pages/home-page.tsx:417-425 | dropping the empty categories never yields more groups than names |
| Curation.CategorizedGroups | client/src/pages/home-page.tsx:417-425 | every group kept is for one of the requested names, titled "Top <name>", holding that category's non-empty list |
| Curation.CategorizedCovers | client/src/pages/home-page.tsx:417-425 | every category that has products gets a group |
| Curation.CategorizedProducts | client/src/pages/home-page.tsx:417-425 | at most eight groups, each for a storefront category and non-empty |
| Curation.CategoryBlock | client/src/pages/home-page.tsx:729-745 | a category block renders exactly when the category has products, linking to `/category/<lower-cased name>`, and shows the first four products of the category |
| Curation.FetchAll | client/src/pages/home-page.tsx:131-134 | `Promise.all` over the requests fails exactly when some request fails, else yields at most one product per id |
| Curation.FindById | client/src/pages/home-page.tsx:137 | `find` returns a product with the id, or reports that none has it |
| Curation.FindByIdFirst | client/src/pages/home-page.tsx:137 | `find` returns the first product carrying the id: no product before it has that id |
| Curation.Reorder | client/src/pages/home-page.tsx:136-138 | the reordered list has at most one product per id, each fetched and with a requested id |
| Curation.RecentlyViewed | client/src/pages/home-page.tsx:119-146 | the section shows at most five products, all with ids among the latest five stored; an unusable stored value or any failed request shows nothing |
| Curation.FetchAllServed | client/src/pages/home-page.tsx:131-134 | without failures the fetched products are exactly the catalogue's answers in request order |
| Curation.FindServed | client/src/pages/home-page.tsx:137 | among products an honest catalogue served, looking up an id finds the catalogue's own answer for it, if that answer is there |
| Curation.ReorderServed | client/src/pages/home-page.tsx:136-138 | re-ordering answers from an honest catalogue by `find` gives back the answers in id order |
| Curation.ServedFromCatalogue | client/src/pages/home-page.tsx:131-138 | every served product is the catalogue's answer for its own id, and every answer is served |
| Curation.RecentlyViewedShowsServed | client/src/pages/home-page.tsx:119-146 | with an honest catalogue and no failures the section shows exactly the served products of the latest five ids, in stored order |
| Picking.FindUnused | client/src/pages/home-page.tsx:659 | the search returns the first position holding an unused product that matches the rule, or reports there is none |
| Picking.ApplyRules | client/src/pages/home-page.tsx:658-664 | the rule phase picks at most one product per rule, all from the pool, unused before, and with distinct ids |
| Picking.RuleStep | client/src/pages/home-page.tsx:659-663 | one rule adds nothing exactly when every pool product matching it has a used id, and otherwise adds exactly the first unused matching product of the pool (the one `FindUnused` finds) |
| Picking.ApplyRulesUnfold | client/src/pages/home-page.tsx:656-664 | the rule phase is the first rule's step followed by the remaining rules run with that step's id added to the used ids, so each rule contributes the first unused match in rule order |
| Picking.RulePhase | client/src/pages/home-page.tsx:656-664 | the `for` loop over the rules with its `usedIds` set computes exactly the rule phase |
| Picking.DistinctFresh | client/src/pages/home-page.tsx:666-672 | the backfill candidates are pool products with unused, pairwise distinct ids |
| Picking.DistinctFreshIds | client/src/pages/home-page.tsx:666-672 | the backfill candidates' ids are exactly the pool's ids minus the used ones |
| Picking.BackfillWithRoom | client/src/pages/home-page.tsx:665-672 | with room left, `Backfill` appends candidates in pool order until full |
| Picking.BackfillOverfull | client/src/pages/home-page.tsx:665-672 | an already overfull list is still extended, since the loop only stops at exactly `cap` |
| Picking.BackfillCut | client/src/pages/home-page.tsx:665-672 | after the final cut, the backfill is the picks followed by the candidates, cut to `cap` |
| Picking.PicksThenFreshDistinct | client/src/pages/home-page.tsx:656-672 | rule picks followed by backfill candidates never repeat an id |
| Picking.PicksThenFreshCount | client/src/pages/home-page.tsx:656-672 | rule picks plus backfill candidates number exactly the pool's distinct ids |
| Picking.SubsetCount | client/src/pages/home-page.tsx:666-672 | removing the used ids leaves as many ids as were not used |
| Picking.Pick | client/src/pages/home-page.tsx:656-673 | the selection has min(cap, distinct pool ids) products, all from the pool, with distinct ids |
| Picking.PickShape | client/src/pages/home-page.tsx:656-673 | the selection is the rule picks followed by the unused products in pool order, cut to `cap` |
| Picking.DistinctFreshIsSubsequence | client/src/pages/home-page.tsx:666-672 | the backfill keeps the pool's order |
| Picking.BackfillWithinCap | client/src/pages/home-page.tsx:665-672 | when the picks fit, the backfill never exceeds `cap`, so a final cut changes nothing |
| Picking.FindFirstMatch | client/src/pages/home-page.tsx:659 | with nothing used, the search succeeds exactly when a product matches, and finds the first match |
| Picking.FirstRulePick | client/src/pages/home-page.tsx:658-664 | the selection opens with the first pool product matching the first rule |
| Trending.TrendingDiscount | client/src/pages/home-page.tsx:640-646 | the rank equals the product card's badge percentage on every real deal, and lies in [0, 100] whenever the price does not exceed the list price |
| Trending.FashionByDiscount | client/src/pages/home-page.tsx:638-648 | the pool is a permutation of the fashion products, ordered by ascending discount |
| Trending.TrendingProducts | client/src/pages/home-page.tsx:638-673 | the box holds min(4, distinct fashion ids) fashion products with distinct ids: the rule picks, then the least-discounted unused products |
| Trending.TrendingOpensWithCheapestShirt | client/src/pages/home-page.tsx:650-664 | if any fashion product's name contains "shirt", the box opens with a shirt discounted no more than any such product |
| Trending.TrendingShownIff | client/src/pages/home-page.tsx:638-673 | the box renders, with four products, exactly when at least four distinct ids belong to fashion products |
| Trending.PickTrendingFashion | client/src/pages/home-page.tsx:436-461 | the helper returns min(4, distinct ids) products of its input with distinct ids |
| Trending.PickTrendingFashionStrict | client/src/pages/home-page.tsx:464-493 | the strict helper returns min(4, distinct ids) products of its input with distinct ids |
| Trending.PickersLeadWithFirstRule | client/src/pages/home-page.tsx:436-493 | both helpers open with the first product matching their first rule |
| BestSeller.CandidatesWellTiered | client/src/pages/home-page.tsx:595-599 | every candidate's product is loaded and has a rounded discount inside its tag's tier |
| BestSeller.RankedFacts | client/src/pages/home-page.tsx:595-605 | the ranked candidates are sorted by descending discount, and each is well tiered and from the loaded products |
| BestSeller.RankOrdersDiscount | client/src/pages/home-page.tsx:595-605 | the tiers' discount ranges are ordered, so a higher tier always has a strictly higher discount |
| BestSeller.BestSellerProducts | client/src/pages/home-page.tsx:595-621 | the box holds at most four products, each a loaded product whose rounded discount lies in the tier of the group that shows it (that no product repeats is `BestSellerDistinct`; which products, and when four, are pinned by `BestSellerShape` and `BestSellerShownIff`) |
| BestSeller.BestSellerDistinct | client/src/pages/home-page.tsx:595-621 | whatever its length, the box never shows two products with the same id, provided the loaded products carry distinct ids |
| BestSeller.CandidatesDistinct | client/src/pages/home-page.tsx:595-600 | the tagged tier lists together repeat no id: each keeps the loaded order and a product falls in one discount tier only |
| BestSeller.LeadersSaturated | client/src/pages/home-page.tsx:608-612 | once two candidates are grouped, the loop adds nothing more |
| BestSeller.LeadersFromEmpty | client/src/pages/home-page.tsx:607-612 | from empty groups the loop groups the first one or two ranked candidates by tier |
| BestSeller.LeadersAreFirstTwo | client/src/pages/home-page.tsx:607-612 | after the `Leaders` loop, each group holds exactly the tier's candidates among the first two ranked |
| BestSeller.FillGet | client/src/pages/home-page.tsx:613-619 | `FillMissing` leaves a non-empty group alone and gives an empty one the tier's first candidate, if any |
| BestSeller.FillTierGet | client/src/pages/home-page.tsx:613-619 | one fill step touches only its own tier, and only when that group is empty |
| BestSeller.TierCountsAddUp | client/src/pages/home-page.tsx:595-599 | the three tiers split the candidate list |
| BestSeller.HeadIsTop | client/src/pages/home-page.tsx:601-605 | when a 50 % candidate exists, the top-ranked candidate is one |
| BestSeller.TailRanked | client/src/pages/home-page.tsx:601-605 | the rest of a ranked list is ranked |
| BestSeller.LeadersBounded | client/src/pages/home-page.tsx:607-612 | a tier never has more leaders than candidates |
| BestSeller.LeadersTotal | client/src/pages/home-page.tsx:607-612 | there are at most two leaders in all |
| BestSeller.LeadersTop | client/src/pages/home-page.tsx:601-612 | the 50 % candidates lead: one if one exists, two if two do |
| BestSeller.TagFilter | client/src/pages/home-page.tsx:595-599 | tagging a tier list puts all of it in that tier and none in the others |
| BestSeller.TierCount | client/src/pages/home-page.tsx:595-600 | a tier has as many ranked candidates as its tier list has products |
| BestSeller.FilledSize | client/src/pages/home-page.tsx:607-619 | after filling, a group holds its leaders, or else one candidate when the tier has any |
| BestSeller.GroupSizesTop | client/src/pages/home-page.tsx:607-621 | with two or more 50 % products the 50 % group holds two and each lower group holds one candidate when its tier has any |
| BestSeller.GroupSizesLow | client/src/pages/home-page.tsx:607-621 | with at most one 50 % product the groups hold at most three candidates |
| BestSeller.BestSellerShownIff | client/src/pages/home-page.tsx:595-622 | at most four products; exactly four (so the box renders) iff ≥2 products are in the 50 % tier and ≥1 each in the 40 % and 20 % tiers |
| BestSeller.TopTwoLead | client/src/pages/home-page.tsx:601-612 | with two 50 % candidates, the first two ranked are those and are the only leaders |
| BestSeller.FullGroups | client/src/pages/home-page.tsx:613-621 | with the two 50 % leaders and candidates in both other tiers, the groups end as the 20 % top-up, the 40 % top-up and the two leaders |
| BestSeller.TopUp | client/src/pages/home-page.tsx:613-619 | a single fill step adds the tier's first candidate only to an empty group |
| BestSeller.BestSellerShape | client/src/pages/home-page.tsx:595-622 | a rendered box shows the best 20 % candidate, the best 40 % candidate and the two top-ranked (50 %) candidates, in that order |
| BestSeller.FirstOfTierIsBest | client/src/pages/home-page.tsx:601-605 | the first ranked candidate of a tier has the tier's highest discount |
| FeaturedDeal.RankedDealsMembers | client/src/pages/home-page.tsx:689 | every deal in the list-price ranking is a loaded product with a real discount |
| FeaturedDeal.FeaturedDealProducts | client/src/pages/home-page.tsx:689 | min(4, real deals) real deals from the loaded products, in non-increasing list-price order |
| FeaturedDeal.FeaturedDealIsTopFour | client/src/pages/home-page.tsx:689 | a real deal left out of the box is listed no higher than any deal shown, which fills the box |
| Cart.UnitPrice | client/src/pages/cart-page.tsx:68-75 | a deal of the day is charged its product price, otherwise the variant price when a variant is chosen, else the product price |
| Cart.SubtotalAppend | client/src/pages/cart-page.tsx:68-81 | subtotal and delivery are additive over concatenated line lists |
| Cart.Totals | client/src/pages/cart-page.tsx:68-82 | the two left-to-right reductions compute the reference subtotal and delivery sums, and the total is their sum |
| Cart.QuantityChange | client/src/pages/cart-page.tsx:68-81 | changing one line's quantity moves subtotal and delivery by the change times that line's unit price and charge only |
| Cart.TotalsNonNegative | client/src/pages/cart-page.tsx:68-82 | with non-negative prices, charges and quantities, both sums are non-negative |
| Cart.DealIgnoresVariant | client/src/pages/cart-page.tsx:70-71 | a deal of the day's amount and delivery do not depend on the chosen variant |
| Cart.DecrementRequest | client/src/pages/cart-page.tsx:206-212 | minus asks for one less, never below 1, and is disabled at quantity 1 or below |
| Cart.IncrementRequest | client/src/pages/cart-page.tsx:224-228 | plus always asks for more |
| Cart.IncrementThenDecrement | client/src/pages/cart-page.tsx:206-228 | a plus undone by a minus restores the quantity, and plus raises the subtotal by exactly the unit price |
| Cart.LineKey | client/src/pages/cart-page.tsx:208 | a signed-in line with an id is addressed by its id, otherwise by its position |
| Cart.GuestKeysDistinct | client/src/pages/cart-page.tsx:206-243 | a guest's lines never share a key |
| Cart.SignedInKeysDistinct | client/src/pages/cart-page.tsx:206-243 | a signed-in cart with distinct line ids never shares a key |
| Cart.View | client/src/pages/cart-page.tsx:94-111 | the empty view shows exactly for an empty cart, otherwise the sums with total = subtotal + delivery |
| Cart.CheckoutTarget | client/src/pages/cart-page.tsx:57-65 | checkout goes to `/checkout` exactly when signed in, and a guest goes to `/auth?returnUrl=/checkout` |
| Cart.LineImage | client/src/pages/cart-page.tsx:131-134 | a line always has a picture: the product's image when set, else the fashion placeholder |
| Cart.LineImageOnError | client/src/pages/cart-page.tsx:137-147 | after a load error the line shows its category's picture, else the placeholder |
| ProductCard.DiscountPercent | client/src/components/ui/product-card.tsx:111-115 | the card's discount is the rounded discount for a truthy price below a truthy list price, and 0 otherwise; it lies in [0, 100] and is positive exactly for such deals saving at least half a percent |
| ProductCard.DiscountShownIff | client/src/components/ui/product-card.tsx:116-122 | `HasDiscount` holds exactly for real deals with a truthy price saving at least half a percent, and `StrikeThroughShown` exactly when it does |
| ProductCard.BadgeShownIff | client/src/components/ui/product-card.tsx:116-124 | `BadgeShown` holds exactly when badges are enabled and the deal saves at least half a percent, and then the badge shows the rounded discount, at least 1 |
| ProductCard.DisplayedPrice | client/src/components/ui/product-card.tsx:203-205 | the price line shows the GST-inclusive price when present, else the price |
| ProductCard.AddToCart | client/src/components/ui/product-card.tsx:73-106 | guests sign in, admins and sellers are refused, anyone else adds inside a cart provider |
| ProductCard.AddToCartByDashboard | client/src/components/ui/product-card.tsx:73-106 | the guard sorts users as the header's dashboard link does: guests are those sent to `/auth`, the refused ones have an admin or seller dashboard, and the rest add to a cart that is there |
| ProductCard.Others | client/src/components/ui/product-card.tsx:150 | removing an id keeps every other id and nothing equal to it |
| ProductCard.RecordView | client/src/components/ui/product-card.tsx:136-166 | the written list is the product followed by the first nineteen other stored ids in stored order, so min(20, 1 + other ids) entries; a missing or unparsable stored value writes `[id]`, and a value that is JSON but not a list writes nothing |
| ProductCard.MoveToFront | client/src/components/ui/product-card.tsx:149-154 | the id moved to the front of the list with every copy of it removed, then cut to twenty: the rest is the first nineteen other ids, in order |
| ProductCard.RecordViewIdempotent | client/src/components/ui/product-card.tsx:136-155 | recording the same product twice writes the same list as once |
| ProductCard.RecordViewDistinct | client/src/components/ui/product-card.tsx:136-155 | a stored list without repeats gives a written list without repeats |
| ProductCard.ProductLink | client/src/components/ui/product-card.tsx:185 | the card opens `/products/` followed by the product id |
| FashionCard.JsRem | client/src/components/ui/fashion-product-card-fixed.tsx:91 | JavaScript's `%` lies in [0, b) for a non-negative dividend and in (−b, 0] for a negative one |
| FashionCard.JsRemDivision | client/src/components/ui/fashion-product-card-fixed.tsx:91 | JavaScript's `%` is the remainder of division rounded toward zero: dividend = divisor · truncated quotient + remainder |
| FashionCard.FirstImage | client/src/components/ui/fashion-product-card-fixed.tsx:73-88 | the `images` field yields a picture exactly when it parses to an array whose first entry is a string, and the picture is that string |
| FashionCard.ImageSrc | client/src/components/ui/fashion-product-card-fixed.tsx:54-93 | `imageUrl`, then `image_url` if usable, then exactly the first `images` entry, else the fallback at the id's JavaScript remainder by 5; no source exactly when that remainder is negative, i.e. for negative ids not divisible by 5 |
| FashionCard.FallbackCycles | client/src/components/ui/fashion-product-card-fixed.tsx:90-92 | for non-negative ids the fallback is picture id mod 5, so ids five apart share it |
| FashionCard.ParsedPlaceholderIsUsed | client/src/components/ui/fashion-product-card-fixed.tsx:72-88 | the card shows an empty or placeholder URL exactly when neither URL field is usable and the first `images` entry is such a URL |
| FashionCard.StrikeThroughShown | client/src/components/ui/fashion-product-card-fixed.tsx:141-174 | the list price is struck through exactly when it is numeric and above the price |
| FashionCard.StrikeThroughAgainstProductCard | client/src/components/ui/fashion-product-card-fixed.tsx:170 | wherever the main card strikes a list price through, the fashion card does too |
| FashionCard.StruckOnlyHere | client/src/components/ui/fashion-product-card-fixed.tsx:170 | for any list price m, the fashion card strikes it through while the main card does not exactly when m is above the price and the price is 0 or saves under half a percent |
| FashionCard.AddToCart | client/src/components/ui/fashion-product-card-fixed.tsx:95-128 | the same guard as the main card: guests sign in, admins and sellers refused, nothing outside a cart provider |
| FashionCard.ProductLink | client/src/components/ui/fashion-product-card-fixed.tsx:148 | the card links to `/product/` followed by the id |
| Hero.GoToSlide | client/src/components/ui/hero-section.tsx:144-154 | a valid index is kept, below 0 wraps to the last slide, at or past the end to the first; with no slides, −1 or 0 |
| Hero.SliderIsCyclic | client/src/components/ui/hero-section.tsx:156-196 | on a valid slide, `NextSlide` and `PrevSlide` are successor and predecessor mod the count, `AdvanceSlide` (autoplay) equals next, and each undoes the other |
| Hero.EmptySlider | client/src/components/ui/hero-section.tsx:144-154 | with no slides, "previous" yields the index −1 and autoplay stays at 0 |
| Hero.TickCountsDown | client/src/components/ui/hero-section.tsx:116-137 | `Tick` on a valid reading stays valid and removes exactly one second; it refetches exactly when at most one second was left |
| Hero.CountdownReachesZero | client/src/components/ui/hero-section.tsx:115-139 | a valid reading reaches zero after exactly its number of seconds of ticks |
| Hero.CountdownFromDeal | client/src/components/ui/hero-section.tsx:96-109 | `StartCountdown` reads a missing or zero field as 0, and a deal whose fields form a clock reading runs out after exactly its number of seconds of ticks |
| Hero.CategoryImage | client/src/components/ui/hero-section.tsx:50-69 | a known category's picture by its lower-cased name, else the placeholder |
| Hero.FirstKeyword | client/src/components/ui/hero-section.tsx:74-90 | finds the first keyword the subtitle contains, with none earlier contained, or reports none |
| Hero.DealCategoryImage | client/src/components/ui/hero-section.tsx:72-93 | the deal's fallback picture is that of the first keyword contained, lower-cased, else the general one |
| Hero.DealCategoryPrefersEarlierKeyword | client/src/components/ui/hero-section.tsx:74-90 | a subtitle naming several categories gets the earliest in keyword order |
| Hero.SlideImage | client/src/components/ui/hero-section.tsx:315-319 | a slide shows its URL unless empty or from placeholder.com, else its category picture |
| Hero.DealImage | client/src/components/ui/hero-section.tsx:456-461 | the deal shows its image unless empty or from placeholder.com, else its category picture |
| Hero.SlideTarget | client/src/components/ui/hero-section.tsx:166-177 | a slide with a product opens `/product/<id>`; otherwise a slide with a category opens `/category/<lower-cased category>`, followed by `?subcategory=<lower-cased subcategory>` exactly when one is given; otherwise nothing |
| Hero.DealTarget | client/src/components/ui/hero-section.tsx:449-453 | the deal's picture opens a product page exactly when it has a product id |
| Hero.DealAndSlideAgree | client/src/components/ui/hero-section.tsx:166-177 | the deal and a slide with the same product open the same page |
| Hero.DealAddToCart | client/src/components/ui/hero-section.tsx:224-247 | nothing without a product id, then guests sign in, admins and sellers refused, else fetch and add |
| Hero.DealGuardMatchesCard | client/src/components/ui/hero-section.tsx:224-247 | with a product id the deal refuses exactly whom a product card refuses |
| MegaMenu.SubcategoriesFor | client/src/components/layout/category-mega-menu.tsx:50-53 | a dropdown lists exactly the category's active first-level subcategories, in server order, and nothing before loading |
| MegaMenu.ChildrenOf | client/src/components/layout/category-mega-menu.tsx:56-59 | the second-level list is exactly the subcategory's active children, in server order |
| MegaMenu.Menu | client/src/components/layout/category-mega-menu.tsx:67-93 | skeletons exactly while loading, nothing exactly without categories, else the active categories split by having active subcategories, each part in server order |
| MegaMenu.SplitCount | client/src/components/layout/category-mega-menu.tsx:85-93 | splitting a filter by a second condition loses and duplicates nothing |
| MegaMenu.MenuPartitionsActive | client/src/components/layout/category-mega-menu.tsx:85-93 | every active category is a dropdown or a link but not both, and the two number the active categories |
| MegaMenu.ListedImpliesDropdown | client/src/components/layout/category-mega-menu.tsx:50-65 | a category with first-level entries passes `HasSubcategories`, so it is a dropdown |
| MegaMenu.DropdownMayListNothing | client/src/components/layout/category-mega-menu.tsx:50-65 | a category is a dropdown that lists nothing exactly when it owns active subcategories and all of them are second-level |
| MegaMenu.ParentZeroIsBoth | client/src/components/layout/category-mega-menu.tsx:52-58 | a subcategory with parent id 0 counts as first level and as a child of id 0 |
| MegaMenu.ToggleExpanded | client/src/components/layout/category-mega-menu.tsx:126-131 | the chevron collapses the expanded subcategory, else expands this one |
| MegaMenu.Expand | client/src/components/layout/category-mega-menu.tsx:117-131 | entering a row expands exactly that row, leaving any row collapses everything, and the chevron collapses exactly the expanded row and otherwise expands its own |
| MegaMenu.HoverThenChevron | client/src/components/layout/category-mega-menu.tsx:117-131 | a chevron click, which comes with the pointer already over its row, collapses the row the hover expanded; after leaving a row no second-level list is shown |
| MegaMenu.ToggleTwice | client/src/components/layout/category-mega-menu.tsx:126-131 | two presses restore the state unless another subcategory was expanded, which ends collapsed |
| MegaMenu.AtMostOneExpanded | client/src/components/layout/category-mega-menu.tsx:145 | at most one subcategory's children are shown |
| MegaMenu.CategoryLink | client/src/components/layout/category-mega-menu.tsx:173 | a category links to `/category/` followed by its slug |
| MegaMenu.ChildLink | client/src/components/layout/category-mega-menu.tsx:153 | a second-level entry links to its category page narrowed by both subcategory slugs |
| Header.ItemCount | client/src/components/layout/header.tsx:38 | the count is NaN exactly when some line's quantity is undefined (a null quantity adds as 0) |
| Header.SumAppend | client/src/components/layout/header.tsx:38 | the quantity sum is additive over concatenation |
| Header.ItemCountIsSum | client/src/components/layout/header.tsx:38 | with all quantities present the count is their sum |
| Header.BadgeShown | client/src/components/layout/header.tsx:241 | the badge shows exactly when the count is a number above 0; a NaN count hides it |
| Header.MissingQuantityHidesBadge | client/src/components/layout/header.tsx:38-245 | a line whose quantity is undefined hides the badge |
| Header.DashboardLink | client/src/components/layout/header.tsx:52-66 | sign-in exactly for guests, each known role's dashboard exactly for it, the home page exactly for other roles |
| Header.AccountLabel | client/src/components/layout/header.tsx:150 | admins and sellers get their own account label, and every other role is labelled a buyer account |
| Header.DashboardEntryLabel | client/src/components/layout/header.tsx:157-161 | the dashboard entry matches the account label: "My Profile" exactly for a buyer account, else the admin or seller dashboard |
| Header.UnknownRoleLooksLikeBuyer | client/src/components/layout/header.tsx:52-161 | an unknown role is labelled a buyer account yet its dashboard entry leads home |
| Header.BuyerEntries | client/src/components/layout/header.tsx:164-177 | orders and wishlist appear exactly for buyers |
| Header.BecomeSellerShown | client/src/components/layout/header.tsx:188-198 | the link shows exactly to signed-in users who are neither buyers nor sellers |
| Header.BecomeSellerAudience | client/src/components/layout/header.tsx:342-353 | guests never see the link, admins always do |
| Header.MobileAccountLink | client/src/components/layout/header.tsx:319 | a guest's mobile account link is sign-in |
| Header.MobileLinkAgrees | client/src/components/layout/header.tsx:319 | the mobile account link always equals the desktop dashboard link |
| Header.MobileAccountLabel | client/src/components/layout/header.tsx:339 | "Login / Sign Up" for guests, else the name, else the username |
| Header.Step | client/src/components/layout/header.tsx:68-70 | the cart button goes to `/cart` keeping the menu; the menu button flips the menu keeping the location |
| Header.ToggleTwice | client/src/components/layout/header.tsx:284 | two menu presses restore the state |
| SimpleHeader.ItemCount | client/src/components/layout/simple-header.tsx:62-65 | with non-negative quantities the count is non-negative |
| SimpleHeader.ItemCountIsSum | client/src/components/layout/simple-header.tsx:62-65 | the count is the sum of the quantities, a missing one read as 0 |
| SimpleHeader.CountsAgree | client/src/components/layout/simple-header.tsx:62-65 | with every quantity present both headers count the same; with one missing only this header still shows a number |
| SimpleHeader.DashboardLink | client/src/components/layout/simple-header.tsx:97-102 | guests go home, admins and sellers to their dashboards, every other role to the buyer dashboard |
| SimpleHeader.DashboardLinksAgreeIff | client/src/components/layout/simple-header.tsx:97-102 | the two headers' dashboard links agree exactly for signed-in admins, sellers and buyers |
| SimpleHeader.CartLabel | client/src/components/layout/simple-header.tsx:200-201 | "Cart " followed by the count in parentheses exactly when positive |
| SimpleHeader.AccountButtons | client/src/components/layout/simple-header.tsx:189-199 | guests get only a Login button to `/auth`; users get Dashboard to their dashboard link and Logout |
| SimpleHeader.Step | client/src/components/layout/simple-header.tsx:68-95 | navigating sets the location and closes the menu; cart changes only the location; close and backdrop only close; logout goes home on success, else nothing |
| SimpleHeader.MenuButtonsClose | client/src/components/layout/simple-header.tsx:88-95 | every navigating mobile button closes the menu, the cart button leaves it open |
| SimpleHeader.DismissRestores | client/src/components/layout/simple-header.tsx:167-205 | opening then dismissing the menu by any means restores the state |

## Left out

- Cart store operations. Adding to the cart, updating, removing and clearing live in the cart context, which is not part of this model. Here they are only the requests the page sends: a key and a quantity.
- I/O. Fetching, `localStorage`, navigation, toasts, query invalidation and analytics pixels are left out. Their results are parameters: a fetch outcome function, the stored-value datatype, the user option, and the `refetch` flag of a countdown tick.
- Timers. The one-second and five-second intervals are single steps (`Hero.Tick`, `Hero.AdvanceSlide`).
- Hover pause. Autoplay runs on its own five-second interval (`Hero.AdvanceSlide`), and the hover handlers never stop it: mouse-enter clears only a second interval, which does not exist until the first mouse-leave. Mouse-leave starts that second interval next to autoplay, and it advances from the slide index captured when it was created. The second interval is not modelled.
- Number formatting. Floating point, `toFixed` and `toLocaleString` are left out. Prices and quantities are whole numbers, and the discount's `Math.round` is modelled as exact-arithmetic rounding (halves up).
- Catalog.RoundedDiscount: rounds the exact percentage, while the browser rounds the double `((mrp - price) / mrp) * 100`. The two differ when the exact percentage is a half that the double lands just below. With list price 200 and price 171 the exact value is 14.5, the double is 14.499999999999998, and the browser shows 14 where the model gives 15. The badge text and the trending ranking key can differ by one on such prices. A product whose exact saving is 19.5 %, 39.5 % or 49.5 % is placed in the higher tier by the model; the browser could place it in the lower one.
- Lower-casing. `toLowerCase` is modelled on ASCII letters only.
- Regular expressions. The trending name tests are case-insensitive substring tests. `/t\s*-?shirt|shirt/i` and `/shirt|tshirt/i` match exactly the names that contain "shirt".
- JSON parsing. `JSON.parse` is represented by datatypes of its outcomes (`Catalog.StoredIds`, `FashionCard.ImagesField`). The fallback pictures' base64 payloads are replaced by their index.
- Rendering details. Markup, styling, skeleton counts, the browsing-history section and the "More" menu are out of scope.
- Unused helpers. The two `pickTrendingFashionProducts` helpers are defined in the source but never called. They are modelled on their own.
- Other components. Other components in the repository (search, shop-by-category, the older fashion card) are not part of this model.
- Curation.Categorized: the groups follow the order of the category names by definition, but no lemma states that order.

=== FILE: bestseller.dfy ===
/** The home page's "Best Seller" box: the 20%, 40% and 50% tier lists tagged
    with their tier, ranked by rounded discount (highest first), the first two
    taken as leaders, each still-empty tier topped up with its best candidate,
    and the groups flattened in the order 20, 40, 50 (a JavaScript object
    enumerates integer keys in ascending order). */
module BestSeller {
  import opened Seqs
  import opened Sorting
  import opened Catalog
  import opened Curation

  datatype Candidate = Candidate(product: Product, tier: DiscountTier)

  /** `ps.map(p => ({...p, _group: t}))`. */
  function Tag(ps: seq<Product>, t: DiscountTier): (r: seq<Candidate>)
    ensures |r| == |ps|
    ensures forall i :: 0 <= i < |r| ==> r[i].product == ps[i] && r[i].tier == t
  {
    seq(|ps|, i requires 0 <= i < |ps| => Candidate(ps[i], t))
  }

  function Candidates(products: seq<Product>): seq<Candidate> {
    Tag(DiscountTierProducts(products, Off20), Off20) +
    Tag(DiscountTierProducts(products, Off40), Off40) +
    Tag(DiscountTierProducts(products, Off50), Off50)
  }

  /** A candidate's rounded discount lies in its tier's interval. */
  predicate WellTiered(c: Candidate) {
    InDiscountTier(c.tier, c.product)
  }

  /** The rounded discount the candidates are ranked by. */
  function Discount(c: Candidate): int {
    if HasMrp(c.product) then RoundedDiscount(c.product.mrp.value, c.product.price) else 0
  }

  /** The descending comparator `bDisc - aDisc` as an ascending key. */
  function Descending(c: Candidate): int {
    -Discount(c)
  }

  function Rank(t: DiscountTier): int {
    match t
    case Off20 => 0
    case Off40 => 1
    case Off50 => 2
  }

  function IsTier(t: DiscountTier): Candidate -> bool {
    (c: Candidate) => c.tier == t
  }

  /** The tier intervals are ordered, so a higher tier always means a strictly
      higher discount. */
  lemma RankOrdersDiscount(a: Candidate, b: Candidate)
    requires WellTiered(a) && WellTiered(b)
    requires Rank(a.tier) < Rank(b.tier)
    ensures Discount(a) < Discount(b)
  {
  }

  /** A tier list's tagged candidates are well tiered and come from the loaded
      products. */
  lemma TierListWellTiered(products: seq<Product>, t: DiscountTier)
    ensures forall c :: c in Tag(DiscountTierProducts(products, t), t) ==>
      WellTiered(c) && c.product in products && c.tier == t
  {
    var tagged := Tag(DiscountTierProducts(products, t), t);
    forall c | c in tagged ensures WellTiered(c) && c.product in products && c.tier == t {
      var k :| 0 <= k < |tagged| && tagged[k] == c;
    }
  }

  /** Every candidate comes from its tier's list, so it is well tiered. */
  lemma CandidatesWellTiered(products: seq<Product>)
    ensures forall c :: c in Candidates(products) ==> WellTiered(c) && c.product in products
  {
    TierListWellTiered(products, Off20);
    TierListWellTiered(products, Off40);
    TierListWellTiered(products, Off50);
  }

  /** The candidates after `sort((a, b) => bDisc - aDisc)`. */
  function Ranked(products: seq<Product>): seq<Candidate> {
    SortBy(Candidates(products), Descending)
  }

  /** The ranking is by descending discount, over well-tiered candidates drawn
      from the loaded products. */
  lemma RankedFacts(products: seq<Product>)
    ensures SortedBy(Ranked(products), Descending)
    ensures forall i :: 0 <= i < |Ranked(products)| ==>
      WellTiered(Ranked(products)[i]) && Ranked(products)[i].product in products
  {
    var cands := Candidates(products);
    SortMembers(cands, Descending);
    CandidatesWellTiered(products);
    forall i | 0 <= i < |Ranked(products)|
      ensures WellTiered(Ranked(products)[i]) && Ranked(products)[i].product in products
    {
      assert Ranked(products)[i] in cands;
    }
  }

  // ---- The groups --------------------------------------------------------

  datatype Groups = Groups(g20: seq<Candidate>, g40: seq<Candidate>, g50: seq<Candidate>) {
    function Get(t: DiscountTier): seq<Candidate> {
      match t
      case Off20 => g20
      case Off40 => g40
      case Off50 => g50
    }

    function Push(t: DiscountTier, c: Candidate): Groups {
      match t
      case Off20 => this.(g20 := g20 + [c])
      case Off40 => this.(g40 := g40 + [c])
      case Off50 => this.(g50 := g50 + [c])
    }

    /** `Object.values(groups).flat()`: tier 20 first, then 40, then 50. */
    function Flat(): seq<Candidate> {
      g20 + g40 + g50
    }
  }

  const NoGroups := Groups([], [], [])

  /** The leader loop: a candidate joins its group while the group holds fewer
      than two and all groups together hold fewer than two. */
  function Leaders(s: seq<Candidate>, g: Groups): Groups
    decreases |s|
  {
    if |s| == 0 then g else Leaders(s[1..], Admit(g, s[0]))
  }

  /** One pass of the loop body. */
  function Admit(g: Groups, c: Candidate): Groups {
    if |g.Get(c.tier)| < 2 && |g.Flat()| < 2 then g.Push(c.tier, c) else g
  }

  /** An empty group receives the first candidate of its tier, if there is one. */
  function FillTier(g: Groups, s: seq<Candidate>, t: DiscountTier): Groups {
    var ofTier := Filter(s, IsTier(t));
    if |g.Get(t)| == 0 && |ofTier| > 0 then g.Push(t, ofTier[0]) else g
  }

  function FillMissing(g: Groups, s: seq<Candidate>): Groups {
    FillTier(FillTier(FillTier(g, s, Off20), s, Off40), s, Off50)
  }

  /** The box's candidates, in display order. */
  function BestSellerPicks(products: seq<Product>): seq<Candidate> {
    var s := Ranked(products);
    Take(FillMissing(Leaders(s, NoGroups), s).Flat(), 4)
  }

  /** The box's products, in display order; the box renders when there are four.
      Each is a loaded product whose rounded discount lies in the tier of the
      group that shows it. */
  function BestSellerProducts(products: seq<Product>): (r: seq<Product>)
    ensures |r| == |BestSellerPicks(products)| <= 4
    ensures forall i :: 0 <= i < |r| ==> r[i] == BestSellerPicks(products)[i].product
    ensures forall i :: 0 <= i < |r| ==> r[i] in products && InDiscountTier(BestSellerPicks(products)[i].tier, r[i])
  {
    PicksInTiers(products);
    var picks := BestSellerPicks(products);
    seq(|picks|, i requires 0 <= i < |picks| => picks[i].product)
  }

  // ---- Proofs ------------------------------------------------------------

  lemma {:induction false} LeadersSaturated(s: seq<Candidate>, g: Groups)
    requires |g.Flat()| >= 2
    ensures Leaders(s, g) == g
    decreases |s|
  {
    if |s| > 0 {
      LeadersSaturated(s[1..], g);
    }
  }

  /** Starting from empty groups, the loop takes the first two ranked candidates. */
  lemma LeadersFromEmpty(s: seq<Candidate>)
    ensures |s| == 0 ==> Leaders(s, NoGroups) == NoGroups
    ensures |s| == 1 ==> Leaders(s, NoGroups) == NoGroups.Push(s[0].tier, s[0])
    ensures |s| >= 2 ==> Leaders(s, NoGroups) == NoGroups.Push(s[0].tier, s[0]).Push(s[1].tier, s[1])
  {
    if |s| >= 1 {
      var g1 := NoGroups.Push(s[0].tier, s[0]);
      assert Admit(NoGroups, s[0]) == g1;
      var tail := s[1..];
      assert Leaders(s, NoGroups) == Leaders(tail, g1);
      if |s| >= 2 {
        assert tail[0] == s[1];
        var g2 := g1.Push(s[1].tier, s[1]);
        assert Admit(g1, s[1]) == g2;
        assert Leaders(tail, g1) == Leaders(tail[1..], g2);
        LeadersSaturated(tail[1..], g2);
      }
    }
  }

  /** Each group's leaders are the first two ranked candidates of its tier. */
  lemma LeadersAreFirstTwo(s: seq<Candidate>, t: DiscountTier)
    ensures Leaders(s, NoGroups).Get(t) == Filter(Take(s, 2), IsTier(t))
  {
    LeadersFromEmpty(s);
    if |s| == 1 {
      assert Take(s, 2) == [s[0]];
      OneLeader(s[0], t);
    } else if |s| >= 2 {
      assert Take(s, 2) == [s[0], s[1]];
      TwoLeaders(s[0], s[1], t);
    }
  }

  lemma OneLeader(a: Candidate, t: DiscountTier)
    ensures NoGroups.Push(a.tier, a).Get(t) == Filter([a], IsTier(t))
  {
    PushGet(NoGroups, a, t);
    FilterSingle(a, IsTier(t));
  }

  lemma TwoLeaders(a: Candidate, b: Candidate, t: DiscountTier)
    ensures NoGroups.Push(a.tier, a).Push(b.tier, b).Get(t) == Filter([a, b], IsTier(t))
  {
    assert [a, b] == [a] + [b];
    FilterAppend([a], [b], IsTier(t));
    PushGet(NoGroups, a, t);
    PushGet(NoGroups.Push(a.tier, a), b, t);
    FilterSingle(a, IsTier(t));
    FilterSingle(b, IsTier(t));
  }

  lemma PushGet(g: Groups, c: Candidate, t: DiscountTier)
    ensures g.Push(c.tier, c).Get(t) == g.Get(t) + (if c.tier == t then [c] else [])
  {
  }

  lemma FilterSingle(c: Candidate, p: Candidate -> bool)
    ensures Filter([c], p) == (if p(c) then [c] else [])
  {
    assert [c][1..] == [];
  }

  /** After filling, a group keeps its leaders, or else holds the first candidate
      of its tier, or stays empty when its tier has none. */
  lemma FillGet(g: Groups, s: seq<Candidate>, t: DiscountTier)
    ensures FillMissing(g, s).Get(t) ==
      if |g.Get(t)| > 0 then g.Get(t) else Take(Filter(s, IsTier(t)), 1)
  {
    var g1 := FillTier(g, s, Off20);
    var g2 := FillTier(g1, s, Off40);
    FillTierGet(g, s, Off20, t);
    FillTierGet(g1, s, Off40, t);
    FillTierGet(g2, s, Off50, t);
  }

  /** One top-up step changes only its own tier, and only an empty one. */
  lemma FillTierGet(g: Groups, s: seq<Candidate>, u: DiscountTier, t: DiscountTier)
    ensures FillTier(g, s, u).Get(t) ==
      if u == t && |g.Get(t)| == 0 then Take(Filter(s, IsTier(t)), 1) else g.Get(t)
  {
    var f := Filter(s, IsTier(u));
    if |f| > 0 {
      assert Take(f, 1) == [f[0]];
    } else {
      assert Take(f, 1) == [];
    }
  }

  /** The box's candidates: at most four, each a loaded product inside the
      tier of its group. */
  lemma PicksInTiers(products: seq<Product>)
    ensures |BestSellerPicks(products)| <= 4
    ensures forall i :: 0 <= i < |BestSellerPicks(products)| ==>
      BestSellerPicks(products)[i].product in products && WellTiered(BestSellerPicks(products)[i])
  {
    PicksFromRanked(Ranked(products));
    var picks := BestSellerPicks(products);
    forall i | 0 <= i < |picks|
      ensures picks[i].product in products && WellTiered(picks[i])
    {
      assert picks[i] in picks;
      RankedMember(products, picks[i]);
    }
  }

  lemma RankedMember(products: seq<Product>, c: Candidate)
    requires c in Ranked(products)
    ensures WellTiered(c) && c.product in products
  {
    RankedFacts(products);
    var j :| 0 <= j < |Ranked(products)| && Ranked(products)[j] == c;
  }

  /** The box's candidates are among the ranked ones. */
  lemma PicksFromRanked(s: seq<Candidate>)
    ensures forall c :: c in Take(FillMissing(Leaders(s, NoGroups), s).Flat(), 4) ==> c in s
  {
    var g := FillMissing(Leaders(s, NoGroups), s);
    FilledFromRanked(s, Off20);
    FilledFromRanked(s, Off40);
    FilledFromRanked(s, Off50);
    forall c | c in Take(g.Flat(), 4) ensures c in s {
      assert c in g.Flat();
      assert c in g.Get(Off20) || c in g.Get(Off40) || c in g.Get(Off50);
    }
  }

  /** Every member of a filled group is one of the ranked candidates. */
  lemma FilledFromRanked(s: seq<Candidate>, t: DiscountTier)
    ensures forall c :: c in FillMissing(Leaders(s, NoGroups), s).Get(t) ==> c in s
  {
    FillGet(Leaders(s, NoGroups), s, t);
    LeadersAreFirstTwo(s, t);
    var top := Take(s, 2);
    forall c | c in Filter(top, IsTier(t)) ensures c in s {
      assert c in top;
    }
    forall c | c in Take(Filter(s, IsTier(t)), 1) ensures c in s {
      assert c in Filter(s, IsTier(t));
    }
  }

  /** The three tiers split any candidate list. */
  lemma {:induction false} TierCountsAddUp(s: seq<Candidate>)
    ensures |Filter(s, IsTier(Off20))| + |Filter(s, IsTier(Off40))| + |Filter(s, IsTier(Off50))| == |s|
    decreases |s|
  {
    if |s| > 0 {
      TierCountsAddUp(s[1..]);
    }
  }

  /** In a ranked list, a 50% candidate (if any) comes first. */
  lemma HeadIsTop(s: seq<Candidate>)
    requires SortedBy(s, Descending)
    requires forall i :: 0 <= i < |s| ==> WellTiered(s[i])
    requires |Filter(s, IsTier(Off50))| >= 1
    ensures |s| > 0 && s[0].tier == Off50
  {
    if |s| > 0 && s[0].tier != Off50 {
      forall j | 0 <= j < |s| ensures !IsTier(Off50)(s[j]) {
        if s[j].tier == Off50 {
          RankOrdersDiscount(s[0], s[j]);
          assert false;
        }
      }
      FilterNone(s, IsTier(Off50));
      assert false;
    }
  }

  lemma TailRanked(s: seq<Candidate>)
    requires |s| > 0
    requires SortedBy(s, Descending)
    requires forall i :: 0 <= i < |s| ==> WellTiered(s[i])
    ensures SortedBy(s[1..], Descending)
    ensures forall i :: 0 <= i < |s[1..]| ==> WellTiered(s[1..][i])
    ensures |Filter(s, IsTier(Off50))| <= 1 + |Filter(s[1..], IsTier(Off50))|
  {
    forall a, b | 0 <= a < b < |s[1..]| ensures Descending(s[1..][a]) <= Descending(s[1..][b]) {
      assert s[1..][a] == s[a + 1] && s[1..][b] == s[b + 1];
    }
    assert s == [s[0]] + s[1..];
    FilterAppend([s[0]], s[1..], IsTier(Off50));
  }

  /** A tier never has more leaders than candidates. */
  lemma LeadersBounded(s: seq<Candidate>, t: DiscountTier)
    ensures |Leaders(s, NoGroups).Get(t)| <= |Filter(s, IsTier(t))|
  {
    var top := Take(s, 2);
    assert s == top + s[|top|..];
    LeadersAreFirstTwo(s, t);
    FilterAppend(top, s[|top|..], IsTier(t));
  }

  /** There are at most two leaders in all. */
  lemma LeadersTotal(s: seq<Candidate>)
    ensures |Leaders(s, NoGroups).Get(Off20)| + |Leaders(s, NoGroups).Get(Off40)| +
            |Leaders(s, NoGroups).Get(Off50)| <= 2
  {
    LeadersAreFirstTwo(s, Off20);
    LeadersAreFirstTwo(s, Off40);
    LeadersAreFirstTwo(s, Off50);
    TierCountsAddUp(Take(s, 2));
  }

  /** In a ranked list, the 50% candidates lead: one if there is one, two if there
      are two. */
  lemma LeadersTop(s: seq<Candidate>)
    requires SortedBy(s, Descending)
    requires forall i :: 0 <= i < |s| ==> WellTiered(s[i])
    ensures |Filter(s, IsTier(Off50))| >= 1 ==> |Leaders(s, NoGroups).Get(Off50)| >= 1
    ensures |Filter(s, IsTier(Off50))| >= 2 ==> |Leaders(s, NoGroups).Get(Off50)| == 2
  {
    LeadersFromEmpty(s);
    if |Filter(s, IsTier(Off50))| >= 1 {
      HeadIsTop(s);
    }
    if |Filter(s, IsTier(Off50))| >= 2 {
      TailRanked(s);
      HeadIsTop(s[1..]);
      assert s[1..][0] == s[1];
    }
  }

  lemma TagFilter(ps: seq<Product>, u: DiscountTier, t: DiscountTier)
    ensures Filter(Tag(ps, u), IsTier(t)) == if u == t then Tag(ps, u) else []
  {
    if u == t {
      FilterAll(Tag(ps, u), IsTier(t));
    } else {
      FilterNone(Tag(ps, u), IsTier(t));
    }
  }

  /** The number of ranked candidates of a tier is the length of its tier list. */
  lemma TierCount(products: seq<Product>, t: DiscountTier)
    ensures |Filter(Ranked(products), IsTier(t))| == |DiscountTierProducts(products, t)|
  {
    var l20 := Tag(DiscountTierProducts(products, Off20), Off20);
    var l40 := Tag(DiscountTierProducts(products, Off40), Off40);
    var l50 := Tag(DiscountTierProducts(products, Off50), Off50);
    SortCount(Candidates(products), Descending, IsTier(t));
    FilterAppend(l20 + l40, l50, IsTier(t));
    FilterAppend(l20, l40, IsTier(t));
    TagFilter(DiscountTierProducts(products, Off20), Off20, t);
    TagFilter(DiscountTierProducts(products, Off40), Off40, t);
    TagFilter(DiscountTierProducts(products, Off50), Off50, t);
  }

  /** How many loaded products fall in a discount tier. */
  function CountInTier(products: seq<Product>, t: DiscountTier): nat {
    |Filter(products, TierFilter(t))|
  }

  /** The size of each group after filling: its leaders, or else one candidate
      when the tier has any. */
  lemma FilledSize(products: seq<Product>, t: DiscountTier)
    ensures var s := Ranked(products);
            var l := |Leaders(s, NoGroups).Get(t)|;
            |FillMissing(Leaders(s, NoGroups), s).Get(t)| ==
              if l > 0 then l else Min(1, Min(5, CountInTier(products, t)))
  {
    var s := Ranked(products);
    FillGet(Leaders(s, NoGroups), s, t);
    TierCount(products, t);
  }

  /** With two or more 50% products, the two 50% leaders stay and each lower
      tier is topped up with one candidate when it has any. */
  lemma GroupSizesTop(products: seq<Product>)
    requires CountInTier(products, Off50) >= 2
    ensures var s := Ranked(products);
            var g := FillMissing(Leaders(s, NoGroups), s);
            && |g.g50| == 2
            && |g.g20| == Min(1, CountInTier(products, Off20))
            && |g.g40| == Min(1, CountInTier(products, Off40))
  {
    var s := Ranked(products);
    RankedFacts(products);
    TierCount(products, Off50);
    TopTwoLead(s);
    FilledSize(products, Off20);
    FilledSize(products, Off40);
    FilledSize(products, Off50);
  }

  /** With at most one 50% product, at most three products are left. */
  lemma GroupSizesLow(products: seq<Product>)
    requires CountInTier(products, Off50) <= 1
    ensures var s := Ranked(products);
            |FillMissing(Leaders(s, NoGroups), s).Flat()| <= 3
  {
    var s := Ranked(products);
    var l := Leaders(s, NoGroups);
    var g := FillMissing(l, s);
    FilledSize(products, Off20);
    FilledSize(products, Off40);
    FilledSize(products, Off50);
    LeadersTotal(s);
    RankedFacts(products);
    LeadersTop(s);
    LeadersBounded(s, Off50);
    TierCount(products, Off50);
    assert |g.Flat()| == |g.Get(Off20)| + |g.Get(Off40)| + |g.Get(Off50)|;
  }

  /** The box shows at most four products, and it shows four (and renders) exactly
      when at least two loaded products sit in the 50% tier and at least one in
      each of the 40% and 20% tiers. */
  lemma BestSellerShownIff(products: seq<Product>)
    ensures |BestSellerProducts(products)| <= 4
    ensures |BestSellerProducts(products)| == 4 <==>
      CountInTier(products, Off50) >= 2 && CountInTier(products, Off40) >= 1 && CountInTier(products, Off20) >= 1
  {
    var s := Ranked(products);
    var g := FillMissing(Leaders(s, NoGroups), s);
    assert |BestSellerProducts(products)| == Min(4, |g.Flat()|);
    if CountInTier(products, Off50) >= 2 {
      GroupSizesTop(products);
    } else {
      GroupSizesLow(products);
    }
  }

  /** In a ranked list with two 50% candidates, those two lead and become the
      only leaders. */
  lemma TopTwoLead(s: seq<Candidate>)
    requires SortedBy(s, Descending)
    requires forall i :: 0 <= i < |s| ==> WellTiered(s[i])
    requires |Filter(s, IsTier(Off50))| >= 2
    ensures |s| >= 2 && s[0].tier == Off50 && s[1].tier == Off50
    ensures Leaders(s, NoGroups) == Groups([], [], [s[0], s[1]])
  {
    TopTwoHeads(s);
    LeadersFromEmpty(s);
    PushTwoTop(s[0], s[1]);
  }

  lemma PushTwoTop(a: Candidate, b: Candidate)
    requires a.tier == Off50 && b.tier == Off50
    ensures NoGroups.Push(a.tier, a).Push(b.tier, b) == Groups([], [], [a, b])
  {
    assert [] + [a] + [b] == [a, b];
  }

  lemma TopTwoHeads(s: seq<Candidate>)
    requires SortedBy(s, Descending)
    requires forall i :: 0 <= i < |s| ==> WellTiered(s[i])
    requires |Filter(s, IsTier(Off50))| >= 2
    ensures |s| >= 2 && s[0].tier == Off50 && s[1].tier == Off50
  {
    HeadIsTop(s);
    TailRanked(s);
    HeadIsTop(s[1..]);
    assert s[1..][0] == s[1];
  }

  /** With the two 50% leaders in place and at least one candidate of each other
      tier, the groups end as the two leaders plus one top-up per lower tier. */
  lemma FullGroups(s: seq<Candidate>)
    requires |s| >= 2 && Leaders(s, NoGroups) == Groups([], [], [s[0], s[1]])
    requires |Filter(s, IsTier(Off20))| > 0 && |Filter(s, IsTier(Off40))| > 0
    ensures FillMissing(Leaders(s, NoGroups), s).Flat() ==
      [Filter(s, IsTier(Off20))[0], Filter(s, IsTier(Off40))[0], s[0], s[1]]
  {
    var l := Leaders(s, NoGroups);
    TopUp(l, s, Off20);
    var g1 := FillTier(l, s, Off20);
    TopUp(g1, s, Off40);
    var g2 := FillTier(g1, s, Off40);
    TopUp(g2, s, Off50);
  }

  /** One top-up step, stated without unfolding the tier filter. */
  lemma TopUp(g: Groups, s: seq<Candidate>, t: DiscountTier)
    ensures |g.Get(t)| == 0 && |Filter(s, IsTier(t))| > 0 ==>
      FillTier(g, s, t) == g.Push(t, Filter(s, IsTier(t))[0])
    ensures |g.Get(t)| > 0 ==> FillTier(g, s, t) == g
  {
  }

  /** When the box renders, it shows the best 20% candidate, the best 40%
      candidate and the two best 50% candidates, in that order; the two 50%
      candidates are the top of the whole ranking. */
  lemma BestSellerShape(products: seq<Product>)
    requires |BestSellerProducts(products)| == 4
    ensures var s := Ranked(products);
            && |s| >= 2 && |Filter(s, IsTier(Off20))| > 0 && |Filter(s, IsTier(Off40))| > 0
            && BestSellerPicks(products) ==
                 [Filter(s, IsTier(Off20))[0], Filter(s, IsTier(Off40))[0], s[0], s[1]]
            && s[0].tier == Off50 && s[1].tier == Off50
  {
    BestSellerShownIff(products);
    RankedFacts(products);
    TierCount(products, Off50);
    TierCount(products, Off20);
    TierCount(products, Off40);
    TopTwoLead(Ranked(products));
    FullGroups(Ranked(products));
  }

  /** Ranking puts the highest discount first within each tier. */
  lemma FirstOfTierIsBest(products: seq<Product>, t: DiscountTier, c: Candidate)
    requires c in Candidates(products) && c.tier == t
    ensures |Filter(Ranked(products), IsTier(t))| > 0
    ensures Discount(c) <= Discount(Filter(Ranked(products), IsTier(t))[0])
  {
    var s := Ranked(products);
    SortMembers(Candidates(products), Descending);
    var i :| 0 <= i < |s| && s[i] == c;
    assert IsTier(t)(s[i]);
    var f := Filter(s, IsTier(t));
    FilterSorted(s, Descending, IsTier(t));
    SortedHeadLeast(f, Descending, c);
  }

  /** The head of a sorted list has the least key. */
  lemma SortedHeadLeast(f: seq<Candidate>, key: Candidate -> int, x: Candidate)
    requires SortedBy(f, key) && x in f
    ensures |f| > 0 && key(f[0]) <= key(x)
  {
    var k :| 0 <= k < |f| && f[k] == x;
  }

  // ---- No product twice ----------------------------------------------------

  /** A candidate's product id. */
  function CandidateId(c: Candidate): int {
    c.product.id
  }

  /** The box never shows a product twice: when the loaded products carry
      distinct ids, so do the products it shows, whatever their number. */
  lemma BestSellerDistinct(products: seq<Product>)
    requires DistinctBy(products, ProductId)
    ensures DistinctBy(BestSellerProducts(products), ProductId)
  {
    CandidatesDistinct(products);
    SortDistinct(Candidates(products), Descending, CandidateId);
    PicksDistinct(Ranked(products));
    ShownIdsDistinct(BestSellerPicks(products), BestSellerProducts(products));
  }

  /** The first four of the flattened groups repeat no id of a repeat-free ranking. */
  lemma PicksDistinct(s: seq<Candidate>)
    requires DistinctBy(s, CandidateId)
    ensures DistinctBy(Take(FillMissing(Leaders(s, NoGroups), s).Flat(), 4), CandidateId)
  {
    var flat := FillMissing(Leaders(s, NoGroups), s).Flat();
    FlatDistinct(s);
    PrefixDistinct(flat, |Take(flat, 4)|, CandidateId);
  }

  lemma ShownIdsDistinct(picks: seq<Candidate>, shown: seq<Product>)
    requires DistinctBy(picks, CandidateId)
    requires |shown| == |picks| && forall i :: 0 <= i < |shown| ==> shown[i] == picks[i].product
    ensures DistinctBy(shown, ProductId)
  {
  }

  /** No two candidates share an id: a tier list keeps the loaded order, and a
      product belongs to one tier only. */
  lemma CandidatesDistinct(products: seq<Product>)
    requires DistinctBy(products, ProductId)
    ensures DistinctBy(Candidates(products), CandidateId)
  {
    var a := Tag(DiscountTierProducts(products, Off20), Off20);
    var b := Tag(DiscountTierProducts(products, Off40), Off40);
    var c := Tag(DiscountTierProducts(products, Off50), Off50);
    TagDistinct(products, Off20);
    TagDistinct(products, Off40);
    TagDistinct(products, Off50);
    TierListWellTiered(products, Off20);
    TierListWellTiered(products, Off40);
    TierListWellTiered(products, Off50);
    forall x, y | x in a && y in b ensures CandidateId(x) != CandidateId(y) {
      OtherTierOtherId(products, x, y);
    }
    DistinctAppend(a, b, CandidateId);
    forall x, y | x in a + b && y in c ensures CandidateId(x) != CandidateId(y) {
      OtherTierOtherId(products, x, y);
    }
    DistinctAppend(a + b, c, CandidateId);
  }

  lemma TagDistinct(products: seq<Product>, t: DiscountTier)
    requires DistinctBy(products, ProductId)
    ensures DistinctBy(Tag(DiscountTierProducts(products, t), t), CandidateId)
  {
    var ps := DiscountTierProducts(products, t);
    SubsequenceDistinct(ps, products, ProductId);
    var tagged := Tag(ps, t);
    forall i, j | 0 <= i < j < |tagged| ensures CandidateId(tagged[i]) != CandidateId(tagged[j]) {
      assert ProductId(ps[i]) != ProductId(ps[j]);
    }
  }

  /** Candidates of different tiers are different products, so with distinct
      loaded ids they carry different ids. */
  lemma OtherTierOtherId(products: seq<Product>, x: Candidate, y: Candidate)
    requires DistinctBy(products, ProductId)
    requires WellTiered(x) && WellTiered(y) && x.product in products && y.product in products
    requires x.tier != y.tier
    ensures CandidateId(x) != CandidateId(y)
  {
    DiscountTiersDisjoint(x.tier, x.product);
    DiscountTiersDisjoint(y.tier, y.product);
    DistinctByMembers(products, ProductId, x.product, y.product);
  }

  /** The flattened groups repeat no id: each group is drawn from the ranking
      without repeats, and different groups hold different tiers. */
  lemma FlatDistinct(s: seq<Candidate>)
    requires DistinctBy(s, CandidateId)
    ensures DistinctBy(FillMissing(Leaders(s, NoGroups), s).Flat(), CandidateId)
  {
    var g := FillMissing(Leaders(s, NoGroups), s);
    FilledGroupDistinct(s, Off20);
    FilledGroupDistinct(s, Off40);
    FilledGroupDistinct(s, Off50);
    forall x, y | x in g.g20 && y in g.g40 ensures CandidateId(x) != CandidateId(y) {
      DistinctByMembers(s, CandidateId, x, y);
    }
    DistinctAppend(g.g20, g.g40, CandidateId);
    forall x, y | x in g.g20 + g.g40 && y in g.g50 ensures CandidateId(x) != CandidateId(y) {
      DistinctByMembers(s, CandidateId, x, y);
    }
    DistinctAppend(g.g20 + g.g40, g.g50, CandidateId);
  }

  /** A filled group holds ranked candidates of its own tier, no id twice. */
  lemma FilledGroupDistinct(s: seq<Candidate>, t: DiscountTier)
    requires DistinctBy(s, CandidateId)
    ensures DistinctBy(FillMissing(Leaders(s, NoGroups), s).Get(t), CandidateId)
    ensures forall c :: c in FillMissing(Leaders(s, NoGroups), s).Get(t) ==> c in s && c.tier == t
  {
    var g := FillMissing(Leaders(s, NoGroups), s).Get(t);
    FillGet(Leaders(s, NoGroups), s, t);
    LeadersAreFirstTwo(s, t);
    FilledFromRanked(s, t);
    var leaders := Filter(Take(s, 2), IsTier(t));
    if |leaders| > 0 {
      assert g == leaders;
      LeadersDistinct(s, t);
    } else {
      assert g == Take(Filter(s, IsTier(t)), 1);
      TopUpDistinct(s, t);
    }
  }

  lemma LeadersDistinct(s: seq<Candidate>, t: DiscountTier)
    requires DistinctBy(s, CandidateId)
    ensures DistinctBy(Filter(Take(s, 2), IsTier(t)), CandidateId)
    ensures forall c :: c in Filter(Take(s, 2), IsTier(t)) ==> c.tier == t
  {
    var top := Take(s, 2);
    PrefixDistinct(s, |top|, CandidateId);
    FilterIsSubsequence(top, IsTier(t));
    SubsequenceDistinct(Filter(top, IsTier(t)), top, CandidateId);
    forall c | c in Filter(top, IsTier(t)) ensures c.tier == t {
      var i :| 0 <= i < |Filter(top, IsTier(t))| && Filter(top, IsTier(t))[i] == c;
    }
  }

  lemma TopUpDistinct(s: seq<Candidate>, t: DiscountTier)
    requires DistinctBy(s, CandidateId)
    ensures DistinctBy(Take(Filter(s, IsTier(t)), 1), CandidateId)
    ensures forall c :: c in Take(Filter(s, IsTier(t)), 1) ==> c.tier == t
  {
    var ofTier := Filter(s, IsTier(t));
    FilterIsSubsequence(s, IsTier(t));
    SubsequenceDistinct(ofTier, s, CandidateId);
    PrefixDistinct(ofTier, |Take(ofTier, 1)|, CandidateId);
    forall c | c in Take(ofTier, 1) ensures c.tier == t {
      assert c == ofTier[0];
    }
  }
}

=== FILE: cart.dfy ===
/** The cart page: the per-line unit price, the subtotal, delivery and total
    sums, the quantity buttons, the key each line's buttons send to the cart
    store, the checkout target and the image fallbacks. Prices and quantities
    are JavaScript numbers the page only adds and multiplies; whole numbers are
    used here. */
module Cart {
  import opened Options
  import opened Text

  datatype Variant = Variant(price: int)

  datatype CartProduct = CartProduct(
    id: int,
    price: int,
    deliveryCharges: Option<int>,   // `None` for null or undefined
    isDealOfTheDay: bool,
    category: string,               // "" when missing
    imageUrl: string)               // "" when missing

  /** A cart line; `id` is absent on lines of a guest cart. */
  datatype CartLine = CartLine(id: Option<int>, quantity: int, product: CartProduct, variant: Option<Variant>)

  /** The price a line is charged at: the product price for a deal of the day,
      otherwise the variant's price when a variant is chosen. */
  function UnitPrice(line: CartLine): (r: int)
    ensures line.product.isDealOfTheDay ==> r == line.product.price
    ensures !line.product.isDealOfTheDay && line.variant.Some? ==> r == line.variant.value.price
    ensures line.variant.None? ==> r == line.product.price
  {
    if line.product.isDealOfTheDay then line.product.price
    else if line.variant.Some? then line.variant.value.price
    else line.product.price
  }

  /** `deliveryCharges ?? 0`. */
  function Charge(line: CartLine): int {
    line.product.deliveryCharges.GetOr(0)
  }

  /** The amount a line adds to the subtotal and to the delivery charges. */
  function LineAmount(line: CartLine): int {
    UnitPrice(line) * line.quantity
  }

  function LineDelivery(line: CartLine): int {
    Charge(line) * line.quantity
  }

  /** The reference sums, line by line from the front. */
  function SubtotalOf(lines: seq<CartLine>): int
    decreases |lines|
  {
    if |lines| == 0 then 0 else LineAmount(lines[0]) + SubtotalOf(lines[1..])
  }

  function DeliveryOf(lines: seq<CartLine>): int
    decreases |lines|
  {
    if |lines| == 0 then 0 else LineDelivery(lines[0]) + DeliveryOf(lines[1..])
  }

  lemma {:induction false} SubtotalAppend(a: seq<CartLine>, b: seq<CartLine>)
    ensures SubtotalOf(a + b) == SubtotalOf(a) + SubtotalOf(b)
    ensures DeliveryOf(a + b) == DeliveryOf(a) + DeliveryOf(b)
    decreases |a|
  {
    if |a| == 0 {
      assert a + b == b;
    } else {
      assert (a + b)[1..] == a[1..] + b;
      SubtotalAppend(a[1..], b);
    }
  }

  /** The page's two `reduce` passes, left to right from 0, and their sum. */
  method Totals(lines: seq<CartLine>) returns (subtotal: int, delivery: int, total: int)
    ensures subtotal == SubtotalOf(lines)
    ensures delivery == DeliveryOf(lines)
    ensures total == SubtotalOf(lines) + DeliveryOf(lines)
  {
    subtotal := 0;
    delivery := 0;
    var i := 0;
    while i < |lines|
      invariant 0 <= i <= |lines|
      invariant subtotal == SubtotalOf(lines[..i])
      invariant delivery == DeliveryOf(lines[..i])
    {
      SubtotalAppend(lines[..i], [lines[i]]);
      assert lines[..i + 1] == lines[..i] + [lines[i]];
      subtotal := subtotal + LineAmount(lines[i]);
      delivery := delivery + LineDelivery(lines[i]);
      i := i + 1;
    }
    assert lines[..i] == lines;
    total := subtotal + delivery;
  }

  /** Changing one line's quantity moves the subtotal by the change times the
      line's unit price and the delivery by the change times its charge; no
      other line matters. */
  lemma {:induction false} QuantityChange(lines: seq<CartLine>, i: nat, q: int)
    requires i < |lines|
    ensures SubtotalOf(lines[i := lines[i].(quantity := q)]) ==
      SubtotalOf(lines) + (q - lines[i].quantity) * UnitPrice(lines[i])
    ensures DeliveryOf(lines[i := lines[i].(quantity := q)]) ==
      DeliveryOf(lines) + (q - lines[i].quantity) * Charge(lines[i])
    decreases |lines|
  {
    var changed := lines[i := lines[i].(quantity := q)];
    if i == 0 {
      assert changed[1..] == lines[1..];
    } else {
      assert changed[1..] == lines[1..][i - 1 := lines[i].(quantity := q)];
      QuantityChange(lines[1..], i - 1, q);
    }
  }

  /** With non-negative prices, charges and quantities, nothing is negative and
      the total covers the subtotal. */
  lemma {:induction false} TotalsNonNegative(lines: seq<CartLine>)
    requires forall i :: 0 <= i < |lines| ==> UnitPrice(lines[i]) >= 0 && Charge(lines[i]) >= 0 && lines[i].quantity >= 0
    ensures SubtotalOf(lines) >= 0 && DeliveryOf(lines) >= 0
    decreases |lines|
  {
    if |lines| > 0 {
      TotalsNonNegative(lines[1..]);
    }
  }

  /** A deal of the day is charged its product price whatever variant is chosen;
      the delivery charge never depends on the variant. */
  lemma DealIgnoresVariant(line: CartLine, v: Option<Variant>)
    requires line.product.isDealOfTheDay
    ensures LineAmount(line.(variant := v)) == LineAmount(line)
    ensures LineDelivery(line.(variant := v)) == LineDelivery(line)
  {
  }

  // ---- Quantity buttons --------------------------------------------------

  /** The minus button: disabled at quantity 1 or below; when pressed it asks
      for `Math.max(1, quantity - 1)`. */
  predicate DecrementDisabled(quantity: int) {
    quantity <= 1
  }

  function DecrementRequest(quantity: int): (r: int)
    ensures r >= 1
    ensures !DecrementDisabled(quantity) ==> r == quantity - 1
    ensures DecrementDisabled(quantity) ==> r == 1
  {
    if quantity - 1 >= 1 then quantity - 1 else 1
  }

  /** The plus button is never disabled and asks for one more. */
  function IncrementRequest(quantity: int): (r: int)
    ensures r > quantity
  {
    quantity + 1
  }

  /** A press of plus undone by a press of minus restores any quantity of at
      least 1, and the subtotal with it. */
  lemma IncrementThenDecrement(lines: seq<CartLine>, i: nat)
    requires i < |lines| && lines[i].quantity >= 1
    ensures !DecrementDisabled(IncrementRequest(lines[i].quantity))
    ensures DecrementRequest(IncrementRequest(lines[i].quantity)) == lines[i].quantity
    ensures var up := lines[i := lines[i].(quantity := IncrementRequest(lines[i].quantity))];
            SubtotalOf(up) == SubtotalOf(lines) + UnitPrice(lines[i])
  {
    QuantityChange(lines, i, lines[i].quantity + 1);
  }

  // ---- Line keys ---------------------------------------------------------

  /** `user && item.id !== undefined ? item.id : idx`: the key the buttons of the
      line at `idx` send to the cart store. */
  function LineKey(loggedIn: bool, lines: seq<CartLine>, idx: nat): (r: int)
    requires idx < |lines|
    ensures loggedIn && lines[idx].id.Some? ==> r == lines[idx].id.value
    ensures !(loggedIn && lines[idx].id.Some?) ==> r == idx
  {
    if loggedIn && lines[idx].id.Some? then lines[idx].id.value else idx
  }

  /** A guest's lines are addressed by position, so no two lines share a key. */
  lemma GuestKeysDistinct(lines: seq<CartLine>, a: nat, b: nat)
    requires a < b < |lines|
    ensures LineKey(false, lines, a) != LineKey(false, lines, b)
  {
  }

  /** A signed-in cart whose lines all carry distinct ids addresses every line
      by its own id. */
  lemma SignedInKeysDistinct(lines: seq<CartLine>, a: nat, b: nat)
    requires forall i :: 0 <= i < |lines| ==> lines[i].id.Some?
    requires forall i, j :: 0 <= i < j < |lines| ==> lines[i].id.value != lines[j].id.value
    requires a < b < |lines|
    ensures LineKey(true, lines, a) != LineKey(true, lines, b)
  {
  }

  // ---- Page routing and images --------------------------------------------

  datatype CartView = EmptyCart | Items(subtotal: int, delivery: int, total: int)

  /** An empty cart shows the empty view, otherwise the lines and the sums. */
  method View(lines: seq<CartLine>) returns (v: CartView)
    ensures v.EmptyCart? <==> |lines| == 0
    ensures v.Items? ==> v.subtotal == SubtotalOf(lines) && v.delivery == DeliveryOf(lines)
    ensures v.Items? ==> v.total == v.subtotal + v.delivery
  {
    if |lines| == 0 {
      return EmptyCart;
    }
    var s, d, t := Totals(lines);
    return Items(s, d, t);
  }

  /** Checkout goes to `/checkout`, or to sign-in with a return address for a guest. */
  function CheckoutTarget(loggedIn: bool): (r: string)
    ensures loggedIn <==> r == "/checkout"
    ensures !loggedIn ==> r == "/auth?returnUrl=" + "/checkout"
  {
    if loggedIn then "/checkout" else "/auth?returnUrl=/checkout"
  }

  /** The line image: the product's image, else the fashion placeholder; a line
      always has a picture to show. */
  function LineImage(p: CartProduct): (r: string)
    ensures r != ""
    ensures p.imageUrl != "" ==> r == p.imageUrl
    ensures p.imageUrl == "" ==> r == "/images/categories/fashion.svg"
  {
    if p.imageUrl != "" then p.imageUrl else "/images/categories/fashion.svg"
  }

  /** The image shown after a load error: the category's picture, else the
      generic placeholder. */
  function LineImageOnError(p: CartProduct): (r: string)
    ensures p.category != "" ==> r == "../images/" + Lower(p.category) + ".svg"
    ensures p.category == "" ==> r == "../images/placeholder.svg"
  {
    if p.category != "" then "../images/" + Lower(p.category) + ".svg" else "../images/placeholder.svg"
  }
}

=== FILE: catalog.dfy ===
/** The product record the storefront receives from the catalogue API, and the
    rounded discount percentage every page derives from it. */
module Catalog {
  import opened Options

  /** A fetched product. Prices are whole rupees; `mrp` is the list price, `None`
      when absent. Missing `name`, `category` and `subcategory` are the empty
      string, which is how the pages treat them (`p.name || ''`). */
  datatype Product = Product(
    id: int,
    name: string,
    category: string,
    subcategory: string,
    price: nat,
    mrp: Option<nat>)

  function ProductId(p: Product): int {
    p.id
  }

  /** `Math.round(((mrp - price) / mrp) * 100)` in exact arithmetic: the integer
      nearest to the percentage saved, halves rounded up. */
  function RoundedDiscount(mrp: nat, price: nat): int
    requires mrp > 0
  {
    (200 * (mrp - price) + mrp) / (2 * mrp)
  }

  /** The rounded discount is the integer nearest to the percentage saved,
      `100 * (mrp - price) / mrp`, with halves rounded up. */
  lemma RoundsToNearest(mrp: nat, price: nat)
    requires mrp > 0
    ensures var r := RoundedDiscount(mrp, price);
            mrp * (2 * r - 1) <= 200 * (mrp - price) < mrp * (2 * r + 1)
  {
    var n := 200 * (mrp - price) + mrp;
    var d := 2 * mrp;
    var q := n / d;
    assert d * q <= n < d * (q + 1) by {
      assert n == d * q + n % d;
    }
  }

  lemma MulMonotone(m: int, a: int, b: int)
    requires m >= 0 && a <= b
    ensures m * a <= m * b
  {
    assert m * b - m * a == m * (b - a);
  }

  /** For a selling price not above the list price the rounded discount is a
      percentage, and it is positive exactly when at least half a percent is
      saved. */
  lemma DiscountRange(mrp: nat, price: nat)
    requires mrp > 0 && price <= mrp
    ensures 0 <= RoundedDiscount(mrp, price) <= 100
    ensures RoundedDiscount(mrp, price) > 0 <==> 200 * (mrp - price) >= mrp
  {
    var r := RoundedDiscount(mrp, price);
    RoundsToNearest(mrp, price);
    if r > 100 {
      MulMonotone(mrp, 201, 2 * r - 1);
    }
    if r < 0 {
      MulMonotone(mrp, 2 * r + 1, -1);
    }
    if r >= 1 {
      MulMonotone(mrp, 1, 2 * r - 1);
    } else {
      MulMonotone(mrp, 2 * r + 1, 1);
    }
  }

  /** Truthy list price: present and non-zero (`p.mrp && ...`). */
  predicate HasMrp(p: Product) {
    p.mrp.Some? && p.mrp.value != 0
  }

  /** A real deal: the list price is truthy and above the selling price
      (`p.mrp && p.mrp > p.price`). */
  predicate HasRealDiscount(p: Product) {
    HasMrp(p) && p.mrp.value > p.price
  }

  /** The list price as a number, 0 when absent. */
  function MrpValue(p: Product): nat {
    p.mrp.GetOr(0)
  }

  /** The recently-viewed entry in browser storage, as a page reads it back. */
  datatype StoredIds =
    | Absent            // missing or the empty string
    | Unparsable        // `JSON.parse` throws
    | NotAList          // valid JSON that is not an array
    | IdList(ids: seq<int>)
}

=== FILE: curation.dfy ===
/** The home page's simple product strips: the price-tier and discount-tier
    lists, the featured products used for image preloading, the per-category
    lists and blocks, and the "Recently Viewed" section. Every strip is a
    `filter` followed by `slice(0, k)` over the loaded product list. */
module Curation {
  import opened Options
  import opened Seqs
  import opened Text
  import opened Catalog

  /** The eight storefront categories, in menu order. */
  const AllCategories: seq<string> :=
    ["Electronics", "Fashion", "Home", "Appliances", "Mobiles", "Beauty", "Toys", "Grocery"]

  /** `s.filter(p).slice(0, k)`: the first `k` elements satisfying `p`. */
  function FirstMatching<T(==)>(s: seq<T>, p: T -> bool, k: nat): (r: seq<T>)
    ensures |r| == Min(k, |Filter(s, p)|)
    ensures forall i :: 0 <= i < |r| ==> r[i] in s && p(r[i])
    ensures IsSubsequence(r, s)
    ensures |r| < k ==> forall i :: 0 <= i < |s| && p(s[i]) ==> s[i] in r
    ensures FirstMatches(r, s, p, k)
  {
    var all := Filter(s, p);
    var r := Take(all, k);
    FilterIsSubsequence(s, p);
    PrefixIsSubsequence(all, s, |r|);
    FirstMatchesTake(s, p, k);
    r
  }

  /** A strip as rendered: its title, its "View All" link and its products. */
  datatype Section = Section(title: string, link: string, products: seq<Product>)

  // ---- Price tiers -------------------------------------------------------

  datatype PriceTier = Under199 | Under399 | Under599

  /** The tier bounds: at most 199, then (199, 399], then (399, 599]. */
  predicate InPriceTier(t: PriceTier, price: nat) {
    match t
    case Under199 => price <= 199
    case Under399 => 199 < price <= 399
    case Under599 => 399 < price <= 599
  }

  /** The tier a price falls in, if any. */
  function TierOfPrice(price: nat): (r: Option<PriceTier>)
    ensures r.Some? <==> price <= 599
    ensures r.Some? ==> InPriceTier(r.value, price)
  {
    if price <= 199 then Some(Under199)
    else if price <= 399 then Some(Under399)
    else if price <= 599 then Some(Under599)
    else None
  }

  /** The tiers do not overlap: a price in a tier is in no other. */
  lemma PriceTiersPartition(t: PriceTier, price: nat)
    ensures InPriceTier(t, price) <==> TierOfPrice(price) == Some(t)
  {
    match t
    case Under199 =>
    case Under399 =>
    case Under599 =>
  }

  /** The price-tier filter as a value, for `filter`. */
  function PriceFilter(t: PriceTier): Product -> bool {
    (p: Product) => InPriceTier(t, p.price)
  }

  /** A price-tier strip: the first four products whose price is in the tier. */
  function PriceTierProducts(products: seq<Product>, t: PriceTier): (r: seq<Product>)
    ensures |r| <= 4
    ensures forall i :: 0 <= i < |r| ==> r[i] in products && InPriceTier(t, r[i].price)
    ensures IsSubsequence(r, products)
    ensures |r| < 4 ==> forall i :: 0 <= i < |products| && InPriceTier(t, products[i].price) ==> products[i] in r
    ensures FirstMatches(r, products, PriceFilter(t), 4)
  {
    FirstMatching(products, PriceFilter(t), 4)
  }

  function PriceTitle(t: PriceTier): string {
    match t
    case Under199 => "Under ₹199"
    case Under399 => "Under ₹399"
    case Under599 => "Under ₹599"
  }

  /** The "View All" link; its integer bounds name the same prices as the tier. */
  function PriceLink(t: PriceTier): string {
    match t
    case Under199 => "/products?maxPrice=199"
    case Under399 => "/products?minPrice=200&maxPrice=399"
    case Under599 => "/products?minPrice=400&maxPrice=599"
  }

  /** A price-tier section as rendered, or nothing when no product is in the tier. */
  function PriceSection(products: seq<Product>, t: PriceTier): (r: Option<Section>)
    ensures r.None? <==> forall i :: 0 <= i < |products| ==> !InPriceTier(t, products[i].price)
    ensures r.Some? ==> 1 <= |r.value.products| <= 4 && r.value.products == PriceTierProducts(products, t)
    ensures r.Some? ==> forall i :: 0 <= i < |r.value.products| ==> InPriceTier(t, r.value.products[i].price)
  {
    var prods := PriceTierProducts(products, t);
    if |prods| == 0 then None
    else Some(Section(PriceTitle(t), PriceLink(t), prods))
  }

  // ---- Discount tiers ----------------------------------------------------

  datatype DiscountTier = Off20 | Off40 | Off50

  /** The rounded-discount interval of a tier: [20, 40), [40, 50), [50, 60). */
  function TierLow(t: DiscountTier): int {
    match t
    case Off20 => 20
    case Off40 => 40
    case Off50 => 50
  }

  function TierHigh(t: DiscountTier): int {
    match t
    case Off20 => 40
    case Off40 => 50
    case Off50 => 60
  }

  /** The tier filter: a truthy list price, a truthy selling price, and a rounded
      discount inside the tier's interval. */
  predicate InDiscountTier(t: DiscountTier, p: Product) {
    HasMrp(p) && p.price != 0 &&
    TierLow(t) <= RoundedDiscount(p.mrp.value, p.price) < TierHigh(t)
  }

  /** The tier filter as a value, for `filter`. */
  function TierFilter(t: DiscountTier): Product -> bool {
    p => InDiscountTier(t, p)
  }

  /** Every product in a discount tier is a real deal, and its discount is at
      least 19.5 percent. */
  lemma DiscountTierIsRealDiscount(t: DiscountTier, p: Product)
    requires InDiscountTier(t, p)
    ensures HasRealDiscount(p)
    ensures 200 * (MrpValue(p) - p.price) >= 39 * MrpValue(p)
  {
    var m := p.mrp.value;
    var d := RoundedDiscount(m, p.price);
    RoundsToNearest(m, p.price);
    MulMonotone(m, 39, 2 * d - 1);
    assert 200 * (m - p.price) >= m * 39;
  }

  /** The tier of a product by its rounded discount, if any. */
  function DiscountTierOf(p: Product): (r: Option<DiscountTier>)
    ensures r.Some? ==> InDiscountTier(r.value, p)
    ensures r.None? ==> !InDiscountTier(Off20, p) && !InDiscountTier(Off40, p) && !InDiscountTier(Off50, p)
  {
    if !HasMrp(p) || p.price == 0 then None
    else
      var d := RoundedDiscount(p.mrp.value, p.price);
      if 20 <= d < 40 then Some(Off20)
      else if 40 <= d < 50 then Some(Off40)
      else if 50 <= d < 60 then Some(Off50)
      else None
  }

  /** A product is in at most one discount tier. */
  lemma DiscountTiersDisjoint(t: DiscountTier, p: Product)
    ensures InDiscountTier(t, p) <==> DiscountTierOf(p) == Some(t)
  {
    match t
    case Off20 =>
    case Off40 =>
    case Off50 =>
  }

  /** A discount-tier list: the first five products in the tier. */
  function DiscountTierProducts(products: seq<Product>, t: DiscountTier): (r: seq<Product>)
    ensures |r| == Min(5, |Filter(products, TierFilter(t))|)
    ensures forall i :: 0 <= i < |r| ==> r[i] in products && InDiscountTier(t, r[i])
    ensures IsSubsequence(r, products)
    ensures |r| < 5 ==> forall i :: 0 <= i < |products| && InDiscountTier(t, products[i]) ==> products[i] in r
    ensures FirstMatches(r, products, TierFilter(t), 5)
  {
    FirstMatching(products, TierFilter(t), 5)
  }


  function TierTitle(t: DiscountTier): string {
    match t
    case Off20 => "20% Off"
    case Off40 => "40% Off"
    case Off50 => "50% Off"
  }

  function TierLink(t: DiscountTier): string {
    match t
    case Off20 => "/products?discount=20"
    case Off40 => "/products?discount=40"
    case Off50 => "/products?discount=50"
  }

  /** A discount section: the first four products of the tier list, or nothing
      when the list is empty. */
  function DiscountSection(products: seq<Product>, t: DiscountTier): (r: Option<Section>)
    ensures r.None? <==> forall i :: 0 <= i < |products| ==> !InDiscountTier(t, products[i])
    ensures r.Some? ==> 1 <= |r.value.products| <= 4
    ensures r.Some? ==> forall i :: 0 <= i < |r.value.products| ==> InDiscountTier(t, r.value.products[i])
    ensures r.Some? ==> r.value.products == Take(DiscountTierProducts(products, t), 4)
    ensures r.Some? ==> FirstMatches(r.value.products, products, TierFilter(t), 4)
  {
    var prods := DiscountTierProducts(products, t);
    FirstMatchesShorter(prods, products, TierFilter(t), 5, 4);
    if |prods| == 0 then None
    else Some(Section(TierTitle(t), TierLink(t), Take(prods, 4)))
  }

  // ---- Featured products -------------------------------------------------

  /** The five products preloaded first: the first five real deals. */
  function FeaturedProducts(products: seq<Product>): (r: seq<Product>)
    ensures |r| <= 5
    ensures forall i :: 0 <= i < |r| ==> r[i] in products && HasRealDiscount(r[i])
    ensures IsSubsequence(r, products)
    ensures |r| < 5 ==> forall i :: 0 <= i < |products| && HasRealDiscount(products[i]) ==> products[i] in r
    ensures FirstMatches(r, products, HasRealDiscount, 5)
  {
    FirstMatching(products, HasRealDiscount, 5)
  }

  // ---- Category lists ----------------------------------------------------

  /** `p.category?.toLowerCase() === name.toLowerCase()`. A missing category is
      the empty string here, which equals no storefront category name. */
  predicate InCategory(p: Product, name: string) {
    Lower(p.category) == Lower(name)
  }

  /** The category match as a value, for `filter`. */
  function CategoryFilter(name: string): Product -> bool {
    (p: Product) => InCategory(p, name)
  }

  /** `getProductsByCategory`: the first six products of a category. */
  function ProductsByCategory(products: seq<Product>, name: string): (r: seq<Product>)
    ensures |r| == Min(6, |Filter(products, CategoryFilter(name))|)
    ensures forall i :: 0 <= i < |r| ==> r[i] in products && InCategory(r[i], name)
    ensures IsSubsequence(r, products)
    ensures |r| == 0 <==> forall i :: 0 <= i < |products| ==> !InCategory(products[i], name)
    ensures |r| < 6 ==> forall i :: 0 <= i < |products| && InCategory(products[i], name) ==> products[i] in r
    ensures FirstMatches(r, products, CategoryFilter(name), 6)
  {
    FirstMatching(products, CategoryFilter(name), 6)
  }

  /** Matching ignores the letter case of both names. */
  lemma {:induction false} CategoryMatchIgnoresCase(p: Product, name: string)
    ensures InCategory(p, name) <==> InCategory(p, Lower(name))
  {
    LowerIdempotent(name);
  }

  datatype CategoryGroup = CategoryGroup(name: string, title: string, products: seq<Product>)

  /** A group is titled after its category and holds that category's list, which
      is not empty. */
  predicate GroupOf(products: seq<Product>, g: CategoryGroup) {
    g.title == "Top " + g.name && g.products == ProductsByCategory(products, g.name) && |g.products| > 0
  }

  /** The group of one category, absent when the category has no products. */
  function GroupFor(products: seq<Product>, name: string): (g: Option<CategoryGroup>)
    ensures g.Some? ==> g.value.name == name && GroupOf(products, g.value)
    ensures g.None? ==> |ProductsByCategory(products, name)| == 0
  {
    var here := ProductsByCategory(products, name);
    if |here| > 0 then Some(CategoryGroup(name, "Top " + name, here)) else None
  }

  /** `GroupFor` for a fixed product list, as a value for `Collect`. */
  function GroupsOf(products: seq<Product>): string -> Option<CategoryGroup> {
    name => GroupFor(products, name)
  }

  /** `categorizedProducts`, over an arbitrary list of names: one group per name
      that has products, in the order of `names`. */
  function Categorized(products: seq<Product>, names: seq<string>): (r: seq<CategoryGroup>)
    ensures |r| <= |names|
  {
    Collect(names, GroupsOf(products))
  }

  /** Every group is a well-formed group of one of the names asked for. */
  lemma CategorizedGroups(products: seq<Product>, names: seq<string>, i: nat)
    requires i < |Categorized(products, names)|
    ensures Categorized(products, names)[i].name in names
    ensures GroupOf(products, Categorized(products, names)[i])
  {
    var j := CollectSources(names, GroupsOf(products), i);
  }

  /** No category with products is left out of the grouping: `i` is where it
      appears. */
  lemma CategorizedCovers(products: seq<Product>, names: seq<string>, j: nat) returns (i: nat)
    requires j < |names|
    requires |ProductsByCategory(products, names[j])| > 0
    ensures i < |Categorized(products, names)| && Categorized(products, names)[i].name == names[j]
  {
    i := CollectCovers(names, GroupsOf(products), j);
  }

  function CategorizedProducts(products: seq<Product>): (r: seq<CategoryGroup>)
    ensures |r| <= 8
    ensures forall i :: 0 <= i < |r| ==> r[i].name in AllCategories && |r[i].products| > 0
  {
    var r := Categorized(products, AllCategories);
    forall i | 0 <= i < |r| ensures r[i].name in AllCategories && |r[i].products| > 0 {
      CategorizedGroups(products, AllCategories, i);
    }
    r
  }

  /** A category block of the lower grid: the category name, its link and up to
      four products; absent when the category has no products. */
  datatype Block = Block(name: string, link: string, products: seq<Product>)

  function CategoryBlock(products: seq<Product>, name: string): (r: Option<Block>)
    ensures r.None? <==> forall i :: 0 <= i < |products| ==> !InCategory(products[i], name)
    ensures r.Some? ==> r.value.link == "/category/" + Lower(name)
    ensures r.Some? ==> 1 <= |r.value.products| <= 4
    ensures r.Some? ==> forall i :: 0 <= i < |r.value.products| ==> InCategory(r.value.products[i], name)
    ensures r.Some? ==> r.value.products == Take(ProductsByCategory(products, name), 4)
    ensures r.Some? ==> FirstMatches(r.value.products, products, CategoryFilter(name), 4)
  {
    FirstMatchesShorter(ProductsByCategory(products, name), products, CategoryFilter(name), 6, 4);
    var prods := Take(ProductsByCategory(products, name), 4);
    if |prods| == 0 then None
    else Some(Block(name, "/category/" + Lower(name), prods))
  }

  // ---- Recently viewed ---------------------------------------------------

  /** The outcome of `fetch('/api/products/<id>')`: the product, a non-ok
      response (shown as nothing), or a rejected request or unreadable body
      (which abandons the whole section). */
  datatype Fetched = Found(product: Product) | NotOk | Failed

  /** The products of the successful responses, in request order; `None` when
      any request failed (`Promise.all` rejects). */
  function FetchAll(ids: seq<int>, fetch: int -> Fetched): (r: Option<seq<Product>>)
    ensures r.None? <==> exists i :: 0 <= i < |ids| && fetch(ids[i]).Failed?
    ensures r.Some? ==> |r.value| <= |ids|
    decreases |ids|
  {
    if |ids| == 0 then Some([])
    else
      match fetch(ids[0])
      case Failed => None
      case NotOk => FetchAll(ids[1..], fetch)
      case Found(p) =>
        var rest := FetchAll(ids[1..], fetch);
        if rest.None? then None else Some([p] + rest.value)
  }

  /** `all.find(p => p.id === id)`. */
  function FindById(all: seq<Product>, id: int): (r: Option<Product>)
    ensures r.Some? ==> r.value in all && r.value.id == id
    ensures r.None? ==> forall i :: 0 <= i < |all| ==> all[i].id != id
    decreases |all|
  {
    if |all| == 0 then None
    else if all[0].id == id then Some(all[0])
    else FindById(all[1..], id)
  }

  /** `find` returns the first product with the id: `k` is its position, and no
      product before it has the id. */
  lemma {:induction false} FindByIdFirst(all: seq<Product>, id: int) returns (k: nat)
    requires FindById(all, id).Some?
    ensures k < |all| && all[k] == FindById(all, id).value
    ensures forall j :: 0 <= j < k ==> all[j].id != id
    decreases |all|
  {
    if all[0].id == id {
      k := 0;
    } else {
      var k' := FindByIdFirst(all[1..], id);
      k := k' + 1;
    }
  }

  /** Re-orders the fetched products to follow `ids`, dropping ids with no product. */
  function Reorder(ids: seq<int>, all: seq<Product>): (r: seq<Product>)
    ensures |r| <= |ids|
    ensures forall i :: 0 <= i < |r| ==> r[i] in all && r[i].id in ids
    decreases |ids|
  {
    if |ids| == 0 then []
    else
      var head := match FindById(all, ids[0]) case None => [] case Some(p) => [p];
      head + Reorder(ids[1..], all)
  }

  /** The "Recently Viewed" products: the latest five stored ids, each fetched,
      shown in stored order. A missing, unreadable or non-array entry, an empty
      list, or any failed request shows nothing. */
  function RecentlyViewed(stored: StoredIds, fetch: int -> Fetched): (r: seq<Product>)
    ensures |r| <= 5
    ensures !stored.IdList? ==> r == []
    ensures stored.IdList? ==> forall i :: 0 <= i < |r| ==> r[i].id in Take(stored.ids, 5)
    ensures stored.IdList? && (exists i :: 0 <= i < |Take(stored.ids, 5)| && fetch(Take(stored.ids, 5)[i]).Failed?) ==> r == []
  {
    match stored
    case IdList(ids) =>
      if |ids| == 0 then []
      else
        var latest := Take(ids, 5);
        (match FetchAll(latest, fetch)
         case None => []
         case Some(all) => Reorder(latest, all))
    case _ => []
  }

  /** The products the catalogue serves for `ids`, in order, skipping non-ok
      responses: the reference for what the section shows. */
  function Served(ids: seq<int>, fetch: int -> Fetched): seq<Product>
    decreases |ids|
  {
    if |ids| == 0 then []
    else (if fetch(ids[0]).Found? then [fetch(ids[0]).product] else []) + Served(ids[1..], fetch)
  }

  /** The catalogue answers each id with the product of that id. */
  ghost predicate Honest(fetch: int -> Fetched) {
    forall id :: fetch(id).Found? ==> fetch(id).product.id == id
  }

  lemma {:induction false} FetchAllServed(ids: seq<int>, fetch: int -> Fetched)
    requires forall i :: 0 <= i < |ids| ==> !fetch(ids[i]).Failed?
    ensures FetchAll(ids, fetch) == Some(Served(ids, fetch))
    decreases |ids|
  {
    if |ids| > 0 {
      assert forall i :: 1 <= i < |ids| ==> ids[i] == ids[1..][i - 1];
      FetchAllServed(ids[1..], fetch);
      var rest := Served(ids[1..], fetch);
      if fetch(ids[0]).Found? {
        assert Served(ids, fetch) == [fetch(ids[0]).product] + rest;
      } else {
        assert Served(ids, fetch) == rest;
      }
    }
  }

  /** Looking an id up among products that all came from an honest catalogue finds
      exactly the product the catalogue serves for it, if that product is there. */
  lemma FindServed(all: seq<Product>, id: int, fetch: int -> Fetched)
    requires Honest(fetch)
    requires forall i :: 0 <= i < |all| ==> fetch(all[i].id) == Found(all[i])
    requires fetch(id).Found? ==> fetch(id).product in all
    ensures FindById(all, id) == (if fetch(id).Found? then Some(fetch(id).product) else None)
  {
    match FindById(all, id)
    case Some(q) =>
      var i :| 0 <= i < |all| && all[i] == q;
    case None =>
  }

  lemma {:induction false} ReorderServed(ids: seq<int>, all: seq<Product>, fetch: int -> Fetched)
    requires Honest(fetch)
    requires forall i :: 0 <= i < |all| ==> fetch(all[i].id) == Found(all[i])
    requires forall i :: 0 <= i < |ids| && fetch(ids[i]).Found? ==> fetch(ids[i]).product in all
    ensures Reorder(ids, all) == Served(ids, fetch)
    decreases |ids|
  {
    if |ids| > 0 {
      FindServed(all, ids[0], fetch);
      ReorderServed(ids[1..], all, fetch);
    }
  }

  lemma {:induction false} ServedFromCatalogue(ids: seq<int>, fetch: int -> Fetched)
    requires Honest(fetch)
    ensures forall i :: 0 <= i < |Served(ids, fetch)| ==>
      fetch(Served(ids, fetch)[i].id) == Found(Served(ids, fetch)[i])
    ensures forall i :: 0 <= i < |ids| && fetch(ids[i]).Found? ==> fetch(ids[i]).product in Served(ids, fetch)
    decreases |ids|
  {
    if |ids| > 0 {
      ServedFromCatalogue(ids[1..], fetch);
      var s := Served(ids, fetch);
      var rest := Served(ids[1..], fetch);
      assert forall i :: 1 <= i < |ids| ==> ids[i] == ids[1..][i - 1];
      if fetch(ids[0]).Found? {
        assert s == [fetch(ids[0]).product] + rest;
        assert forall i :: 1 <= i < |s| ==> s[i] == rest[i - 1];
        assert s[0].id == ids[0];
        assert fetch(ids[0]) == Found(s[0]);
        forall i | 0 <= i < |s| ensures fetch(s[i].id) == Found(s[i]) {
          if i > 0 {
            assert s[i] == rest[i - 1];
          }
        }
      } else {
        assert s == rest;
      }
    }
  }

  /** When the catalogue answers every id with the product of that id and no
      request fails, the section shows exactly the served products in stored
      order: re-ordering by `find` changes nothing. */
  lemma RecentlyViewedShowsServed(ids: seq<int>, fetch: int -> Fetched)
    requires Honest(fetch)
    requires forall i :: 0 <= i < |Take(ids, 5)| ==> !fetch(Take(ids, 5)[i]).Failed?
    ensures RecentlyViewed(IdList(ids), fetch) == Served(Take(ids, 5), fetch)
  {
    var latest := Take(ids, 5);
    if |ids| > 0 {
      FetchAllServed(latest, fetch);
      ServedFromCatalogue(latest, fetch);
      ReorderServed(latest, Served(latest, fetch), fetch);
    }
  }
}

=== FILE: fashioncard.dfy ===
/** The fashion product card: how its picture is chosen among the product's
    image fields and five built-in fallbacks, when the list price is struck
    through, and the add-to-cart guard. */
module FashionCard {
  import opened Options
  import opened Text
  import opened Users
  import Catalog
  import ProductCard

  /** The result of parsing the `images` string as JSON. */
  datatype Json = JString(s: string) | JArray(items: seq<Json>) | JOther

  /** The `images` field: absent, empty or not a string (`NoImages`), a string
      that is not JSON (`Unparsable`), or the parsed value. */
  datatype ImagesField = NoImages | Unparsable | Parsed(value: Json)

  /** The list price as `Number(mrp)` sees it: absent or null, not a number,
      or a number. */
  datatype MrpField = MrpAbsent | MrpNaN | MrpNumber(value: int)

  /** The fields of a product the card reads; an empty `imageUrl` is absent, and
      `imageUrlSnake` is `None` when `image_url` is absent or not a string. */
  datatype FashionProduct = FashionProduct(id: int, name: string, price: nat, mrp: MrpField,
                                           imageUrl: string, imageUrlSnake: Option<string>,
                                           images: ImagesField)

  /** The number of built-in fallback pictures (dress, ethnic wear, jacket,
      kurta, shorts). */
  const FallbackCount: nat := 5

  /** JavaScript's `%`: the remainder takes the sign of the dividend. */
  function JsRem(a: int, b: int): (r: int)
    requires b > 0
    ensures a >= 0 ==> 0 <= r < b
    ensures a < 0 ==> -b < r <= 0
  {
    if a >= 0 then a % b else -((-a) % b)
  }

  /** Division rounding toward zero, the quotient that goes with `JsRem`. */
  function TruncDiv(a: int, b: int): int
    requires b > 0
  {
    if a >= 0 then a / b else -((-a) / b)
  }

  /** The remainder completes truncating division: the dividend is the quotient
      times the divisor plus the remainder. */
  lemma JsRemDivision(a: int, b: int)
    requires b > 0
    ensures a == b * TruncDiv(a, b) + JsRem(a, b)
  {
    if a < 0 {
      var q := (-a) / b;
      assert -a == b * q + (-a) % b;
      assert b * -q == -(b * q);
    }
  }

  /** A negative dividend leaves a negative remainder exactly when it is not a
      multiple of the divisor. */
  lemma NegativeRemainder(a: int)
    ensures a < 0 ==> (JsRem(a, FallbackCount) < 0 <==> a % 5 != 0)
  {
  }

  /** The picture's source: a URL, one of the fallback pictures by index, or
      `undefined` when a negative id indexes outside the fallback list. */
  datatype ImageSource = Url(url: string) | FallbackImage(index: nat) | NoSource

  /** A usable URL field: present and not a placeholder. */
  predicate Usable(url: string) {
    url != "" && !Contains(url, "placeholder")
  }

  /** The first element of a parsed array when it is a string. */
  function FirstImage(images: ImagesField): (r: Option<string>)
    ensures r.Some? <==> images.Parsed? && images.value.JArray? && |images.value.items| > 0 && images.value.items[0].JString?
    ensures r.Some? ==> r.value == images.value.items[0].s
  {
    match images
    case Parsed(JArray(items)) =>
      if |items| > 0 && items[0].JString? then Some(items[0].s) else None
    case _ => None
  }

  /** `getImageSrc`: `imageUrl`, then `image_url`, then the first entry of
      `images`, each when usable; otherwise the fallback picture at the id's
      remainder. */
  function ImageSrc(p: FashionProduct): (r: ImageSource)
    ensures Usable(p.imageUrl) ==> r == Url(p.imageUrl)
    ensures !Usable(p.imageUrl) && p.imageUrlSnake.Some? && Usable(p.imageUrlSnake.value) ==> r == Url(p.imageUrlSnake.value)
    ensures !Usable(p.imageUrl) && !(p.imageUrlSnake.Some? && Usable(p.imageUrlSnake.value)) && FirstImage(p.images).Some? ==>
      r == Url(FirstImage(p.images).value)
    ensures r.FallbackImage? ==> r.index < FallbackCount && r.index == JsRem(p.id, FallbackCount)
    ensures r.FallbackImage? || r.NoSource? <==>
      !Usable(p.imageUrl) && !(p.imageUrlSnake.Some? && Usable(p.imageUrlSnake.value)) && FirstImage(p.images).None?
    ensures r.NoSource? ==> p.id < 0 && p.id % 5 != 0
    ensures (r.FallbackImage? || r.NoSource?) ==> (r.NoSource? <==> JsRem(p.id, FallbackCount) < 0)
  {
    if Usable(p.imageUrl) then Url(p.imageUrl)
    else if p.imageUrlSnake.Some? && Usable(p.imageUrlSnake.value) then Url(p.imageUrlSnake.value)
    else if FirstImage(p.images).Some? then Url(FirstImage(p.images).value)
    else
      var i := JsRem(p.id, FallbackCount);
      NegativeRemainder(p.id);
      // `-0` names the same property as `0`.
      if i >= 0 then FallbackImage(i) else NoSource
  }

  /** Products with non-negative ids and no usable image field cycle through the
      fallbacks: ids five apart get the same picture. */
  lemma FallbackCycles(p: FashionProduct)
    requires p.id >= 0 && ImageSrc(p).FallbackImage?
    ensures ImageSrc(p).index == p.id % 5
    ensures ImageSrc(p.(id := p.id + 5)) == ImageSrc(p)
  {
  }

  /** The first entry of `images` is used without the placeholder test applied
      to the two URL fields: the card shows an unusable URL (empty or a
      placeholder) exactly when neither URL field is usable and that entry is
      one. */
  lemma ParsedPlaceholderIsUsed(p: FashionProduct)
    ensures (ImageSrc(p).Url? && !Usable(ImageSrc(p).url)) <==>
      !Usable(p.imageUrl) && !(p.imageUrlSnake.Some? && Usable(p.imageUrlSnake.value)) &&
      FirstImage(p.images).Some? && !Usable(FirstImage(p.images).value)
  {
  }

  /** `parsedMrp && parsedMrp > price`: a numeric, non-zero list price above the
      selling price is struck through. */
  function StrikeThroughShown(p: FashionProduct): (r: bool)
    ensures r <==> p.mrp.MrpNumber? && p.mrp.value > p.price
  {
    match p.mrp
    case MrpNumber(m) => m != 0 && m > p.price
    case _ => false
  }

  /** The same prices in the catalogue's shape. */
  function AsCatalogProduct(p: FashionProduct, m: nat): Catalog.Product {
    Catalog.Product(p.id, p.name, "Fashion", "", p.price, Some(m))
  }

  /** Wherever the main product card strikes a list price through, the fashion
      card does too; the converse fails for savings under half a percent. */
  lemma StrikeThroughAgainstProductCard(p: FashionProduct, m: nat)
    requires p.mrp == MrpNumber(m)
    ensures ProductCard.StrikeThroughShown(AsCatalogProduct(p, m)) ==> StrikeThroughShown(p)
  {
    ProductCard.DiscountShownIff(AsCatalogProduct(p, m));
  }

  /** Where the two cards disagree: only this card strikes the list price
      through exactly when it is above the selling price and the product card's
      rounded discount is 0, that is the selling price is 0 or the saving is
      under half a percent. */
  lemma StruckOnlyHere(p: FashionProduct, m: nat)
    requires p.mrp == MrpNumber(m)
    ensures StrikeThroughShown(p) && !ProductCard.StrikeThroughShown(AsCatalogProduct(p, m)) <==>
      m > p.price && (p.price == 0 || 200 * (m - p.price) < m)
  {
    ProductCard.DiscountShownIff(AsCatalogProduct(p, m));
  }

  /** `handleAddToCart`: the same guard, in the same order, as the main product
      card's handler. */
  function AddToCart(user: Option<User>, hasCartContext: bool): (r: ProductCard.AddOutcome)
    ensures r == ProductCard.SignInFirst <==> user.None?
    ensures r == ProductCard.NotAllowed <==> user.Some? && (user.value.role == "admin" || user.value.role == "seller")
    ensures r == ProductCard.NoCart <==> user.Some? && user.value.role != "admin" && user.value.role != "seller" && !hasCartContext
  {
    ProductCard.AddToCart(user, hasCartContext)
  }

  /** The card's link. */
  function ProductLink(p: FashionProduct): (r: string)
    ensures |r| > 9 && r[..9] == "/product/" && r[9..] == IntToString(p.id)
  {
    "/product/" + IntToString(p.id)
  }
}

=== FILE: featured.dfy ===
/** The home page's "Featured Deal" box: the real deals ranked by list price,
    highest first, four of them; the box renders only with four. */
module FeaturedDeal {
  import opened Seqs
  import opened Sorting
  import opened Catalog

  /** The comparator `b.mrp - a.mrp` as an ascending key. */
  function ByMrpDescending(p: Product): int {
    -(MrpValue(p) as int)
  }

  /** The real deals ranked by descending list price. */
  function RankedDeals(products: seq<Product>): seq<Product> {
    SortBy(Filter(products, HasRealDiscount), ByMrpDescending)
  }

  /** Ranking keeps the real deals and only them. */
  lemma RankedDealsMembers(products: seq<Product>)
    ensures forall i :: 0 <= i < |RankedDeals(products)| ==>
      RankedDeals(products)[i] in products && HasRealDiscount(RankedDeals(products)[i])
  {
    var deals := Filter(products, HasRealDiscount);
    SortMembers(deals, ByMrpDescending);
    forall i | 0 <= i < |RankedDeals(products)|
      ensures RankedDeals(products)[i] in products && HasRealDiscount(RankedDeals(products)[i])
    {
      var x := RankedDeals(products)[i];
      assert x in deals;
      var k :| 0 <= k < |deals| && deals[k] == x;
    }
  }

  function FeaturedDealProducts(products: seq<Product>): (r: seq<Product>)
    ensures |r| == Min(4, |Filter(products, HasRealDiscount)|)
    ensures forall i :: 0 <= i < |r| ==> r[i] in products && HasRealDiscount(r[i])
    ensures forall i, j :: 0 <= i < j < |r| ==> MrpValue(r[i]) >= MrpValue(r[j])
  {
    var ranked := RankedDeals(products);
    RankedDealsMembers(products);
    var r := Take(ranked, 4);
    assert forall i :: 0 <= i < |r| ==> r[i] == ranked[i];
    r
  }

  /** No real deal left out of the box has a higher list price than any deal
      shown: a deal is either shown, or the box is full of deals listed at least
      as high. */
  lemma FeaturedDealIsTopFour(products: seq<Product>, x: Product)
    requires x in products && HasRealDiscount(x)
    ensures var r := FeaturedDealProducts(products);
            x in r || (|r| == 4 && forall i :: 0 <= i < |r| ==> MrpValue(r[i]) >= MrpValue(x))
  {
    var deals := Filter(products, HasRealDiscount);
    var ranked := RankedDeals(products);
    var r := FeaturedDealProducts(products);
    assert r == Take(ranked, 4);
    var k :| 0 <= k < |products| && products[k] == x;
    assert x in deals;
    SortMembers(deals, ByMrpDescending);
    var m :| 0 <= m < |ranked| && ranked[m] == x;
    if m < 4 {
      assert r[m] == x;
    } else {
      forall i | 0 <= i < |r| ensures MrpValue(r[i]) >= MrpValue(x) {
        assert r[i] == ranked[i];
      }
    }
  }
}

=== FILE: header.dfy ===
/** The main site header: the cart badge, where the account entries lead, which
    entries each role sees, and the mobile menu toggle. */
module Header {
  import opened Options
  import opened Users

  /** The quantities of the cart's lines, `None` where a line's quantity is
      `undefined`. A `null` quantity adds as 0 in `sum + item.quantity`, so it
      is written here as `Some(0)`. */
  type Quantities = seq<Option<int>>

  /** The number of items, summed left to right as `reduce` does; an undefined
      quantity turns the sum into NaN, modelled as `None`. */
  function ItemCount(qs: Quantities): (r: Option<int>)
    ensures r.None? <==> exists i :: 0 <= i < |qs| && qs[i].None?
    decreases |qs|
  {
    if |qs| == 0 then Some(0)
    else
      var rest := ItemCount(qs[..|qs| - 1]);
      var last := qs[|qs| - 1];
      assert forall i :: 0 <= i < |qs| - 1 ==> qs[..|qs| - 1][i] == qs[i];
      if rest.None? || last.None? then None else Some(rest.value + last.value)
  }

  /** The sum of the quantities when all are present. */
  function Sum(qs: seq<int>): int
    decreases |qs|
  {
    if |qs| == 0 then 0 else qs[0] + Sum(qs[1..])
  }

  lemma {:induction false} SumAppend(a: seq<int>, b: seq<int>)
    ensures Sum(a + b) == Sum(a) + Sum(b)
    decreases |a|
  {
    if |a| > 0 {
      assert (a + b)[1..] == a[1..] + b;
      SumAppend(a[1..], b);
    } else {
      assert a + b == b;
    }
  }

  function Present(qs: Quantities): seq<int>
    requires forall i :: 0 <= i < |qs| ==> qs[i].Some?
  {
    seq(|qs|, i requires 0 <= i < |qs| => qs[i].value)
  }

  /** With every quantity present, the count is their sum. */
  lemma {:induction false} ItemCountIsSum(qs: Quantities)
    requires forall i :: 0 <= i < |qs| ==> qs[i].Some?
    ensures ItemCount(qs) == Some(Sum(Present(qs)))
    decreases |qs|
  {
    if |qs| > 0 {
      var init := qs[..|qs| - 1];
      ItemCountIsSum(init);
      assert Present(qs) == Present(init) + [qs[|qs| - 1].value];
      SumAppend(Present(init), [qs[|qs| - 1].value]);
      assert Sum([qs[|qs| - 1].value]) == qs[|qs| - 1].value;
    }
  }

  /** The badge shows a positive count; a NaN count hides it. */
  function BadgeShown(count: Option<int>): (r: bool)
    ensures r <==> count.Some? && count.value > 0
  {
    count.Some? && count.value > 0
  }

  /** A line whose quantity is undefined hides the badge whatever the other lines hold. */
  lemma MissingQuantityHidesBadge(qs: Quantities, i: nat)
    requires i < |qs| && qs[i].None?
    ensures !BadgeShown(ItemCount(qs))
  {
  }

  /** `getDashboardLink`: sign-in for guests, then the role's dashboard, and the
      home page for an unrecognised role. */
  function DashboardLink(user: Option<User>): (r: string)
    ensures user.None? <==> r == "/auth"
    ensures r == "/admin" <==> user.Some? && user.value.role == "admin"
    ensures r == "/seller/dashboard" <==> user.Some? && user.value.role == "seller"
    ensures r == "/buyer/dashboard" <==> user.Some? && user.value.role == "buyer"
    ensures r == "/" <==> user.Some? && user.value.role !in {"admin", "seller", "buyer"}
  {
    if user.None? then "/auth"
    else if user.value.role == "admin" then "/admin"
    else if user.value.role == "seller" then "/seller/dashboard"
    else if user.value.role == "buyer" then "/buyer/dashboard"
    else "/"
  }

  /** The account kind shown in the user menu: everyone not an admin or a
      seller is called a buyer. */
  function AccountLabel(u: User): (r: string)
    ensures r == "Buyer Account" <==> u.role != "admin" && u.role != "seller"
    ensures r == "Admin Account" <==> u.role == "admin"
    ensures r == "Seller Account" <==> u.role == "seller"
  {
    if u.role == "admin" then "Admin Account"
    else if u.role == "seller" then "Seller Account"
    else "Buyer Account"
  }

  /** The label of the dashboard entry, which always agrees with the account
      kind above it. */
  function DashboardEntryLabel(u: User): (r: string)
    ensures r == "My Profile" <==> AccountLabel(u) == "Buyer Account"
    ensures r == "Admin Dashboard" <==> AccountLabel(u) == "Admin Account"
    ensures r == "Seller Dashboard" <==> AccountLabel(u) == "Seller Account"
  {
    if u.role == "admin" then "Admin Dashboard"
    else if u.role == "seller" then "Seller Dashboard"
    else "My Profile"
  }

  /** An unrecognised role is labelled a buyer account yet its dashboard entry
      leads to the home page, not to the buyer dashboard. */
  lemma UnknownRoleLooksLikeBuyer(u: User)
    requires u.role !in {"admin", "seller", "buyer"}
    ensures AccountLabel(u) == "Buyer Account"
    ensures DashboardLink(Some(u)) == "/"
  {
  }

  /** The user menu's extra entries: orders and wishlist, for buyers only. */
  function BuyerEntries(u: User): (r: seq<string>)
    ensures |r| > 0 <==> u.role == "buyer"
    ensures |r| > 0 ==> r == ["/buyer/orders", "/buyer/wishlist"]
  {
    if u.role == "buyer" then ["/buyer/orders", "/buyer/wishlist"] else []
  }

  /** "Become a Seller", on the desktop bar and in the mobile menu. For a guest
      the expression's left operand is `true`, which renders nothing, so only a
      signed-in user whose role is neither buyer nor seller sees the link. */
  function BecomeSellerShown(user: Option<User>): (r: bool)
    ensures r <==> user.Some? && user.value.role != "buyer" && user.value.role != "seller"
  {
    var guest := user.None?;
    var shortCircuit := guest || (user.value.role != "buyer" && user.value.role != "seller");
    // A boolean operand renders nothing; only the link element is visible.
    shortCircuit && !guest
  }

  /** Guests are never offered the seller link, admins always are. */
  lemma BecomeSellerAudience(user: Option<User>)
    ensures user.None? ==> !BecomeSellerShown(user)
    ensures user.Some? && user.value.role == "admin" ==> BecomeSellerShown(user)
  {
  }

  /** The mobile account link: the dashboard when signed in, else sign-in. */
  function MobileAccountLink(user: Option<User>): (r: string)
    ensures user.None? ==> r == "/auth"
  {
    if user.Some? then DashboardLink(user) else "/auth"
  }

  /** The mobile account link always agrees with the desktop dashboard link. */
  lemma MobileLinkAgrees(user: Option<User>)
    ensures MobileAccountLink(user) == DashboardLink(user)
  {
  }

  function MobileAccountLabel(user: Option<User>): (r: string)
    ensures user.None? ==> r == "Login / Sign Up"
    ensures user.Some? && user.value.name != "" ==> r == user.value.name
    ensures user.Some? && user.value.name == "" ==> r == user.value.username
  {
    if user.Some? then DisplayName(user.value) else "Login / Sign Up"
  }

  /** The header's own state: the location and whether the mobile menu is open. */
  datatype State = State(location: string, menuOpen: bool)

  datatype Event = CartClicked | MenuToggled

  function Step(s: State, e: Event): (r: State)
    ensures e == CartClicked ==> r.location == "/cart" && r.menuOpen == s.menuOpen
    ensures e == MenuToggled ==> r.location == s.location && r.menuOpen != s.menuOpen
  {
    match e
    case CartClicked => s.(location := "/cart")
    case MenuToggled => s.(menuOpen := !s.menuOpen)
  }

  lemma ToggleTwice(s: State)
    ensures Step(Step(s, MenuToggled), MenuToggled) == s
  {
  }
}

=== FILE: hero.dfy ===
/** The hero section: the slider's index arithmetic and autoplay, the deal of
    the day countdown, the fallback images, and where clicks lead. */
module Hero {
  import opened Options
  import opened Text
  import opened Users
  import ProductCard

  // ---- Slider ------------------------------------------------------------

  /** `goToSlide`: an index below 0 becomes the last slide, one at or past the
      end becomes the first. */
  function GoToSlide(index: int, count: nat): (r: int)
    ensures count > 0 && 0 <= index < count ==> r == index
    ensures count > 0 && (index < 0 || index >= count) ==> r == (if index < 0 then count - 1 else 0)
    ensures count == 0 ==> r == (if index < 0 then -1 else 0)
  {
    var i := if index < 0 then count - 1 else index;
    if i >= count then 0 else i
  }

  function NextSlide(current: int, count: nat): int {
    GoToSlide(current + 1, count)
  }

  function PrevSlide(current: int, count: nat): int {
    GoToSlide(current - 1, count)
  }

  /** The autoplay step, every five seconds. */
  function AdvanceSlide(current: int, count: nat): int {
    if current + 1 >= count then 0 else current + 1
  }

  /** On a valid slide, next and previous are the cyclic successor and
      predecessor, autoplay agrees with next, and previous undoes next. */
  lemma SliderIsCyclic(current: int, count: nat)
    requires 0 <= current < count
    ensures NextSlide(current, count) == (current + 1) % count
    ensures PrevSlide(current, count) == (current - 1 + count) % count
    ensures AdvanceSlide(current, count) == NextSlide(current, count)
    ensures PrevSlide(NextSlide(current, count), count) == current
    ensures NextSlide(PrevSlide(current, count), count) == current
  {
    if current + 1 == count {
      ModWrap(0, count);
    } else {
      ModSmall(current + 1, count);
    }
    if current == 0 {
      ModSmall(count - 1, count);
    } else {
      ModWrap(current - 1, count);
    }
  }

  lemma ModSmall(a: int, n: int)
    requires 0 <= a < n
    ensures a % n == a
  {
    assert a == n * 0 + a;
  }

  lemma ModWrap(a: int, n: int)
    requires 0 <= a < n
    ensures (a + n) % n == a
  {
    assert a + n == n * 1 + a;
  }

  /** Stepping back from the first slide of an empty slider yields -1, an index
      no slide has; autoplay on an empty slider stays at 0. */
  lemma EmptySlider()
    ensures PrevSlide(0, 0) == -1
    ensures AdvanceSlide(0, 0) == 0
  {
  }

  // ---- Countdown ---------------------------------------------------------

  datatype Countdown = Countdown(hours: int, minutes: int, seconds: int)

  /** The starting countdown: each missing or zero field of the deal is 0. */
  function StartCountdown(hours: Option<int>, minutes: Option<int>, seconds: Option<int>): Countdown {
    Countdown(hours.GetOr(0), minutes.GetOr(0), seconds.GetOr(0))
  }

  /** One tick of the one-second timer: borrow a minute, then an hour, and when
      the time runs out (or was already out) reset to zero and ask for a fresh
      deal (`refetch`). */
  datatype TickResult = TickResult(next: Countdown, refetch: bool)

  function Tick(c: Countdown): TickResult {
    var s0 := c.seconds - 1;
    var s := if s0 < 0 then 59 else s0;
    var m0 := if s0 < 0 then c.minutes - 1 else c.minutes;
    var m := if m0 < 0 then 59 else m0;
    var h := if m0 < 0 then c.hours - 1 else c.hours;
    if h < 0 || (h == 0 && m == 0 && s == 0) then TickResult(Countdown(0, 0, 0), true)
    else TickResult(Countdown(h, m, s), false)
  }

  /** A clock reading: non-negative hours, minutes and seconds below 60. */
  predicate Valid(c: Countdown) {
    c.hours >= 0 && 0 <= c.minutes < 60 && 0 <= c.seconds < 60
  }

  function TotalSeconds(c: Countdown): int {
    3600 * c.hours + 60 * c.minutes + c.seconds
  }

  /** Each tick of a valid reading removes exactly one second, and refetches
      exactly when that reaches zero; a zero reading stays zero and refetches on
      every tick. */
  lemma TickCountsDown(c: Countdown)
    requires Valid(c)
    ensures Valid(Tick(c).next)
    ensures TotalSeconds(c) >= 1 ==> TotalSeconds(Tick(c).next) == TotalSeconds(c) - 1
    ensures TotalSeconds(c) == 0 ==> Tick(c).next == c
    ensures Tick(c).refetch <==> TotalSeconds(c) <= 1
  {
  }

  function TickTimes(c: Countdown, n: nat): Countdown
    decreases n
  {
    if n == 0 then c else TickTimes(Tick(c).next, n - 1)
  }

  /** A valid reading reaches zero after exactly as many ticks as it has seconds. */
  lemma {:induction false} CountdownReachesZero(c: Countdown)
    requires Valid(c)
    ensures TotalSeconds(c) >= 0
    ensures TickTimes(c, TotalSeconds(c)) == Countdown(0, 0, 0)
    decreases TotalSeconds(c)
  {
    if TotalSeconds(c) > 0 {
      TickCountsDown(c);
      CountdownReachesZero(Tick(c).next);
    }
  }
  /** A deal's timer starts from its fields, a missing or zero one read as 0;
      when they form a clock reading, the deal runs out after exactly that many
      seconds of ticks. */
  lemma CountdownFromDeal(hours: Option<int>, minutes: Option<int>, seconds: Option<int>)
    requires hours.GetOr(0) >= 0 && 0 <= minutes.GetOr(0) < 60 && 0 <= seconds.GetOr(0) < 60
    ensures var c := StartCountdown(hours, minutes, seconds);
      && Valid(c)
      && TotalSeconds(c) == 3600 * hours.GetOr(0) + 60 * minutes.GetOr(0) + seconds.GetOr(0)
      && TickTimes(c, TotalSeconds(c)) == Countdown(0, 0, 0)
  {
    CountdownReachesZero(StartCountdown(hours, minutes, seconds));
  }


  // ---- Images ------------------------------------------------------------

  const KnownCategories: seq<string> :=
    ["electronics", "fashion", "mobiles", "home", "beauty", "grocery", "toys", "appliances"]

  /** `getCategoryImage`: the category's picture when its lower-cased name is a
      known category, otherwise the placeholder. */
  function CategoryImage(category: string): (r: string)
    ensures Lower(category) in KnownCategories ==> r == "/images/categories/" + Lower(category) + ".svg"
    ensures Lower(category) !in KnownCategories ==> r == "/images/placeholder.svg"
  {
    if category != "" && Lower(category) in KnownCategories then "/images/categories/" + Lower(category) + ".svg"
    else "/images/placeholder.svg"
  }

  /** The keywords the deal's subtitle is searched for, in order. */
  const DealKeywords: seq<string> :=
    ["Electronics", "Fashion", "Home", "Appliances", "Mobiles", "Beauty", "Toys", "Grocery"]

  /** The position of the first keyword the text contains, case-sensitively. */
  function FirstKeyword(text: string, keywords: seq<string>, from: nat): (r: Option<nat>)
    requires from <= |keywords|
    ensures r.Some? ==> from <= r.value < |keywords| && Contains(text, keywords[r.value])
    ensures r.Some? ==> forall j :: from <= j < r.value ==> !Contains(text, keywords[j])
    ensures r.None? ==> forall j :: from <= j < |keywords| ==> !Contains(text, keywords[j])
    decreases |keywords| - from
  {
    if from == |keywords| then None
    else if Contains(text, keywords[from]) then Some(from)
    else FirstKeyword(text, keywords, from + 1)
  }

  /** `getDealCategory`: the picture of the first category named in the
      subtitle, or the general picture. */
  function DealCategoryImage(subtitle: string): (r: string)
    ensures var k := FirstKeyword(subtitle, DealKeywords, 0);
            r == "/images/categories/" + (if k.Some? then Lower(DealKeywords[k.value]) else "general") + ".svg"
  {
    match FirstKeyword(subtitle, DealKeywords, 0)
    case Some(i) => "/images/categories/" + Lower(DealKeywords[i]) + ".svg"
    case None => "/images/categories/general.svg"
  }

  /** A subtitle naming several categories gets the earliest in keyword order,
      wherever it appears in the subtitle. */
  lemma DealCategoryPrefersEarlierKeyword(subtitle: string, i: nat)
    requires i < |DealKeywords| && Contains(subtitle, DealKeywords[i])
    ensures FirstKeyword(subtitle, DealKeywords, 0).Some?
    ensures FirstKeyword(subtitle, DealKeywords, 0).value <= i
  {
  }

  /** A slide's image: its own URL unless empty or a placeholder.com stand-in,
      then the category picture. */
  function SlideImage(url: string, category: string): (r: string)
    ensures url != "" && !Contains(url, "placeholder.com") ==> r == url
    ensures url == "" || Contains(url, "placeholder.com") ==> r == CategoryImage(category)
  {
    if url != "" && !Contains(url, "placeholder.com") then url else CategoryImage(category)
  }

  function DealImage(image: string, subtitle: string): (r: string)
    ensures image != "" && !Contains(image, "placeholder.com") ==> r == image
    ensures image == "" || Contains(image, "placeholder.com") ==> r == DealCategoryImage(subtitle)
  {
    if image != "" && !Contains(image, "placeholder.com") then image else DealCategoryImage(subtitle)
  }

  // ---- Clicks ------------------------------------------------------------

  /** A slide: `productId` is `None` when absent; empty strings stand for absent
      category and subcategory. */
  datatype Slide = Slide(url: string, category: string, subcategory: string, productId: Option<int>)

  /** A truthy product id: present and non-zero. */
  predicate HasProductId(id: Option<int>) {
    id.Some? && id.value != 0
  }

  /** `handleSlideClick`: the product page for a slide with a product, else the
      category page (narrowed by subcategory when given), else nowhere. */
  function SlideTarget(s: Slide): (r: Option<string>)
    ensures HasProductId(s.productId) ==> r == Some("/product/" + IntToString(s.productId.value))
    ensures !HasProductId(s.productId) && s.category == "" ==> r.None?
    ensures !HasProductId(s.productId) && s.category != "" ==>
      r.Some? && StartsWith(r.value, "/category/" + Lower(s.category))
    ensures !HasProductId(s.productId) && s.category != "" ==>
      (Contains(r.value, "?subcategory=") <== s.subcategory != "")
    ensures !HasProductId(s.productId) && s.category != "" && s.subcategory != "" ==>
      r == Some("/category/" + Lower(s.category) + "?subcategory=" + Lower(s.subcategory))
    ensures !HasProductId(s.productId) && s.category != "" && s.subcategory == "" ==>
      r == Some("/category/" + Lower(s.category))
  {
    if HasProductId(s.productId) then Some("/product/" + IntToString(s.productId.value))
    else if s.category != "" then
      var base := "/category/" + Lower(s.category);
      if s.subcategory != "" then
        var url := base + "?subcategory=" + Lower(s.subcategory);
        assert url[..|base|] == base;
        assert OccursAt(url, "?subcategory=", |base|) by {
          assert url[|base|..|base| + 13] == "?subcategory=";
        }
        ContainsAt(url, "?subcategory=");
        Some(url)
      else
        assert base[..|base|] == base;
        Some(base)
    else None
  }

  /** Clicking the deal's picture opens its product when it has one. */
  function DealTarget(productId: Option<int>): (r: Option<string>)
    ensures r.Some? <==> HasProductId(productId)
    ensures r.Some? ==> StartsWith(r.value, "/product/")
  {
    if HasProductId(productId) then
      var url := "/product/" + IntToString(productId.value);
      assert url[..9] == "/product/";
      Some(url)
    else None
  }

  /** The deal's picture and a slide carrying the same product lead to the same
      product page. */
  lemma DealAndSlideAgree(productId: Option<int>, s: Slide)
    requires s.productId == productId && HasProductId(productId)
    ensures DealTarget(productId) == SlideTarget(s)
  {
  }

  datatype DealAdd = NoProduct | SignInFirst | NotAllowed | FetchAndAdd

  /** The deal's add-to-cart button: nothing without a product id, then the same
      guest and role checks as a product card. */
  function DealAddToCart(productId: Option<int>, user: Option<User>): (r: DealAdd)
    ensures r == NoProduct <==> !HasProductId(productId)
    ensures HasProductId(productId) && user.None? ==> r == SignInFirst
    ensures r == FetchAndAdd <==>
      HasProductId(productId) && user.Some? && user.value.role != "admin" && user.value.role != "seller"
  {
    if !HasProductId(productId) then NoProduct
    else if user.None? then SignInFirst
    else if user.value.role == "admin" || user.value.role == "seller" then NotAllowed
    else FetchAndAdd
  }

  /** With a product id, the deal's button refuses exactly whom a product card
      inside a cart provider refuses. */
  lemma DealGuardMatchesCard(productId: Option<int>, user: Option<User>)
    requires HasProductId(productId)
    ensures DealAddToCart(productId, user) == SignInFirst <==> ProductCard.AddToCart(user, true) == ProductCard.SignInFirst
    ensures DealAddToCart(productId, user) == NotAllowed <==> ProductCard.AddToCart(user, true) == ProductCard.NotAllowed
    ensures DealAddToCart(productId, user) == FetchAndAdd <==> ProductCard.AddToCart(user, true) == ProductCard.AddedToCart
  {
  }
}

=== FILE: megamenu.dfy ===
/** The category mega menu: which categories become dropdowns and which plain
    links, which subcategories each dropdown lists, and the inline expansion of
    second-level subcategories. */
module MegaMenu {
  import opened Options
  import opened Seqs

  datatype Category = Category(id: int, name: string, slug: string, active: bool)

  /** A subcategory; `parentId` is `None` when null or absent. */
  datatype Subcategory = Subcategory(id: int, name: string, slug: string, categoryId: int,
                                     parentId: Option<int>, active: bool)

  /** A first-level subcategory: no parent, or the parent id 0. */
  predicate IsTopLevel(s: Subcategory) {
    s.parentId.None? || s.parentId.value == 0
  }

  function TopLevelOf(categoryId: int): Subcategory -> bool {
    (s: Subcategory) => s.categoryId == categoryId && s.active && IsTopLevel(s)
  }

  function ChildOf(subcategoryId: int): Subcategory -> bool {
    (s: Subcategory) => s.parentId == Some(subcategoryId) && s.active
  }

  /** `getSubcategoriesForCategory`: the active first-level subcategories of a
      category, in server order; nothing before the list has loaded. */
  function SubcategoriesFor(subs: Option<seq<Subcategory>>, categoryId: int): (r: seq<Subcategory>)
    ensures subs.None? ==> r == []
    ensures forall i :: 0 <= i < |r| ==>
      r[i].categoryId == categoryId && r[i].active && IsTopLevel(r[i]) && subs.Some? && r[i] in subs.value
    ensures subs.Some? ==> forall i :: 0 <= i < |subs.value| && TopLevelOf(categoryId)(subs.value[i]) ==> subs.value[i] in r
    ensures subs.Some? ==> IsSubsequence(r, subs.value)
  {
    if subs.None? then []
    else
      FilterIsSubsequence(subs.value, TopLevelOf(categoryId));
      Filter(subs.value, TopLevelOf(categoryId))
  }

  /** `getSubcategory2ForSubcategory`: the active children of a subcategory. */
  function ChildrenOf(subs: Option<seq<Subcategory>>, subcategoryId: int): (r: seq<Subcategory>)
    ensures subs.None? ==> r == []
    ensures forall i :: 0 <= i < |r| ==>
      r[i].parentId == Some(subcategoryId) && r[i].active && subs.Some? && r[i] in subs.value
    ensures subs.Some? ==> forall i :: 0 <= i < |subs.value| && ChildOf(subcategoryId)(subs.value[i]) ==> subs.value[i] in r
    ensures subs.Some? ==> IsSubsequence(r, subs.value)
  {
    if subs.None? then []
    else
      FilterIsSubsequence(subs.value, ChildOf(subcategoryId));
      Filter(subs.value, ChildOf(subcategoryId))
  }

  /** `hasSubcategories`: the category owns some active subcategory, of any level. */
  predicate HasSubcategories(subs: Option<seq<Subcategory>>, categoryId: int) {
    subs.Some? && exists i :: 0 <= i < |subs.value| && subs.value[i].categoryId == categoryId && subs.value[i].active
  }

  function WithSubcategories(subs: Option<seq<Subcategory>>): Category -> bool {
    (c: Category) => c.active && HasSubcategories(subs, c.id)
  }

  function WithoutSubcategories(subs: Option<seq<Subcategory>>): Category -> bool {
    (c: Category) => c.active && !HasSubcategories(subs, c.id)
  }

  /** What the menu bar renders: skeletons while either list loads, nothing when
      there are no categories, else the dropdown categories followed by the
      plain links. */
  datatype MenuView = Loading | Hidden | Bar(dropdowns: seq<Category>, links: seq<Category>)

  function Menu(categoriesLoading: bool, subcategoriesLoading: bool,
                categories: Option<seq<Category>>, subs: Option<seq<Subcategory>>): (r: MenuView)
    ensures r == Loading <==> categoriesLoading || subcategoriesLoading
    ensures r == Hidden <==>
      !categoriesLoading && !subcategoriesLoading && (categories.None? || |categories.value| == 0)
    ensures r.Bar? ==> forall i :: 0 <= i < |r.dropdowns| ==>
      r.dropdowns[i] in categories.value && r.dropdowns[i].active && HasSubcategories(subs, r.dropdowns[i].id)
    ensures r.Bar? ==> forall i :: 0 <= i < |r.links| ==>
      r.links[i] in categories.value && r.links[i].active && !HasSubcategories(subs, r.links[i].id)
    ensures r.Bar? ==> IsSubsequence(r.dropdowns, categories.value) && IsSubsequence(r.links, categories.value)
  {
    if categoriesLoading || subcategoriesLoading then Loading
    else if categories.None? || |categories.value| == 0 then Hidden
    else
      FilterIsSubsequence(categories.value, WithSubcategories(subs));
      FilterIsSubsequence(categories.value, WithoutSubcategories(subs));
      Bar(Filter(categories.value, WithSubcategories(subs)), Filter(categories.value, WithoutSubcategories(subs)))
  }

  /** Splitting by a second predicate loses nothing and duplicates nothing. */
  lemma {:induction false} SplitCount<T>(s: seq<T>, p: T -> bool, q: T -> bool, notQ: T -> bool, both: T -> bool)
    requires forall x :: both(x) == (p(x) && q(x))
    requires forall x :: notQ(x) == (p(x) && !q(x))
    ensures |Filter(s, both)| + |Filter(s, notQ)| == |Filter(s, p)|
    decreases |s|
  {
    if |s| > 0 {
      SplitCount(s[1..], p, q, notQ, both);
    }
  }

  function IsActive(c: Category): bool {
    c.active
  }

  /** Every active category appears in the bar exactly once over both groups,
      and the two groups together are as many as the active categories. */
  lemma MenuPartitionsActive(categories: seq<Category>, subs: Option<seq<Subcategory>>)
    requires |categories| > 0
    ensures var r := Menu(false, false, Some(categories), subs);
      r.Bar? && |r.dropdowns| + |r.links| == |Filter(categories, IsActive)|
    ensures var r := Menu(false, false, Some(categories), subs);
      forall c :: c in categories && c.active ==> (c in r.dropdowns <==> c !in r.links)
  {
    SplitCount(categories, IsActive, (c: Category) => HasSubcategories(subs, c.id),
               WithoutSubcategories(subs), WithSubcategories(subs));
    var r := Menu(false, false, Some(categories), subs);
    forall c | c in categories && c.active
      ensures c in r.dropdowns <==> c !in r.links
    {
      var i :| 0 <= i < |categories| && categories[i] == c;
      if HasSubcategories(subs, c.id) {
        assert WithSubcategories(subs)(categories[i]);
      } else {
        assert WithoutSubcategories(subs)(categories[i]);
      }
    }
  }

  /** A category whose first-level list is non-empty is a dropdown, but the
      converse fails: one owning only second-level subcategories is a dropdown
      that lists no first-level entries. */
  lemma ListedImpliesDropdown(subs: seq<Subcategory>, categoryId: int)
    requires |SubcategoriesFor(Some(subs), categoryId)| > 0
    ensures HasSubcategories(Some(subs), categoryId)
  {
    var r := SubcategoriesFor(Some(subs), categoryId);
    assert r[0] in subs;
    var i :| 0 <= i < |subs| && subs[i] == r[0];
  }

  lemma DropdownMayListNothing(subs: seq<Subcategory>, categoryId: int)
    ensures HasSubcategories(Some(subs), categoryId) && SubcategoriesFor(Some(subs), categoryId) == [] <==>
      (exists i :: 0 <= i < |subs| && subs[i].categoryId == categoryId && subs[i].active) &&
      (forall i :: 0 <= i < |subs| && subs[i].categoryId == categoryId && subs[i].active ==> !IsTopLevel(subs[i]))
  {
    var listed := SubcategoriesFor(Some(subs), categoryId);
    if |listed| > 0 {
      assert listed[0] in subs;
    }
  }

  /** A first-level subcategory with parent id 0 is also listed among the
      children of a subcategory whose id is 0. */
  lemma ParentZeroIsBoth(s: Subcategory)
    requires s.parentId == Some(0) && s.active
    ensures IsTopLevel(s) && ChildOf(0)(s)
  {
  }

  // ---- Expansion ---------------------------------------------------------

  /** The chevron's click: collapse the subcategory if it is the expanded one,
      otherwise expand it (collapsing any other). */
  function ToggleExpanded(expanded: Option<int>, id: int): (r: Option<int>)
    ensures expanded == Some(id) ==> r.None?
    ensures expanded != Some(id) ==> r == Some(id)
  {
    if expanded == Some(id) then None else Some(id)
  }

  /** What changes the expanded subcategory: the pointer entering a row or
      leaving it, and a click on a row's chevron (rendered only for rows with
      children; the click does not reach the row). */
  datatype RowEvent = Enter(id: int) | Leave | Chevron(id: int)

  /** The row's `onMouseEnter` expands it, its `onMouseLeave` collapses
      whatever is expanded, and the chevron toggles. */
  function Expand(expanded: Option<int>, e: RowEvent): (r: Option<int>)
    ensures e.Enter? ==> r == Some(e.id)
    ensures e.Leave? ==> r.None?
    ensures e.Chevron? ==> (r.None? <==> expanded == Some(e.id))
    ensures e.Chevron? && r.Some? ==> r.value == e.id
  {
    match e
    case Enter(id) => Some(id)
    case Leave => None
    case Chevron(id) => ToggleExpanded(expanded, id)
  }

  /** The pointer is over a row before its chevron can be clicked, so that
      click collapses the row the hover has just expanded; and leaving a row
      hides every second-level list. */
  lemma HoverThenChevron(subs: Option<seq<Subcategory>>, expanded: Option<int>, id: int)
    ensures Expand(Expand(expanded, Enter(id)), Chevron(id)).None?
    ensures forall x :: !ShowsChildren(subs, Expand(expanded, Leave), x)
  {
  }

  /** The second-level list of a subcategory is shown when it is the expanded
      one and has children. */
  predicate ShowsChildren(subs: Option<seq<Subcategory>>, expanded: Option<int>, id: int) {
    expanded == Some(id) && |ChildrenOf(subs, id)| > 0
  }

  /** Toggling twice restores the state when nothing, or this subcategory, was
      expanded; after toggling another, at most one subcategory is expanded. */
  lemma ToggleTwice(expanded: Option<int>, id: int)
    ensures expanded.None? || expanded == Some(id) ==> ToggleExpanded(ToggleExpanded(expanded, id), id) == expanded
    ensures expanded.Some? && expanded.value != id ==> ToggleExpanded(ToggleExpanded(expanded, id), id).None?
  {
  }

  /** At most one subcategory's children are shown at a time. */
  lemma AtMostOneExpanded(subs: Option<seq<Subcategory>>, expanded: Option<int>, a: int, b: int)
    requires ShowsChildren(subs, expanded, a) && ShowsChildren(subs, expanded, b)
    ensures a == b
  {
  }

  // ---- Links -------------------------------------------------------------

  /** The "View All" item and the plain link of a category. */
  function CategoryLink(c: Category): (r: string)
    ensures |r| == 10 + |c.slug| && r[..10] == "/category/" && r[10..] == c.slug
  {
    "/category/" + c.slug
  }

  /** A second-level entry's destination: the category page narrowed by both
      subcategory levels. */
  function ChildLink(c: Category, sub: Subcategory, child: Subcategory): (r: string)
    ensures |r| > |CategoryLink(c)| && r[..|CategoryLink(c)|] == CategoryLink(c)
    ensures r[|CategoryLink(c)|..] == "?subcategory=" + sub.slug + "&subcategory2=" + child.slug
  {
    CategoryLink(c) + "?subcategory=" + sub.slug + "&subcategory2=" + child.slug
  }
}

=== FILE: options.dfy ===
/** The optional-value datatype used for JavaScript's `undefined`/`null` and for
    JSON input that may be absent or malformed. */
module Options {

  datatype Option<T> = None | Some(value: T) {

    /** The wrapped value, or `default` when there is none (JavaScript's `x ?? d`). */
    function GetOr(default: T): T {
      match this
      case Some(v) => v
      case None => default
    }
  }
}

=== FILE: picking.dfy ===
/** "Pick one product per ordered rule, then backfill with unused products": the
    selection pattern shared by the home page's Trending block and its two
    `pickTrendingFashionProducts` helpers. A product is "used" once its id has
    been picked; picks never repeat an id. */
module Picking {
  import opened Options
  import opened Seqs
  import opened Catalog

  /** The ids of the products in `s`. */
  function Ids(s: seq<Product>): set<int> {
    Keys(s, ProductId)
  }

  /** No id occurs twice in `s`. */
  predicate DistinctIds(s: seq<Product>) {
    DistinctBy(s, ProductId)
  }

  /** `pool.find(p => !used.has(p.id) && rule(p))` searching from position `from`,
      as the index of the product found. */
  function FindUnused(pool: seq<Product>, rule: Product -> bool, used: set<int>, from: nat): (r: Option<nat>)
    requires from <= |pool|
    ensures r.Some? ==> from <= r.value < |pool| && pool[r.value].id !in used && rule(pool[r.value])
    ensures r.Some? ==> forall j :: from <= j < r.value ==> pool[j].id in used || !rule(pool[j])
    ensures r.None? ==> forall j :: from <= j < |pool| ==> pool[j].id in used || !rule(pool[j])
    decreases |pool| - from
  {
    if from == |pool| then None
    else if pool[from].id !in used && rule(pool[from]) then Some(from)
    else FindUnused(pool, rule, used, from + 1)
  }

  /** The rule phase: each rule in order contributes the first product of `pool`
      that matches it and whose id is not yet used, or nothing. */
  function ApplyRules(pool: seq<Product>, rules: seq<Product -> bool>, used: set<int>): (r: seq<Product>)
    ensures |r| <= |rules|
    ensures forall i :: 0 <= i < |r| ==> r[i] in pool && r[i].id !in used
    ensures DistinctIds(r)
    decreases |rules|
  {
    if |rules| == 0 then []
    else
      match FindUnused(pool, rules[0], used, 0)
      case None => ApplyRules(pool, rules[1..], used)
      case Some(i) =>
        var rest := ApplyRules(pool, rules[1..], used + {pool[i].id});
        var r := [pool[i]] + rest;
        assert DistinctIds(r) by {
          forall a, b | 0 <= a < b < |r| ensures r[a].id != r[b].id {
            assert r[b] == rest[b - 1];
            if a > 0 {
              assert r[a] == rest[a - 1];
            }
          }
        }
        r
  }

  /** What one rule adds: the first unused product of `pool` matching it, or
      nothing when there is none. */
  function RuleStep(pool: seq<Product>, rule: Product -> bool, used: set<int>): (r: seq<Product>)
    ensures |r| <= 1
    ensures |r| == 1 <==> FindUnused(pool, rule, used, 0).Some?
    ensures |r| == 1 ==> r[0] in pool && rule(r[0]) && r[0].id !in used
    ensures |r| == 0 <==> forall j :: 0 <= j < |pool| ==> pool[j].id in used || !rule(pool[j])
    ensures FindUnused(pool, rule, used, 0).Some? ==> r == [pool[FindUnused(pool, rule, used, 0).value]]
  {
    match FindUnused(pool, rule, used, 0)
    case None => []
    case Some(i) => [pool[i]]
  }

  /** One unfolding of the rule phase, in terms of `RuleStep`. */
  lemma ApplyRulesUnfold(pool: seq<Product>, rules: seq<Product -> bool>, used: set<int>)
    requires |rules| > 0
    ensures ApplyRules(pool, rules, used) ==
      RuleStep(pool, rules[0], used) + ApplyRules(pool, rules[1..], used + Ids(RuleStep(pool, rules[0], used)))
  {
    match FindUnused(pool, rules[0], used, 0)
    case None =>
      assert Ids([]) == {};
    case Some(i) =>
      IdsCons(pool[i], []);
      assert [pool[i]] + [] == [pool[i]];
  }

  /** The source's loop over the rules, with its set of used ids: rule `k`
      adds its first match whose id neither an earlier rule picked. */
  method RulePhase(pool: seq<Product>, rules: seq<Product -> bool>) returns (picked: seq<Product>)
    ensures picked == ApplyRules(pool, rules, {})
  {
    picked := [];
    var used: set<int> := {};
    assert rules[0..] == rules && Ids([]) == {};
    for k := 0 to |rules|
      invariant used == Ids(picked)
      invariant picked + ApplyRules(pool, rules[k..], used) == ApplyRules(pool, rules, {})
    {
      RulePhaseStep(pool, rules, k, picked);
      var found := FindUnused(pool, rules[k], used, 0);
      if found.Some? {
        var p := pool[found.value];
        picked := picked + [p];
        used := used + {p.id};
      }
    }
    assert rules[|rules|..] == [];
    assert picked + [] == picked;
  }

  /** One turn of the loop: after the first `k` rules, rule `k` adds its first
      match among the products whose ids the earlier picks do not hold, or
      nothing. */
  lemma RulePhaseStep(pool: seq<Product>, rules: seq<Product -> bool>, k: nat, picked: seq<Product>)
    requires k < |rules|
    ensures var step := RuleStep(pool, rules[k], Ids(picked));
      && picked + ApplyRules(pool, rules[k..], Ids(picked)) ==
        (picked + step) + ApplyRules(pool, rules[k + 1..], Ids(picked + step))
      && (match FindUnused(pool, rules[k], Ids(picked), 0)
          case None => step == [] && Ids(picked + step) == Ids(picked)
          case Some(i) => picked + step == picked + [pool[i]] && Ids(picked + step) == Ids(picked) + {pool[i].id})
  {
    var used := Ids(picked);
    var rest := rules[k..];
    assert rest[0] == rules[k] && rest[1..] == rules[k + 1..];
    var step := RuleStep(pool, rules[k], used);
    var later := ApplyRules(pool, rules[k + 1..], used + Ids(step));
    assert ApplyRules(pool, rest, used) == step + later by {
      ApplyRulesUnfold(pool, rest, used);
    }
    assert picked + (step + later) == (picked + step) + later;
    assert Ids(picked + step) == used + Ids(step) by {
      IdsAppend(picked, step);
    }
    RuleStepIds(pool, rules[k], used);
  }

  /** The step's ids: none, or the id of the product found. */
  lemma RuleStepIds(pool: seq<Product>, rule: Product -> bool, used: set<int>)
    ensures match FindUnused(pool, rule, used, 0)
      case None => RuleStep(pool, rule, used) == [] && Ids(RuleStep(pool, rule, used)) == {}
      case Some(i) => RuleStep(pool, rule, used) == [pool[i]] && Ids(RuleStep(pool, rule, used)) == {pool[i].id}
  {
    match FindUnused(pool, rule, used, 0)
    case None =>
      assert Ids([]) == {};
    case Some(i) =>
      IdsCons(pool[i], []);
      assert [pool[i]] + [] == [pool[i]];
  }

  lemma {:induction false} IdsAppend(a: seq<Product>, b: seq<Product>)
    ensures Ids(a + b) == Ids(a) + Ids(b)
    decreases |a|
  {
    if |a| == 0 {
      assert a + b == b;
    } else {
      assert a + b == [a[0]] + (a[1..] + b);
      assert a == [a[0]] + a[1..];
      IdsCons(a[0], a[1..] + b);
      IdsCons(a[0], a[1..]);
      IdsAppend(a[1..], b);
    }
  }

  /** The products of `pool`, in order, whose ids are neither in `used` nor taken
      by an earlier position: what a backfill with unlimited room would add. */
  function DistinctFresh(pool: seq<Product>, used: set<int>): (r: seq<Product>)
    ensures forall i :: 0 <= i < |r| ==> r[i] in pool && r[i].id !in used
    ensures DistinctIds(r)
    decreases |pool|
  {
    if |pool| == 0 then []
    else if pool[0].id in used then DistinctFresh(pool[1..], used)
    else
      var rest := DistinctFresh(pool[1..], used + {pool[0].id});
      var r := [pool[0]] + rest;
      assert DistinctIds(r) by {
        forall a, b | 0 <= a < b < |r| ensures r[a].id != r[b].id {
          assert r[b] == rest[b - 1];
          if a > 0 {
            assert r[a] == rest[a - 1];
          }
        }
      }
      r
  }

  /** The backfill reaches every id of the pool that is not already used. */
  lemma {:induction false} DistinctFreshIds(pool: seq<Product>, used: set<int>)
    ensures Ids(DistinctFresh(pool, used)) == Ids(pool) - used
    decreases |pool|
  {
    if |pool| > 0 {
      var id := pool[0].id;
      IdsCons(pool[0], pool[1..]);
      assert [pool[0]] + pool[1..] == pool;
      if id in used {
        DistinctFreshIds(pool[1..], used);
      } else {
        var rest := DistinctFresh(pool[1..], used + {id});
        DistinctFreshIds(pool[1..], used + {id});
        assert DistinctFresh(pool, used) == [pool[0]] + rest;
        IdsCons(pool[0], rest);
      }
    }
  }

  lemma IdsCons(p: Product, s: seq<Product>)
    ensures Ids([p] + s) == {p.id} + Ids(s)
  {
    assert ([p] + s)[1..] == s;
  }

  /** The backfill loop: walk `pool` in order, stop once `acc` holds `cap`
      products, and append every product whose id is not yet used. */
  function Backfill(pool: seq<Product>, acc: seq<Product>, used: set<int>, cap: nat): seq<Product>
    decreases |pool|
  {
    if |pool| == 0 || |acc| == cap then acc
    else if pool[0].id in used then Backfill(pool[1..], acc, used, cap)
    else Backfill(pool[1..], acc + [pool[0]], used + {pool[0].id}, cap)
  }

  lemma {:induction false} BackfillWithRoom(pool: seq<Product>, acc: seq<Product>, used: set<int>, cap: nat)
    requires |acc| <= cap
    ensures Backfill(pool, acc, used, cap) == acc + Take(DistinctFresh(pool, used), cap - |acc|)
    decreases |pool|
  {
    var room := cap - |acc|;
    if |pool| == 0 {
      assert DistinctFresh(pool, used) == [];
      assert acc + [] == acc;
    } else if room == 0 {
      assert Take(DistinctFresh(pool, used), 0) == [];
      assert acc + [] == acc;
    } else if pool[0].id in used {
      assert DistinctFresh(pool, used) == DistinctFresh(pool[1..], used);
      BackfillWithRoom(pool[1..], acc, used, cap);
    } else {
      var x := pool[0];
      var rest := DistinctFresh(pool[1..], used + {x.id});
      assert Backfill(pool, acc, used, cap) == Backfill(pool[1..], acc + [x], used + {x.id}, cap);
      BackfillWithRoom(pool[1..], acc + [x], used + {x.id}, cap);
      assert DistinctFresh(pool, used) == [x] + rest;
      TakeCons(x, rest, room);
      assert (acc + [x]) + Take(rest, room - 1) == acc + ([x] + Take(rest, room - 1));
    }
  }

  lemma {:induction false} BackfillOverfull(pool: seq<Product>, acc: seq<Product>, used: set<int>, cap: nat)
    requires |acc| > cap
    ensures Backfill(pool, acc, used, cap) == acc + DistinctFresh(pool, used)
    decreases |pool|
  {
    if |pool| == 0 {
    } else if pool[0].id in used {
      BackfillOverfull(pool[1..], acc, used, cap);
    } else {
      BackfillOverfull(pool[1..], acc + [pool[0]], used + {pool[0].id}, cap);
    }
  }

  /** Cutting a backfill to `cap` gives the first `cap` of the rule picks followed by
      every fresh product, whether or not the rule picks already exceed `cap`. */
  lemma BackfillCut(pool: seq<Product>, acc: seq<Product>, used: set<int>, cap: nat)
    ensures Take(Backfill(pool, acc, used, cap), cap) == Take(acc + DistinctFresh(pool, used), cap)
  {
    var newer := DistinctFresh(pool, used);
    if |acc| <= cap {
      BackfillWithRoom(pool, acc, used, cap);
      var t := Take(newer, cap - |acc|);
      assert acc + t == (acc + newer)[..|acc| + |t|];
    } else {
      BackfillOverfull(pool, acc, used, cap);
    }
  }

  /** Rule picks followed by the fresh products never repeat an id. */
  lemma PicksThenFreshDistinct(pool: seq<Product>, ruled: seq<Product>)
    requires DistinctIds(ruled)
    ensures DistinctIds(ruled + DistinctFresh(pool, Ids(ruled)))
  {
    var used := Ids(ruled);
    var newer := DistinctFresh(pool, used);
    var all := ruled + newer;
    forall a, b | 0 <= a < b < |all| ensures all[a].id != all[b].id {
      if b < |ruled| {
        assert all[a] == ruled[a] && all[b] == ruled[b];
      } else if a >= |ruled| {
        assert all[a] == newer[a - |ruled|] && all[b] == newer[b - |ruled|];
      } else {
        assert all[a] == ruled[a] && all[b] == newer[b - |ruled|];
        assert ruled[a].id in used;
      }
    }
  }

  /** Rule picks drawn from the pool, followed by the fresh products, hold as many
      products as the pool has distinct ids. */
  lemma PicksThenFreshCount(pool: seq<Product>, ruled: seq<Product>)
    requires forall i :: 0 <= i < |ruled| ==> ruled[i] in pool
    requires DistinctIds(ruled)
    ensures |ruled + DistinctFresh(pool, Ids(ruled))| == |Ids(pool)|
  {
    var used := Ids(ruled);
    var newer := DistinctFresh(pool, used);
    DistinctFreshIds(pool, used);
    DistinctKeysCount(ruled, ProductId);
    DistinctKeysCount(newer, ProductId);
    assert used <= Ids(pool) by {
      forall k | k in used ensures k in Ids(pool) {
        var i :| 0 <= i < |ruled| && ruled[i].id == k;
        var j :| 0 <= j < |pool| && pool[j] == ruled[i];
      }
    }
    SubsetCount(Ids(pool), used);
  }

  lemma SubsetCount(all: set<int>, part: set<int>)
    requires part <= all
    ensures |all - part| + |part| == |all|
  {
    assert all == (all - part) + part;
  }

  /** The whole selection: the rule phase starting with nothing used, the backfill
      with the ids the rules picked, and `slice(0, cap)`. */
  function Pick(pool: seq<Product>, rules: seq<Product -> bool>, cap: nat): (r: seq<Product>)
    ensures |r| == Min(cap, |Ids(pool)|)
    ensures forall i :: 0 <= i < |r| ==> r[i] in pool
    ensures DistinctIds(r)
  {
    var ruled := ApplyRules(pool, rules, {});
    var r := Take(Backfill(pool, ruled, Ids(ruled), cap), cap);
    BackfillCut(pool, ruled, Ids(ruled), cap);
    PicksThenFreshFacts(pool, ruled, cap);
    r
  }

  /** What `Pick` needs about the rule picks followed by the fresh products, cut
      to `cap`. */
  lemma PicksThenFreshFacts(pool: seq<Product>, ruled: seq<Product>, cap: nat)
    requires forall i :: 0 <= i < |ruled| ==> ruled[i] in pool
    requires DistinctIds(ruled)
    ensures var r := Take(ruled + DistinctFresh(pool, Ids(ruled)), cap);
      |r| == Min(cap, |Ids(pool)|) && (forall i :: 0 <= i < |r| ==> r[i] in pool) && DistinctIds(r)
  {
    var newer := DistinctFresh(pool, Ids(ruled));
    var all := ruled + newer;
    PicksThenFreshDistinct(pool, ruled);
    PicksThenFreshCount(pool, ruled);
    var r := Take(all, cap);
    PrefixDistinct(all, |r|, ProductId);
    forall i | 0 <= i < |r| ensures r[i] in pool {
      if i >= |ruled| {
        assert r[i] == newer[i - |ruled|];
      } else {
        assert r[i] == ruled[i];
      }
    }
  }

  /** The rule phase comes first and the backfill follows it: the selection is the
      rule picks, then the unused products in pool order, cut to `cap`. */
  lemma PickShape(pool: seq<Product>, rules: seq<Product -> bool>, cap: nat)
    ensures var ruled := ApplyRules(pool, rules, {});
            Pick(pool, rules, cap) == Take(ruled + DistinctFresh(pool, Ids(ruled)), cap)
  {
    var ruled := ApplyRules(pool, rules, {});
    BackfillCut(pool, ruled, Ids(ruled), cap);
  }

  /** The backfill keeps the pool's order. */
  lemma {:induction false} DistinctFreshIsSubsequence(pool: seq<Product>, used: set<int>)
    ensures IsSubsequence(DistinctFresh(pool, used), pool)
    decreases |pool|
  {
    if |pool| > 0 {
      if pool[0].id in used {
        DistinctFreshIsSubsequence(pool[1..], used);
      } else {
        DistinctFreshIsSubsequence(pool[1..], used + {pool[0].id});
        var r := DistinctFresh(pool, used);
        assert r[0] == pool[0] && r[1..] == DistinctFresh(pool[1..], used + {pool[0].id});
      }
    }
  }

  /** With room for every rule pick, the backfill never grows past `cap`, so the
      final `slice(0, cap)` changes nothing. */
  lemma {:induction false} BackfillWithinCap(pool: seq<Product>, acc: seq<Product>, used: set<int>, cap: nat)
    requires |acc| <= cap
    ensures |Backfill(pool, acc, used, cap)| <= cap
    ensures Take(Backfill(pool, acc, used, cap), cap) == Backfill(pool, acc, used, cap)
    decreases |pool|
  {
    if |pool| == 0 || |acc| == cap {
    } else if pool[0].id in used {
      BackfillWithinCap(pool[1..], acc, used, cap);
    } else {
      BackfillWithinCap(pool[1..], acc + [pool[0]], used + {pool[0].id}, cap);
    }
  }

  /** The search with nothing used yet finds the first product of the pool, from
      `from` on, that matches the rule. */
  lemma {:induction false} FindFirstMatch(pool: seq<Product>, rule: Product -> bool, from: nat)
    requires from <= |pool|
    ensures FindUnused(pool, rule, {}, from).Some? <==> |Filter(pool[from..], rule)| > 0
    ensures FindUnused(pool, rule, {}, from).Some? ==>
      pool[FindUnused(pool, rule, {}, from).value] == Filter(pool[from..], rule)[0]
    decreases |pool| - from
  {
    if from < |pool| {
      assert pool[from..][1..] == pool[from + 1..];
      FindFirstMatch(pool, rule, from + 1);
    }
  }

  /** The first rule's pick leads the selection: it is the first product of the
      pool matching that rule. */
  lemma FirstRulePick(pool: seq<Product>, rules: seq<Product -> bool>, cap: nat)
    requires |rules| > 0 && cap > 0
    requires |Filter(pool, rules[0])| > 0
    ensures |Pick(pool, rules, cap)| > 0 && Pick(pool, rules, cap)[0] == Filter(pool, rules[0])[0]
  {
    FindFirstMatch(pool, rules[0], 0);
    assert pool[0..] == pool;
    var ruled := ApplyRules(pool, rules, {});
    assert ruled[0] == Filter(pool, rules[0])[0];
    PickShape(pool, rules, cap);
  }
}

=== FILE: productcard.dfy ===
/** The product card: its discount badge, displayed price and struck-through
    list price, the add-to-cart guard, and the click that records the product
    as recently viewed before opening it. */
module ProductCard {
  import opened Options
  import opened Seqs
  import opened Catalog
  import opened Users
  import opened Text
  import Header

  /** The card's discount: the rounded percentage when the list price and the
      selling price are truthy and the list price is the higher, otherwise 0. */
  function DiscountPercent(p: Product): (r: int)
    ensures 0 <= r <= 100
    ensures r > 0 <==> HasRealDiscount(p) && p.price != 0 && 200 * (MrpValue(p) - p.price) >= MrpValue(p)
    ensures HasMrp(p) && p.price != 0 && p.mrp.value > p.price ==> r == RoundedDiscount(p.mrp.value, p.price)
    ensures !(HasMrp(p) && p.price != 0 && p.mrp.value > p.price) ==> r == 0
  {
    if HasMrp(p) && p.price != 0 && p.mrp.value > p.price then
      DiscountRange(p.mrp.value, p.price);
      RoundedDiscount(p.mrp.value, p.price)
    else 0
  }

  /** `hasDiscount`: the discount rounds to at least 1 percent. */
  predicate HasDiscount(p: Product) {
    DiscountPercent(p) > 0
  }

  /** The badge shows when the caller asks for it and there is a discount. */
  predicate BadgeShown(showDiscountBadge: bool, p: Product) {
    showDiscountBadge && HasDiscount(p)
  }

  /** The list price is struck through whenever there is a discount; a numeric
      list price is implied, since a discount needs one. */
  predicate StrikeThroughShown(p: Product) {
    HasDiscount(p) && p.mrp.Some?
  }

  /** The badge reads the rounded saving, and shows exactly when asked for on a
      real deal with a truthy price that saves at least half a percent. */
  lemma BadgeShownIff(showDiscountBadge: bool, p: Product)
    ensures BadgeShown(showDiscountBadge, p) <==>
      showDiscountBadge && HasRealDiscount(p) && p.price != 0 && 200 * (MrpValue(p) - p.price) >= MrpValue(p)
    ensures BadgeShown(showDiscountBadge, p) ==> DiscountPercent(p) == RoundedDiscount(p.mrp.value, p.price) >= 1
  {
  }

  /** A discount is shown exactly for real deals that save at least half a
      percent; the struck-through list price goes with it. */
  lemma DiscountShownIff(p: Product)
    ensures HasDiscount(p) <==> HasRealDiscount(p) && p.price != 0 && 200 * (MrpValue(p) - p.price) >= MrpValue(p)
    ensures StrikeThroughShown(p) <==> HasDiscount(p)
  {
  }

  /** The price line: the GST-inclusive price when the product carries one. */
  function DisplayedPrice(p: Product, priceWithGst: Option<nat>): (r: nat)
    ensures priceWithGst.Some? ==> r == priceWithGst.value
    ensures priceWithGst.None? ==> r == p.price
  {
    priceWithGst.GetOr(p.price)
  }

  // ---- Add to cart -------------------------------------------------------

  datatype AddOutcome = SignInFirst | NotAllowed | AddedToCart | NoCart

  /** Guests are sent to sign in, admins and sellers are refused, everyone else
      adds the product, provided the card sits inside a cart provider. */
  function AddToCart(user: Option<User>, hasCartContext: bool): (r: AddOutcome)
    ensures r == SignInFirst <==> user.None?
    ensures r == NotAllowed <==> user.Some? && (user.value.role == "admin" || user.value.role == "seller")
    ensures r == AddedToCart <==> user.Some? && user.value.role != "admin" && user.value.role != "seller" && hasCartContext
  {
    if user.None? then SignInFirst
    else if user.value.role == "admin" || user.value.role == "seller" then NotAllowed
    else if hasCartContext then AddedToCart
    else NoCart
  }

  /** The guard sorts users as the header's dashboard link does: guests are the
      ones sent to sign in, the refused ones are those with an admin or seller
      dashboard, and everyone the header sends to the buyer dashboard or home
      can add to a cart that is there. */
  lemma AddToCartByDashboard(user: Option<User>, hasCartContext: bool)
    ensures AddToCart(user, hasCartContext) == SignInFirst <==> Header.DashboardLink(user) == "/auth"
    ensures AddToCart(user, hasCartContext) == NotAllowed <==>
      Header.DashboardLink(user) in {"/admin", "/seller/dashboard"}
    ensures AddToCart(user, hasCartContext) == AddedToCart <==>
      Header.DashboardLink(user) in {"/buyer/dashboard", "/"} && hasCartContext
  {
  }

  // ---- Recently viewed ---------------------------------------------------

  /** The test "is not `id`", for `filter`. */
  function Other(id: int): int -> bool {
    x => x != id
  }

  /** The ids other than `id`. */
  function Others(ids: seq<int>, id: int): (r: seq<int>)
    ensures |r| <= |ids|
    ensures forall i :: 0 <= i < |r| ==> r[i] != id && r[i] in ids
    ensures forall i :: 0 <= i < |ids| && ids[i] != id ==> ids[i] in r
    ensures IsSubsequence(r, ids)
  {
    FilterIsSubsequence(ids, Other(id));
    Filter(ids, Other(id))
  }

  /** `filter`, `unshift`, then the cut to twenty: `id` first, followed by the
      first nineteen other ids in their stored order. */
  function MoveToFront(ids: seq<int>, id: int): (r: seq<int>)
    ensures 1 <= |r| <= 20 && r[0] == id
    ensures |r| == Min(20, 1 + |Others(ids, id)|)
    ensures forall i :: 1 <= i < |r| ==> r[i] != id && r[i] in ids
    ensures IsSubsequence(r[1..], ids)
    ensures FirstMatches(r[1..], ids, Other(id), 19)
  {
    var others := Others(ids, id);
    var moved := [id] + others;
    var r := if |moved| > 20 then moved[..20] else moved;
    assert r[1..] == Take(others, 19);
    FirstMatchesTake(ids, Other(id), 19);
    PrefixIsSubsequence(others, ids, |r| - 1);
    r
  }

  /** The list written back when a card is clicked: the product's id moved to the
      front, at most twenty entries. Nothing is written (`None`) when the stored
      value is valid JSON but not a list, since filtering it throws. */
  function RecordView(stored: StoredIds, id: int): (r: Option<seq<int>>)
    ensures r.None? <==> stored.NotAList?
    ensures r.Some? ==> 1 <= |r.value| <= 20 && r.value[0] == id
    ensures r.Some? ==> forall i :: 1 <= i < |r.value| ==> r.value[i] != id
    ensures r.Some? && stored.IdList? ==> forall i :: 1 <= i < |r.value| ==> r.value[i] in stored.ids
    ensures r.Some? && !stored.IdList? ==> r.value == [id]
    ensures stored.IdList? ==> |r.value| == Min(20, 1 + |Others(stored.ids, id)|)
    ensures stored.IdList? ==> IsSubsequence(r.value[1..], stored.ids)
    ensures stored.IdList? ==> FirstMatches(r.value[1..], stored.ids, Other(id), 19)
  {
    match stored
    case NotAList => None
    case IdList(ids) => Some(MoveToFront(ids, id))
    case _ => Some([id])
  }

  function Identity(x: int): int {
    x
  }

  /** Recording the same product twice in a row writes the same list as once. */
  lemma RecordViewIdempotent(stored: StoredIds, id: int)
    requires !stored.NotAList?
    ensures RecordView(IdList(RecordView(stored, id).value), id) == RecordView(stored, id)
  {
    var once := RecordView(stored, id).value;
    var rest := once[1..];
    assert once == [id] + rest;
    FilterAll(rest, Other(id));
    assert Filter(once, Other(id)) == rest by {
      FilterAppend([id], rest, Other(id));
    }
  }

  /** A list without repeats stays without repeats; since the kept ids follow
      the stored order, no id can come back twice. */
  lemma RecordViewDistinct(ids: seq<int>, id: int)
    requires DistinctBy(ids, Identity)
    ensures DistinctBy(RecordView(IdList(ids), id).value, Identity)
    ensures IsSubsequence(RecordView(IdList(ids), id).value[1..], ids)
  {
    MoveToFrontDistinct(ids, id);
  }

  lemma MoveToFrontDistinct(ids: seq<int>, id: int)
    requires DistinctBy(ids, Identity)
    ensures DistinctBy(MoveToFront(ids, id), Identity)
  {
    var r := MoveToFront(ids, id);
    SubsequenceDistinct(r[1..], ids, Identity);
    forall a, b | 0 <= a < b < |r| ensures r[a] != r[b] {
      assert r[b] == r[1..][b - 1];
      if a > 0 {
        assert r[a] == r[1..][a - 1];
      }
    }
  }

  /** The product the card opens. */
  function ProductLink(p: Product): (r: string)
    ensures |r| > 10 && r[..10] == "/products/" && r[10..] == IntToString(p.id)
  {
    "/products/" + IntToString(p.id)
  }
}

=== FILE: seqs.dfy ===
/** Sequence operations shared by the selection rules: `Array.prototype.filter`,
    `slice(0, k)`, order preservation (subsequences) and distinctness of keys. */
module Seqs {
  import opened Options

  function Min(a: int, b: int): int {
    if a <= b then a else b
  }

  /** `s.filter(p)`: the elements satisfying `p`, in their original order. */
  function Filter<T>(s: seq<T>, p: T -> bool): (r: seq<T>)
    ensures |r| <= |s|
    ensures forall i :: 0 <= i < |r| ==> r[i] in s && p(r[i])
    ensures forall i :: 0 <= i < |s| && p(s[i]) ==> s[i] in r
    decreases |s|
  {
    if |s| == 0 then []
    else (if p(s[0]) then [s[0]] else []) + Filter(s[1..], p)
  }

  /** `s.slice(0, n)`. */
  function Take<T>(s: seq<T>, n: nat): (r: seq<T>)
    ensures |r| == Min(n, |s|)
    ensures r == s[..|r|]
  {
    if |s| <= n then s else s[..n]
  }

  /** Taking from a non-empty front keeps the front and takes one fewer after it. */
  lemma TakeCons<T>(x: T, s: seq<T>, n: nat)
    requires n > 0
    ensures Take([x] + s, n) == [x] + Take(s, n - 1)
  {
    assert ([x] + s)[1..] == s;
  }

  /** How many elements before position `j` satisfy `p`: the place a match at
      `j` takes in `Filter(s, p)`. */
  function MatchIndex<T>(s: seq<T>, p: T -> bool, j: nat): (r: nat)
    requires j < |s|
    ensures r <= j
    ensures p(s[j]) ==> r < |Filter(s, p)| && Filter(s, p)[r] == s[j]
  {
    assert s == s[..j] + s[j..];
    FilterAppend(s[..j], s[j..], p);
    assert s[j..][0] == s[j];
    |Filter(s[..j], p)|
  }

  /** `r` is `s.filter(p).slice(0, k)`, described by positions: it has as many
      elements as there are matches, but at most `k`, and a match of `s` with
      `m < k` matches before it is the element at position `m`. */
  predicate FirstMatches<T(==)>(r: seq<T>, s: seq<T>, p: T -> bool, k: nat) {
    |r| == Min(k, |Filter(s, p)|) &&
    forall j :: 0 <= j < |s| && p(s[j]) && MatchIndex(s, p, j) < k ==>
      MatchIndex(s, p, j) < |r| && r[MatchIndex(s, p, j)] == s[j]
  }

  /** Every place of the filtered list is taken by some match of `s`. */
  lemma {:induction false} MatchAt<T>(s: seq<T>, p: T -> bool, m: nat) returns (j: nat)
    requires m < |Filter(s, p)|
    ensures j < |s| && p(s[j]) && MatchIndex(s, p, j) == m
    decreases |s|
  {
    if p(s[0]) && m == 0 {
      j := 0;
      assert s[..0] == [];
    } else {
      var head: seq<T> := if p(s[0]) then [s[0]] else [];
      assert Filter(s, p) == head + Filter(s[1..], p);
      var j' := MatchAt(s[1..], p, m - |head|);
      j := j' + 1;
      MatchIndexStep(s, p, j);
    }
  }

  lemma MatchIndexStep<T>(s: seq<T>, p: T -> bool, j: nat)
    requires 0 < j < |s|
    ensures MatchIndex(s, p, j) == (if p(s[0]) then 1 else 0) + MatchIndex(s[1..], p, j - 1)
  {
    assert s[..j] == [s[0]] + s[1..][..j - 1];
    FilterAppend([s[0]], s[1..][..j - 1], p);
    assert [s[0]][1..] == [];
  }

  /** The description is exact: at most one sequence meets it. */
  lemma FirstMatchesUnique<T>(a: seq<T>, b: seq<T>, s: seq<T>, p: T -> bool, k: nat)
    requires FirstMatches(a, s, p, k) && FirstMatches(b, s, p, k)
    ensures a == b
  {
    forall m | 0 <= m < |a| ensures a[m] == b[m] {
      var j := MatchAt(s, p, m);
    }
  }

  /** `Take(Filter(s, p), k)` meets the description. */
  lemma FirstMatchesTake<T>(s: seq<T>, p: T -> bool, k: nat)
    ensures FirstMatches(Take(Filter(s, p), k), s, p, k)
  {
  }

  /** Cutting the first `k` matches to `n <= k` leaves the first `n` matches. */
  lemma FirstMatchesShorter<T>(r: seq<T>, s: seq<T>, p: T -> bool, k: nat, n: nat)
    requires FirstMatches(r, s, p, k) && n <= k
    ensures FirstMatches(Take(r, n), s, p, n)
  {
  }

  /** `a` is obtained from `b` by deleting elements: the relative order of what is
      kept is the order in `b`. */
  predicate IsSubsequence<T(==)>(a: seq<T>, b: seq<T>)
    decreases |b|
  {
    |a| == 0 ||
    (|b| > 0 && ((a[0] == b[0] && IsSubsequence(a[1..], b[1..])) || IsSubsequence(a, b[1..])))
  }

  /** No two positions of `s` share the same key. */
  predicate DistinctBy<T>(s: seq<T>, key: T -> int) {
    forall i, j :: 0 <= i < j < |s| ==> key(s[i]) != key(s[j])
  }

  /** A prefix of a sequence with distinct keys has distinct keys. */
  lemma PrefixDistinct<T>(s: seq<T>, k: nat, key: T -> int)
    requires DistinctBy(s, key) && k <= |s|
    ensures DistinctBy(s[..k], key)
  {
    forall i, j | 0 <= i < j < k ensures key(s[..k][i]) != key(s[..k][j]) {
      assert s[..k][i] == s[i] && s[..k][j] == s[j];
    }
  }

  /** In a sequence with distinct keys, two different members have different keys. */
  lemma DistinctByMembers<T>(s: seq<T>, key: T -> int, x: T, y: T)
    requires DistinctBy(s, key) && x in s && y in s
    ensures x != y ==> key(x) != key(y)
  {
    var i :| 0 <= i < |s| && s[i] == x;
    var j :| 0 <= j < |s| && s[j] == y;
    assert x != y ==> i != j;
  }

  /** Two sequences with distinct keys and no key in common concatenate to one
      with distinct keys. */
  lemma DistinctAppend<T>(a: seq<T>, b: seq<T>, key: T -> int)
    requires DistinctBy(a, key) && DistinctBy(b, key)
    requires forall x, y :: x in a && y in b ==> key(x) != key(y)
    ensures DistinctBy(a + b, key)
  {
    var ab := a + b;
    forall i, j | 0 <= i < j < |ab| ensures key(ab[i]) != key(ab[j]) {
      if j < |a| {
        assert ab[i] == a[i] && ab[j] == a[j];
      } else if i >= |a| {
        assert ab[i] == b[i - |a|] && ab[j] == b[j - |a|];
      } else {
        assert ab[i] == a[i] && ab[j] == b[j - |a|];
      }
    }
  }

  /** The set of keys occurring in `s`. */
  function Keys<T>(s: seq<T>, key: T -> int): (r: set<int>)
    ensures forall i :: 0 <= i < |s| ==> key(s[i]) in r
    ensures forall k :: k in r ==> exists i :: 0 <= i < |s| && key(s[i]) == k
    ensures |r| <= |s|
    decreases |s|
  {
    if |s| == 0 then {} else {key(s[0])} + Keys(s[1..], key)
  }

  lemma FilterAppend<T>(a: seq<T>, b: seq<T>, p: T -> bool)
    ensures Filter(a + b, p) == Filter(a, p) + Filter(b, p)
    decreases |a|
  {
    if |a| == 0 {
      assert a + b == b;
    } else {
      assert (a + b)[1..] == a[1..] + b;
      FilterAppend(a[1..], b, p);
    }
  }

  /** Filtering keeps exactly the elements that satisfy the predicate, so nothing
      is lost when every element satisfies it and nothing is kept when none does. */
  lemma FilterAll<T>(s: seq<T>, p: T -> bool)
    requires forall x :: x in s ==> p(x)
    ensures Filter(s, p) == s
    decreases |s|
  {
    if |s| > 0 {
      FilterAll(s[1..], p);
    }
  }

  lemma FilterNone<T>(s: seq<T>, p: T -> bool)
    requires forall x :: x in s ==> !p(x)
    ensures Filter(s, p) == []
  {
  }

  lemma {:induction false} SubsequenceMembers<T>(a: seq<T>, b: seq<T>)
    requires IsSubsequence(a, b)
    ensures forall x :: x in a ==> x in b
    decreases |b|
  {
    if |a| > 0 {
      if a[0] == b[0] && IsSubsequence(a[1..], b[1..]) {
        SubsequenceMembers(a[1..], b[1..]);
        assert forall x :: x in a ==> x == a[0] || x in a[1..];
      } else {
        SubsequenceMembers(a, b[1..]);
      }
    }
  }

  lemma {:induction false} SubsequenceReflexive<T>(s: seq<T>)
    ensures IsSubsequence(s, s)
    decreases |s|
  {
    if |s| > 0 {
      SubsequenceReflexive(s[1..]);
    }
  }

  lemma {:induction false} FilterIsSubsequence<T>(s: seq<T>, p: T -> bool)
    ensures IsSubsequence(Filter(s, p), s)
    decreases |s|
  {
    if |s| > 0 {
      FilterIsSubsequence(s[1..], p);
      var r := Filter(s, p);
      if p(s[0]) {
        assert r[0] == s[0] && r[1..] == Filter(s[1..], p);
      } else {
        assert r == Filter(s[1..], p);
      }
    }
  }

  /** A prefix of a subsequence is a subsequence. */
  lemma {:induction false} PrefixIsSubsequence<T>(a: seq<T>, b: seq<T>, k: nat)
    requires IsSubsequence(a, b)
    requires k <= |a|
    ensures IsSubsequence(a[..k], b)
    decreases |b|
  {
    if k > 0 {
      if a[0] == b[0] && IsSubsequence(a[1..], b[1..]) {
        PrefixIsSubsequence(a[1..], b[1..], k - 1);
        assert a[..k][1..] == a[1..][..k - 1];
      } else {
        PrefixIsSubsequence(a, b[1..], k);
      }
    }
  }

  /** Appending a common element preserves the subsequence relation. */
  lemma {:induction false} SubsequenceCons<T>(x: T, a: seq<T>, b: seq<T>)
    requires IsSubsequence(a, b)
    ensures IsSubsequence([x] + a, [x] + b)
  {
    assert ([x] + a)[1..] == a && ([x] + b)[1..] == b;
  }

  /** A subsequence of a subsequence is a subsequence. */
  lemma {:induction false} SubsequenceTransitive<T>(a: seq<T>, b: seq<T>, c: seq<T>)
    requires IsSubsequence(a, b) && IsSubsequence(b, c)
    ensures IsSubsequence(a, c)
    decreases |c|
  {
    if |a| > 0 {
      assert |b| > 0 && |c| > 0;
      if b[0] == c[0] && IsSubsequence(b[1..], c[1..]) {
        if a[0] == b[0] && IsSubsequence(a[1..], b[1..]) {
          SubsequenceTransitive(a[1..], b[1..], c[1..]);
        } else {
          SubsequenceTransitive(a, b[1..], c[1..]);
        }
      } else {
        SubsequenceTransitive(a, b, c[1..]);
      }
    }
  }

  /** Distinct keys survive deletion of elements. */
  lemma {:induction false} SubsequenceDistinct<T>(a: seq<T>, b: seq<T>, key: T -> int)
    requires IsSubsequence(a, b) && DistinctBy(b, key)
    ensures DistinctBy(a, key)
    decreases |b|
  {
    if |a| > 0 {
      if a[0] == b[0] && IsSubsequence(a[1..], b[1..]) {
        SubsequenceDistinct(a[1..], b[1..], key);
        SubsequenceMembers(a[1..], b[1..]);
        forall i, j | 0 <= i < j < |a|
          ensures key(a[i]) != key(a[j])
        {
          if i > 0 {
            assert a[i] == a[1..][i - 1] && a[j] == a[1..][j - 1];
          } else {
            assert a[j] in b[1..];
            var m :| 0 <= m < |b[1..]| && b[1..][m] == a[j];
            assert b[m + 1] == a[j];
          }
        }
      } else {
        SubsequenceDistinct(a, b[1..], key);
      }
    }
  }

  /** With distinct keys, there are exactly as many keys as elements. */
  lemma {:induction false} DistinctKeysCount<T>(s: seq<T>, key: T -> int)
    requires DistinctBy(s, key)
    ensures |Keys(s, key)| == |s|
    decreases |s|
  {
    if |s| > 0 {
      assert DistinctBy(s[1..], key) by {
        forall i, j | 0 <= i < j < |s[1..]|
          ensures key(s[1..][i]) != key(s[1..][j])
        {
          assert s[1..][i] == s[i + 1] && s[1..][j] == s[j + 1];
        }
      }
      DistinctKeysCount(s[1..], key);
    }
  }

  /** Sequences with the same members have the same keys. */
  lemma SameMembersSameKeys<T>(a: seq<T>, b: seq<T>, key: T -> int)
    requires forall x :: x in a <==> x in b
    ensures Keys(a, key) == Keys(b, key)
  {
    forall k | k in Keys(a, key)
      ensures k in Keys(b, key)
    {
      var i :| 0 <= i < |a| && key(a[i]) == k;
      assert a[i] in b;
    }
    forall k | k in Keys(b, key)
      ensures k in Keys(a, key)
    {
      var i :| 0 <= i < |b| && key(b[i]) == k;
      assert b[i] in a;
    }
  }

  /** `xs.map(f).filter(defined)`: the values `f` gives, skipping the absent ones,
      in the order of `xs`. */
  function Collect<T, U>(xs: seq<T>, f: T -> Option<U>): (r: seq<U>)
    ensures |r| <= |xs|
    decreases |xs|
  {
    if |xs| == 0 then []
    else (if f(xs[0]).Some? then [f(xs[0]).value] else []) + Collect(xs[1..], f)
  }

  /** Every collected value is the value of some element. */
  lemma {:induction false} CollectSources<T, U>(xs: seq<T>, f: T -> Option<U>, i: nat) returns (j: nat)
    requires i < |Collect(xs, f)|
    ensures j < |xs| && f(xs[j]) == Some(Collect(xs, f)[i])
    decreases |xs|
  {
    var rest := Collect(xs[1..], f);
    if f(xs[0]).Some? {
      assert Collect(xs, f) == [f(xs[0]).value] + rest;
      if i == 0 {
        j := 0;
      } else {
        assert Collect(xs, f)[i] == rest[i - 1];
        var k := CollectSources(xs[1..], f, i - 1);
        j := k + 1;
      }
    } else {
      assert Collect(xs, f) == rest;
      var k := CollectSources(xs[1..], f, i);
      j := k + 1;
    }
  }

  /** Every element with a value contributes it. */
  lemma {:induction false} CollectCovers<T, U>(xs: seq<T>, f: T -> Option<U>, j: nat) returns (i: nat)
    requires j < |xs| && f(xs[j]).Some?
    ensures i < |Collect(xs, f)| && Collect(xs, f)[i] == f(xs[j]).value
    decreases |xs|
  {
    var rest := Collect(xs[1..], f);
    if j == 0 {
      i := 0;
    } else {
      assert xs[j] == xs[1..][j - 1];
      var k := CollectCovers(xs[1..], f, j - 1);
      if f(xs[0]).Some? {
        assert Collect(xs, f) == [f(xs[0]).value] + rest;
        i := k + 1;
      } else {
        i := k;
      }
    }
  }
}

=== FILE: simpleheader.dfy ===
/** The simplified header: its cart count, its dashboard link, and the state
    machine of its slide-in mobile menu. */
module SimpleHeader {
  import opened Options
  import opened Text
  import opened Users
  import Header

  /** The number of items; a line without a quantity counts as 0. */
  function ItemCount(qs: Header.Quantities): (r: int)
    ensures (forall i :: 0 <= i < |qs| ==> qs[i].Some? && qs[i].value >= 0) ==> r >= 0
    decreases |qs|
  {
    if |qs| == 0 then 0
    else
      assert forall i :: 0 <= i < |qs| - 1 ==> qs[..|qs| - 1][i] == qs[i];
      ItemCount(qs[..|qs| - 1]) + qs[|qs| - 1].GetOr(0)
  }

  /** Each line's quantity, 0 when missing. */
  function OrZero(qs: Header.Quantities): seq<int> {
    seq(|qs|, i requires 0 <= i < |qs| => qs[i].GetOr(0))
  }

  /** The count is the sum of the quantities, a missing one read as 0. */
  lemma {:induction false} ItemCountIsSum(qs: Header.Quantities)
    ensures ItemCount(qs) == Header.Sum(OrZero(qs))
    decreases |qs|
  {
    if |qs| > 0 {
      var init := qs[..|qs| - 1];
      ItemCountIsSum(init);
      assert OrZero(qs) == OrZero(init) + [qs[|qs| - 1].GetOr(0)];
      Header.SumAppend(OrZero(init), [qs[|qs| - 1].GetOr(0)]);
      assert Header.Sum([qs[|qs| - 1].GetOr(0)]) == qs[|qs| - 1].GetOr(0);
    }
  }

  /** When every line has a quantity, both headers show the same count; the
      simplified header still shows one when a quantity is missing. */
  lemma {:induction false} CountsAgree(qs: Header.Quantities)
    ensures (forall i :: 0 <= i < |qs| ==> qs[i].Some?) ==> Header.ItemCount(qs) == Some(ItemCount(qs))
    ensures (exists i :: 0 <= i < |qs| && qs[i].None?) ==> Header.ItemCount(qs).None?
    decreases |qs|
  {
    if |qs| > 0 {
      CountsAgree(qs[..|qs| - 1]);
      assert forall i :: 0 <= i < |qs| - 1 ==> qs[..|qs| - 1][i] == qs[i];
    }
  }

  function BadgeShown(count: int): bool {
    count > 0
  }

  /** `getDashboardLink`: the home page for guests, then admin and seller
      dashboards, and the buyer dashboard for every other role. */
  function DashboardLink(user: Option<User>): (r: string)
    ensures user.None? ==> r == "/"
    ensures r == "/admin" <==> user.Some? && user.value.role == "admin"
    ensures r == "/seller/dashboard" <==> user.Some? && user.value.role == "seller"
    ensures r == "/buyer/dashboard" <==> user.Some? && user.value.role != "admin" && user.value.role != "seller"
  {
    if user.None? then "/"
    else if user.value.role == "admin" then "/admin"
    else if user.value.role == "seller" then "/seller/dashboard"
    else "/buyer/dashboard"
  }

  /** The two headers send a user to the same dashboard exactly when the user is
      signed in with one of the three known roles. */
  lemma DashboardLinksAgreeIff(user: Option<User>)
    ensures DashboardLink(user) == Header.DashboardLink(user) <==>
      user.Some? && user.value.role in {"admin", "seller", "buyer"}
  {
  }

  /** The mobile menu's cart button: "Cart" followed by the count in
      parentheses when positive. */
  function CartLabel(count: int): (r: string)
    ensures |r| >= 5 && r[..5] == "Cart "
    ensures count > 0 <==> |r| > 5
    ensures count > 0 ==> r[5] == '(' && r[|r| - 1] == ')' && r[6..|r| - 1] == IntToString(count)
  {
    if count > 0 then "Cart " + "(" + IntToString(count) + ")" else "Cart "
  }

  /** The mobile menu's account buttons and where each leads. */
  datatype MenuButton = Navigate(caption: string, path: string) | LogoutButton

  function AccountButtons(user: Option<User>): (r: seq<MenuButton>)
    ensures user.None? <==> r == [Navigate("Login", "/auth")]
    ensures user.Some? ==> |r| == 2 && r[0].Navigate? && r[0].path == DashboardLink(user) && r[1] == LogoutButton
  {
    if user.None? then [Navigate("Login", "/auth")]
    else [Navigate("Dashboard", DashboardLink(user)), LogoutButton]
  }

  /** The header's own state: the location and whether the menu is open. */
  datatype State = State(location: string, menuOpen: bool)

  /** The interactions: the hamburger, the close button and the backdrop, a
      menu button that navigates, the cart button, and logout, whose request
      either succeeds or throws. */
  datatype Event = Hamburger | CloseButton | Backdrop | NavigateTo(path: string) | CartClicked | Logout(succeeded: bool)

  function Step(s: State, e: Event): (r: State)
    ensures e.NavigateTo? ==> r == State(e.path, false)
    ensures e.CartClicked? ==> r == s.(location := "/cart")
    ensures e == CloseButton || e == Backdrop ==> r == s.(menuOpen := false)
    ensures e == Hamburger ==> r.location == s.location && r.menuOpen == !s.menuOpen
    ensures e.Logout? ==> r.menuOpen == s.menuOpen
    ensures e.Logout? ==> (r.location == "/" || r == s)
  {
    match e
    case Hamburger => s.(menuOpen := !s.menuOpen)
    case CloseButton => s.(menuOpen := false)
    case Backdrop => s.(menuOpen := false)
    case NavigateTo(path) => State(path, false)
    case CartClicked => s.(location := "/cart")
    case Logout(ok) => if ok then s.(location := "/") else s
  }

  /** Every button of the mobile menu that navigates also closes the menu, while
      the cart button leaves it open. */
  lemma MenuButtonsClose(s: State, user: Option<User>, i: nat)
    requires i < |AccountButtons(user)| && AccountButtons(user)[i].Navigate?
    ensures !Step(s, NavigateTo(AccountButtons(user)[i].path)).menuOpen
    ensures s.menuOpen ==> Step(s, CartClicked).menuOpen
  {
  }

  /** Opening and then dismissing the menu, by either means, changes nothing
      else. */
  lemma DismissRestores(s: State)
    requires !s.menuOpen
    ensures Step(Step(s, Hamburger), CloseButton) == s
    ensures Step(Step(s, Hamburger), Backdrop) == s
    ensures Step(Step(s, Hamburger), Hamburger) == s
  {
  }
}

=== FILE: sorting.dfy ===
/** `Array.prototype.sort` with a numeric comparator `(a, b) => key(a) - key(b)`.
    ECMAScript engines sort stably, so the model is a stable insertion sort; a
    descending comparator `b - a` is the same sort on the negated key. */
module Sorting {
  import opened Seqs

  predicate SortedBy<T>(s: seq<T>, key: T -> int) {
    forall i, j :: 0 <= i < j < |s| ==> key(s[i]) <= key(s[j])
  }

  /** The tail of a sorted sequence is sorted. */
  lemma TailSorted<T>(s: seq<T>, key: T -> int)
    requires |s| > 0 && SortedBy(s, key)
    ensures SortedBy(s[1..], key)
  {
    forall a, b | 0 <= a < b < |s[1..]| ensures key(s[1..][a]) <= key(s[1..][b]) {
      assert s[1..][a] == s[a + 1] && s[1..][b] == s[b + 1];
    }
  }

  /** A sorted sequence stays sorted under a new front whose key is no larger
      than any of its keys. */
  lemma ConsSorted<T>(h: T, t: seq<T>, key: T -> int)
    requires SortedBy(t, key)
    requires forall i :: 0 <= i < |t| ==> key(h) <= key(t[i])
    ensures SortedBy([h] + t, key)
  {
    var r := [h] + t;
    forall i, j | 0 <= i < j < |r| ensures key(r[i]) <= key(r[j]) {
      assert r[j] == t[j - 1];
      if i > 0 {
        assert r[i] == t[i - 1];
      }
    }
  }

  /** Places `x` before the first element whose key is not smaller than its own. */
  function Insert<T>(x: T, s: seq<T>, key: T -> int): (r: seq<T>)
    ensures |r| == |s| + 1
    ensures multiset(r) == multiset(s) + multiset{x}
    decreases |s|
  {
    if |s| == 0 || key(x) <= key(s[0]) then [x] + s
    else
      assert s == [s[0]] + s[1..];
      [s[0]] + Insert(x, s[1..], key)
  }

  /** Inserting into a sorted sequence keeps it sorted. */
  lemma {:induction false} InsertSorted<T>(x: T, s: seq<T>, key: T -> int)
    requires SortedBy(s, key)
    ensures SortedBy(Insert(x, s, key), key)
    decreases |s|
  {
    if |s| == 0 || key(x) <= key(s[0]) {
      ConsSorted(x, s, key);
    } else {
      TailSorted(s, key);
      InsertSorted(x, s[1..], key);
      var rest := Insert(x, s[1..], key);
      forall i | 0 <= i < |rest| ensures key(s[0]) <= key(rest[i]) {
        assert rest[i] in multiset(rest);
        if rest[i] != x {
          assert rest[i] in multiset(s[1..]);
          var m :| 0 <= m < |s[1..]| && s[1..][m] == rest[i];
          assert s[m + 1] == rest[i];
        }
      }
      ConsSorted(s[0], rest, key);
    }
  }

  /** A stable sort by ascending key. */
  function SortBy<T>(s: seq<T>, key: T -> int): (r: seq<T>)
    ensures |r| == |s|
    ensures multiset(r) == multiset(s)
    ensures SortedBy(r, key)
    decreases |s|
  {
    if |s| == 0 then []
    else
      assert s == [s[0]] + s[1..];
      InsertSorted(s[0], SortBy(s[1..], key), key);
      Insert(s[0], SortBy(s[1..], key), key)
  }

  /** The predicate "has key `k`". */
  function HasKey<T>(key: T -> int, k: int): T -> bool {
    x => key(x) == k
  }

  lemma {:induction false} InsertStable<T>(x: T, s: seq<T>, key: T -> int, k: int)
    ensures Filter(Insert(x, s, key), HasKey(key, k)) ==
            (if key(x) == k then [x] else []) + Filter(s, HasKey(key, k))
    decreases |s|
  {
    var p := HasKey(key, k);
    assert forall y :: p(y) == (key(y) == k);
    if |s| == 0 || key(x) <= key(s[0]) {
      assert Insert(x, s, key) == [x] + s;
      assert ([x] + s)[1..] == s;
      assert Filter([x] + s, p) == (if p(x) then [x] else []) + Filter(s, p);
    } else {
      InsertStable(x, s[1..], key, k);
      var rest := Insert(x, s[1..], key);
      assert Insert(x, s, key) == [s[0]] + rest;
      FilterAppend([s[0]], rest, p);
      assert s == [s[0]] + s[1..];
      FilterAppend([s[0]], s[1..], p);
      var front := if key(x) == k then [x] else [];
      assert Filter(rest, p) == front + Filter(s[1..], p);
      if key(x) == k {
        assert Filter([s[0]], p) == [];
        assert Filter(s, p) == Filter(s[1..], p);
        assert Filter(Insert(x, s, key), p) == Filter(rest, p);
      } else {
        assert Filter(rest, p) == Filter(s[1..], p);
        assert Filter(Insert(x, s, key), p) == Filter(s, p);
      }
    }
  }

  /** Stability: elements with equal keys keep their original relative order. */
  lemma {:induction false} SortStable<T>(s: seq<T>, key: T -> int, k: int)
    ensures Filter(SortBy(s, key), HasKey(key, k)) == Filter(s, HasKey(key, k))
    decreases |s|
  {
    if |s| > 0 {
      SortStable(s[1..], key, k);
      InsertStable(s[0], SortBy(s[1..], key), key, k);
    }
  }

  lemma {:induction false} InsertCount<T>(x: T, s: seq<T>, key: T -> int, p: T -> bool)
    ensures |Filter(Insert(x, s, key), p)| == |Filter(s, p)| + (if p(x) then 1 else 0)
    decreases |s|
  {
    if |s| == 0 || key(x) <= key(s[0]) {
      assert ([x] + s)[1..] == s;
    } else {
      InsertCount(x, s[1..], key, p);
      var r := Insert(x, s, key);
      assert r[1..] == Insert(x, s[1..], key);
    }
  }

  /** Sorting neither adds nor removes elements satisfying any predicate. */
  lemma {:induction false} SortCount<T>(s: seq<T>, key: T -> int, p: T -> bool)
    ensures |Filter(SortBy(s, key), p)| == |Filter(s, p)|
    decreases |s|
  {
    if |s| > 0 {
      SortCount(s[1..], key, p);
      InsertCount(s[0], SortBy(s[1..], key), key, p);
    }
  }

  /** Sorting has the same members as its input. */
  lemma SortMembers<T>(s: seq<T>, key: T -> int)
    ensures forall x :: x in SortBy(s, key) <==> x in s
  {
    var r := SortBy(s, key);
    forall x ensures x in r <==> x in s {
      assert x in r <==> x in multiset(r);
    }
  }

  /** Sorting preserves distinctness of any key. */
  lemma {:induction false} SortDistinct<T>(s: seq<T>, key: T -> int, id: T -> int)
    requires DistinctBy(s, id)
    ensures DistinctBy(SortBy(s, key), id)
    decreases |s|
  {
    if |s| > 0 {
      assert DistinctBy(s[1..], id) by {
        forall i, j | 0 <= i < j < |s[1..]| ensures id(s[1..][i]) != id(s[1..][j]) {
          assert s[1..][i] == s[i + 1] && s[1..][j] == s[j + 1];
        }
      }
      SortDistinct(s[1..], key, id);
      SortMembers(s[1..], key);
      forall y | y in SortBy(s[1..], key) ensures id(y) != id(s[0]) {
        assert y in multiset(SortBy(s[1..], key));
        assert y in s[1..];
        var m :| 0 <= m < |s[1..]| && s[1..][m] == y;
        assert s[m + 1] == y;
      }
      InsertDistinct(s[0], SortBy(s[1..], key), key, id);
    }
  }

  lemma {:induction false} InsertDistinct<T>(x: T, s: seq<T>, key: T -> int, id: T -> int)
    requires DistinctBy(s, id)
    requires forall y :: y in s ==> id(y) != id(x)
    ensures DistinctBy(Insert(x, s, key), id)
    decreases |s|
  {
    var r := Insert(x, s, key);
    if |s| == 0 || key(x) <= key(s[0]) {
      forall i, j | 0 <= i < j < |r| ensures id(r[i]) != id(r[j]) {
        assert r[j] == s[j - 1];
        if i > 0 {
          assert r[i] == s[i - 1];
        }
      }
    } else {
      assert DistinctBy(s[1..], id) by {
        forall i, j | 0 <= i < j < |s[1..]| ensures id(s[1..][i]) != id(s[1..][j]) {
          assert s[1..][i] == s[i + 1] && s[1..][j] == s[j + 1];
        }
      }
      InsertDistinct(x, s[1..], key, id);
      var rest := Insert(x, s[1..], key);
      assert r == [s[0]] + rest;
      forall y | y in rest ensures id(y) != id(s[0]) {
        assert y in multiset(rest);
        if y != x {
          assert y in s[1..];
          var m :| 0 <= m < |s[1..]| && s[1..][m] == y;
          assert s[m + 1] == y;
        }
      }
      forall i, j | 0 <= i < j < |r| ensures id(r[i]) != id(r[j]) {
        assert r[j] == rest[j - 1];
        if i > 0 {
          assert r[i] == rest[i - 1];
        } else {
          assert r[j] in rest;
        }
      }
    }
  }

  /** Filtering a sorted sequence keeps it sorted. */
  lemma {:induction false} FilterSorted<T>(s: seq<T>, key: T -> int, p: T -> bool)
    requires SortedBy(s, key)
    ensures SortedBy(Filter(s, p), key)
    decreases |s|
  {
    if |s| > 0 {
      var rest := Filter(s[1..], p);
      TailSorted(s, key);
      FilterSorted(s[1..], key, p);
      if p(s[0]) {
        assert Filter(s, p) == [s[0]] + rest;
        forall i | 0 <= i < |rest| ensures key(s[0]) <= key(rest[i]) {
          var m :| 0 <= m < |s[1..]| && s[1..][m] == rest[i];
          assert s[m + 1] == rest[i];
        }
        ConsSorted(s[0], rest, key);
      } else {
        assert Filter(s, p) == rest;
      }
    }
  }
}

=== FILE: text.dfy ===
/** Strings as sequences of characters: ASCII lower-casing and substring search,
    the two string operations the storefront's selection rules rely on. */
module Text {

  function LowerChar(c: char): char {
    if 'A' <= c <= 'Z' then (c as int + 32) as char else c
  }

  /** `String.prototype.toLowerCase`, restricted to ASCII letters. */
  function Lower(s: string): string {
    seq(|s|, i requires 0 <= i < |s| => LowerChar(s[i]))
  }

  predicate StartsWith(s: string, t: string) {
    |t| <= |s| && s[..|t|] == t
  }

  /** `s.includes(t)`: some suffix of `s` starts with `t`. */
  predicate Contains(s: string, t: string)
    decreases |s|
  {
    StartsWith(s, t) || (|s| > 0 && Contains(s[1..], t))
  }

  /** A case-insensitive regular expression consisting of one literal word,
      `/word/i.test(s)`. */
  predicate ContainsIgnoringCase(s: string, word: string) {
    Contains(Lower(s), Lower(word))
  }

  /** Lower-casing leaves already lower-cased text alone. */
  lemma LowerIdempotent(s: string)
    ensures Lower(Lower(s)) == Lower(s)
  {
  }

  /** `t` occurs in `s` starting at offset `k`. */
  predicate OccursAt(s: string, t: string, k: int) {
    0 <= k && k + |t| <= |s| && s[k..k + |t|] == t
  }

  /** `Contains` holds exactly when `t` occurs at some offset of `s`. */
  lemma {:induction false} ContainsAt(s: string, t: string)
    ensures Contains(s, t) <==> exists k :: OccursAt(s, t, k)
  {
    if StartsWith(s, t) {
      assert OccursAt(s, t, 0);
    } else if |s| == 0 {
    } else {
      ContainsAt(s[1..], t);
      if Contains(s, t) {
        var k :| OccursAt(s[1..], t, k);
        assert s[k + 1..k + 1 + |t|] == s[1..][k..k + |t|];
        assert OccursAt(s, t, k + 1);
      }
      if exists k :: OccursAt(s, t, k) {
        var k :| OccursAt(s, t, k);
        assert k != 0;
        assert s[1..][k - 1..k - 1 + |t|] == s[k..k + |t|];
        assert OccursAt(s[1..], t, k - 1);
      }
    }
  }

  /** Decimal rendering of an integer, as in a template string. */
  function IntToString(n: int): (r: string)
    ensures |r| > 0
    decreases if n < 0 then 1 - n else n
  {
    if n < 0 then "-" + IntToString(-n)
    else if n < 10 then [Digit(n)]
    else IntToString(n / 10) + [Digit(n % 10)]
  }

  function Digit(d: int): char
    requires 0 <= d < 10
  {
    "0123456789"[d]
  }
}

=== FILE: trending.dfy ===
/** The home page's "Trending Products" box and the two trending pickers defined
    beside it: fashion products, one per name rule, then backfilled, four in all. */
module Trending {
  import opened Seqs
  import opened Text
  import opened Sorting
  import opened Catalog
  import opened Picking
  import ProductCard

  /** `(p.category || '').toLowerCase() === 'fashion'`. */
  predicate IsFashion(p: Product) {
    Lower(p.category) == "fashion"
  }

  /** The discount a trending candidate is ranked by: the rounded percentage
      when the list price and selling price are both truthy, otherwise 0. */
  function TrendingDiscount(p: Product): (r: int)
    ensures HasMrp(p) && p.price != 0 ==> r == RoundedDiscount(p.mrp.value, p.price)
    ensures !(HasMrp(p) && p.price != 0) ==> r == 0
    ensures HasRealDiscount(p) ==> r == ProductCard.DiscountPercent(p)
    ensures HasMrp(p) && p.price <= p.mrp.value ==> 0 <= r <= 100
  {
    if HasMrp(p) && p.price != 0 then
      TrendingRange(p.mrp.value, p.price);
      RoundedDiscount(p.mrp.value, p.price)
    else 0
  }

  lemma TrendingRange(mrp: nat, price: nat)
    requires mrp > 0
    ensures price <= mrp ==> 0 <= RoundedDiscount(mrp, price) <= 100
  {
    if price <= mrp {
      DiscountRange(mrp, price);
    }
  }

  /** A case-insensitive test on the product name. `/t\s*-?shirt|shirt/i` and
      `/shirt|tshirt/i` both match exactly the names containing "shirt", since
      every text the `tshirt` alternatives match contains it. */
  predicate NameHas(p: Product, word: string) {
    ContainsIgnoringCase(p.name, word)
  }

  predicate SubcategoryHas(p: Product, word: string) {
    ContainsIgnoringCase(p.subcategory, word)
  }

  /** The box's rules, in order: shirt or t-shirt, saree, top, jeans. */
  const BoxRules: seq<Product -> bool> := [
    (p: Product) => NameHas(p, "shirt"),
    (p: Product) => NameHas(p, "saree"),
    (p: Product) => NameHas(p, "top"),
    (p: Product) => NameHas(p, "jeans")]

  /** The fashion products ordered by ascending discount, ties in catalogue order. */
  function FashionByDiscount(products: seq<Product>): (r: seq<Product>)
    ensures forall i :: 0 <= i < |r| ==> IsFashion(r[i])
    ensures SortedBy(r, TrendingDiscount)
    ensures multiset(r) == multiset(Filter(products, IsFashion))
  {
    var fashion := Filter(products, IsFashion);
    var r := SortBy(fashion, TrendingDiscount);
    forall i | 0 <= i < |r| ensures IsFashion(r[i]) {
      assert r[i] in multiset(fashion);
    }
    r
  }

  /** The "Trending Products" box: the rule picks over the sorted fashion
      products, then the unused ones until there are four. No final slice is
      needed: four rules never pick more than four. */
  function TrendingProducts(products: seq<Product>): (r: seq<Product>)
    ensures r == Pick(FashionByDiscount(products), BoxRules, 4)
    ensures |r| == Min(4, |Ids(Filter(products, IsFashion))|)
    ensures forall i :: 0 <= i < |r| ==> IsFashion(r[i])
    ensures DistinctIds(r)
  {
    var pool := FashionByDiscount(products);
    var ruled := ApplyRules(pool, BoxRules, {});
    BackfillWithinCap(pool, ruled, Ids(ruled), 4);
    SortMembers(Filter(products, IsFashion), TrendingDiscount);
    SameMembersSameKeys(pool, Filter(products, IsFashion), ProductId);
    Backfill(pool, ruled, Ids(ruled), 4)
  }

  /** The box renders only with exactly four products, which happens exactly when
      at least four distinct fashion product ids are loaded. */
  predicate TrendingShown(products: seq<Product>) {
    |TrendingProducts(products)| == 4
  }

  lemma TrendingShownIff(products: seq<Product>)
    ensures TrendingShown(products) <==> |Ids(Filter(products, IsFashion))| >= 4
  {
  }

  /** When some fashion product has "shirt" in its name, the box opens with a
      shirt, and with one of the least discounted such products. */
  lemma TrendingOpensWithCheapestShirt(products: seq<Product>, x: Product)
    requires x in products && IsFashion(x) && NameHas(x, "shirt")
    ensures |TrendingProducts(products)| > 0
    ensures NameHas(TrendingProducts(products)[0], "shirt")
    ensures TrendingDiscount(TrendingProducts(products)[0]) <= TrendingDiscount(x)
  {
    var pool := FashionByDiscount(products);
    var rule := BoxRules[0];
    assert x in Filter(products, IsFashion);
    SortMembers(Filter(products, IsFashion), TrendingDiscount);
    assert x in pool;
    var shirts := Filter(pool, rule);
    assert rule(x);
    assert x in shirts;
    FirstRulePick(pool, BoxRules, 4);
    FilterSorted(pool, TrendingDiscount, rule);
    var k :| 0 <= k < |shirts| && shirts[k] == x;
    assert rule(shirts[0]);
  }

  /** `pickTrendingFashionProducts`: saree, men's shirt, men's jeans and top, by
      subcategory or name, over the given list as it stands. */
  const LooseRules: seq<Product -> bool> := [
    (p: Product) => SubcategoryHas(p, "saree") || NameHas(p, "saree"),
    (p: Product) => SubcategoryHas(p, "shirt") && NameHas(p, "men"),
    (p: Product) => SubcategoryHas(p, "jeans") && NameHas(p, "men"),
    (p: Product) => SubcategoryHas(p, "top") || NameHas(p, "top")]

  function PickTrendingFashion(fashion: seq<Product>): (r: seq<Product>)
    ensures |r| == Min(4, |Ids(fashion)|)
    ensures forall i :: 0 <= i < |r| ==> r[i] in fashion
    ensures DistinctIds(r)
  {
    Pick(fashion, LooseRules, 4)
  }

  /** `pickTrendingFashionProductsStrict`: shirt, top, saree, jeans, by name. */
  const StrictRules: seq<Product -> bool> := [
    (p: Product) => NameHas(p, "shirt"),
    (p: Product) => NameHas(p, "top"),
    (p: Product) => NameHas(p, "saree"),
    (p: Product) => NameHas(p, "jeans")]

  function PickTrendingFashionStrict(fashion: seq<Product>): (r: seq<Product>)
    ensures |r| == Min(4, |Ids(fashion)|)
    ensures forall i :: 0 <= i < |r| ==> r[i] in fashion
    ensures DistinctIds(r)
  {
    Pick(fashion, StrictRules, 4)
  }

  /** Both pickers lead with the first product matching their first rule. */
  lemma PickersLeadWithFirstRule(fashion: seq<Product>)
    ensures |Filter(fashion, LooseRules[0])| > 0 ==>
      PickTrendingFashion(fashion)[0] == Filter(fashion, LooseRules[0])[0]
    ensures |Filter(fashion, StrictRules[0])| > 0 ==>
      PickTrendingFashionStrict(fashion)[0] == Filter(fashion, StrictRules[0])[0]
  {
    if |Filter(fashion, LooseRules[0])| > 0 {
      FirstRulePick(fashion, LooseRules, 4);
    }
    if |Filter(fashion, StrictRules[0])| > 0 {
      FirstRulePick(fashion, StrictRules, 4);
    }
  }
}

=== FILE: users.dfy ===
/** The signed-in user as the headers and the product card see it. `role` is
    the server's role string ("admin", "seller", "buyer", or anything else); a
    missing user is `None`. */
module Users {
  datatype User = User(role: string, name: string, username: string)

  /** `user.name || user.username`. */
  function DisplayName(u: User): string {
    if u.name != "" then u.name else u.username
  }
}
